=== FILE: README.md ===
# SkilXpress core in Dafny

SkilXpress is a skill marketplace. Providers post short skill videos and clients
book them, chat with them and review them. The app is a React/TypeScript client
on Supabase, plus an Express moderation server, two Supabase edge functions
(chat reminders and e-mail notifications) and a pair of one-off patch scripts
that edit `src/App.tsx`.

This project models the logic in those files as pure Dafny functions over
immutable datatypes:

- Rows fetched from the database are inputs.
- Writes and e-mails are outputs.
- The clock and random tokens are parameters.
- Each outcome of a backend call (success, error, missing row) is an input datatype.

Each source file becomes one module:

| module | source |
|---|---|
| `Validation` | `src/utils/validation.ts` |
| `Moderation` | `server/services/videoModeration.ts` |
| `TikTok` | `src/lib/tiktokHelpers.ts` |
| `Upload` | `src/lib/uploadHelpers.ts` |
| `Carousel` | `src/hooks/useCarousel.ts` |
| `ProfileCompletion`, `Follow`, `VideoFeed`, `AdminPanel`, `AuthModal`, `ProviderDashboard`, `ClientDashboard`, `NotificationsView`, `ConversationList`, `Chat`, `ReviewsSheet` | the components of the same names |
| `AuthContext` | `src/contexts/AuthContext.tsx` |
| `ChatReminder`, `EmailRouting` | the two edge functions |
| `UpdateApp` | `update_app.py` and `update_app.js` |

Three helper modules are shared:

- `Text`: `Option`, the ECMAScript white-space set, `trim`, ASCII lower-casing, substring search, join, and decimal digits.
- `Sorting`: an insertion sort by a descending integer key.
- `Patch`: a matcher for the patch scripts' anchor patterns, where `\r?\n` matches either line ending. It has two substitutions: Python's `re.sub`, which replaces every match, and JavaScript's `String.replace`, which replaces the first match only.

## Model

| member | source | states |
|---|---|---|
| Validation.ValidateEmailShape | src/utils/validation.ts:5-8 | an address is accepted exactly when it is `L@R`, where L and R are non-empty and have no white space or '@', and R has a '.' that is neither its first nor its last character |
| Validation.FullNameShape | src/utils/validation.ts:14-17 | an accepted name, once trimmed, starts and ends with an ASCII letter; a blank name is never accepted |
| Validation.FullNameIff | src/utils/validation.ts:14-17 | a name is accepted exactly when it is made of letters and spaces only and holds at least two letters |
| Validation.ValidatePassword | src/utils/validation.ts:23-82 | the issues are the failing rules in their fixed order; the password is valid exactly when there are no issues; the strength is the band of the score; length is counted in UTF-16 code units, as `password.length` does |
| Validation.ExpectedIssuesUnfold | src/utils/validation.ts:31-65 | the issue list is length, lowercase, uppercase, digit, special, each present only when its rule fails |
| Validation.IssuesForMembers | src/utils/validation.ts:31-65 | a rule's message is listed exactly when that rule fails, there is at most one message per rule, and there are none exactly when every rule passes |
| Validation.IssueTextInjective | src/utils/validation.ts:31-65 | no two rules share a message, so each issue names one rule |
| Validation.IssuesAreFailingRules | src/utils/validation.ts:31-78 | there are at most five issues, one for each failing rule, and isValid holds exactly when every rule passes |
| Validation.ShortFailsLengthFirst | src/utils/validation.ts:31-34 | a password under eight UTF-16 code units has the length issue first |
| Validation.AllClassesValid | src/utils/validation.ts:31-82 | eight UTF-16 code units with a lowercase letter, an uppercase letter, a digit and a special character make a valid password |
| Validation.StrengthThresholds | src/utils/validation.ts:67-75 | weak exactly below 40, medium exactly from 40 up to 70, strong from 70 |
| Validation.ScoreUnfold | src/utils/validation.ts:29-65 | the score is 20 for a UTF-16 length of at least 8, 10 more from 12, and 20 for each character class present |
| Validation.SurrogatePairsCountTwice | src/utils/validation.ts:32-36 | a character outside the Basic Multilingual Plane counts twice: "Abc1!" followed by two emoji is seven characters, nine code units, and valid |
| Validation.ValidPasswordIsStrong | src/utils/validation.ts:32-79 | a password with no issues scores at least 100 and is strong |
| Validation.StrengthPercentage | src/utils/validation.ts:87-98 | the percentage is min(score, 100) of the same score validatePassword uses, with the same UTF-16 length; it lies in [0, 100] and is 100 for every valid password |
| Validation.StrengthColorDistinct | src/utils/validation.ts:103-112 | each strength has its own Tailwind `bg-` colour |
| Moderation.CheckVideoSafety | server/services/videoModeration.ts:112-147 | when the moderation call fails, all three flags are off and the fallback summary is used; an answered call reports no concerns |
| Moderation.CategoryFlags | server/services/videoModeration.ts:128-132 | nudity is flagged exactly for `sexual` or `sexual/minors`, violence exactly for `violence` or `violence/graphic`, explicit content exactly for `sexual` or `hate`; the summary names the title or "untitled content" |
| Moderation.RaisedCategoryBlocks | server/services/videoModeration.ts:60-147 | some safety flag is set exactly when some moderation category is raised, and then the video is not approved and its reason does not read "Approved" |
| Moderation.ClassifySkillContent | server/services/videoModeration.ts:153-222 | when the classifier fails, the video counts as skill-related with confidence 0.5 and no skill; a detected skill is never empty |
| Moderation.ReasonApprovedIffNoFailure | server/services/videoModeration.ts:227-250 | the reason starts with "Approved" exactly when there is no failure; it names the skill and the percentage when a skill was detected, and says "Skill-related content" otherwise |
| Moderation.ReasonListsFailuresInOrder | server/services/videoModeration.ts:227-249 | with any failure, the reason is the failures in the order nudity, violence, explicit, not-skill, joined by "; " |
| Moderation.ModerateVideo | server/services/videoModeration.ts:60-107 | skillFlag is always the negation of isSkillRelated; approval holds exactly when no flag is set, the video is skill-related and the confidence reaches the threshold; approval implies an "Approved" reason; a failed safety call sets no flags; a failed classifier is never approved under the default threshold |
| Moderation.ThresholdDefault | server/services/videoModeration.ts:255-264 | the threshold is the environment value, or 0.6 when that value is missing, not a number, or zero |
| Moderation.ReasonSaysApprovedWhenRejected | server/services/videoModeration.ts:243-263 | a clean video whose classifier failed is rejected, yet its reason reads "Approved - Skill-related content" |
| Moderation.CorrectedReasonMatchesApproval | server/services/videoModeration.ts:227-264 | the corrected reason starts with "Approved" exactly when the video is approved |
| Moderation.ModerateVideoCorrected | server/services/videoModeration.ts:60-107 | same decision and flags as moderateVideo, and the reason agrees with the decision in both directions |
| TikTok.FindStd | src/lib/tiktokHelpers.ts:19-22 | finds the leftmost position where `tiktok.com/@name/video/digits` matches, or reports that it matches nowhere |
| TikTok.FindMobile | src/lib/tiktokHelpers.ts:25-30 | finds the leftmost position where `vm.tiktok.com/code` matches, or reports that it matches nowhere |
| TikTok.StdMatchIff | src/lib/tiktokHelpers.ts:42-44 | the standard matcher succeeds exactly where the pattern's shape occurs: a non-empty handle, then `/video/`, then at least one digit |
| TikTok.MobileMatchIff | src/lib/tiktokHelpers.ts:42-44 | the short-link matcher succeeds exactly where `vm.tiktok.com/` is followed by at least one code character |
| TikTok.MatchId | src/lib/tiktokHelpers.ts:16-32 | there is no id exactly when neither pattern occurs; an id is never empty |
| TikTok.StdId | src/lib/tiktokHelpers.ts:19-22 | the captured id is the whole digit run after `/video/`: non-empty, all digits, and not followed by another digit |
| TikTok.MatchStandardId | src/lib/tiktokHelpers.ts:16-22 | when the standard pattern occurs anywhere, it wins over the short link, and the id is the one captured by its leftmost match |
| TikTok.MobileCode | src/lib/tiktokHelpers.ts:25-30 | the captured code is the whole run of code characters after `vm.tiktok.com/`: non-empty and not followed by another code character |
| TikTok.MatchMobileCode | src/lib/tiktokHelpers.ts:16-30 | without a standard link, the id is the code captured by the leftmost short link |
| TikTok.ExtractVideoId | src/lib/tiktokHelpers.ts:13-37 | after trimming, null exactly when neither pattern occurs |
| TikTok.StdShapeInTrim | src/lib/tiktokHelpers.ts:16-22 | trimming cannot cut into a standard match: it survives at the shifted position |
| TikTok.MobileShapeInTrim | src/lib/tiktokHelpers.ts:16-30 | trimming cannot cut into a short-link match |
| TikTok.TikTokUrlHasId | src/lib/tiktokHelpers.ts:13-44 | every URL isTikTokUrl accepts yields an id |
| TikTok.EmbedUrl | src/lib/tiktokHelpers.ts:49-57 | the embed URL always starts with the `embed/v2/` prefix, whatever the id's length |
| TikTok.EmbedUrlRoundTrip | src/lib/tiktokHelpers.ts:49-57 | the id can be read back from the embed URL by dropping the prefix |
| TikTok.ProcessTikTokUrl | src/lib/tiktokHelpers.ts:63-74 | null exactly when the URL is not a TikTok URL; otherwise the embed URL of the extracted id |
| Upload.ValidateFile | src/lib/uploadHelpers.ts:18-38 | valid exactly when size ≤ limit and the type is allowed (a file at the limit is accepted); otherwise the size error, or failing that the type error |
| Upload.SizeCheckedFirst | src/lib/uploadHelpers.ts:23-35 | an oversized file of a disallowed type reports the size error |
| Upload.Limits | src/lib/uploadHelpers.ts:3-7 | the video limit is 50·1024·1024 bytes and the image limit 2·1024·1024; the messages read "50MB" and "2MB" |
| Upload.FileNameFolderAndTime | src/lib/uploadHelpers.ts:43-48 | the name lies in the user's folder and the timestamp reads back from it |
| Upload.FileNameExtension | src/lib/uploadHelpers.ts:43-48 | the text after the name's last '.' is the original file's extension |
| Upload.UploadTo | src/lib/uploadHelpers.ts:57-92 | a file that fails validation raises its error before any storage request; a valid file is stored under the generated name; the result is the storage URL when storage succeeds, and "Upload failed: " plus storage's message otherwise; `onProgress` receives 100 exactly once, and only on success |
| Upload.ThrownMessageTellsCause | src/lib/uploadHelpers.ts:62-81 | a thrown message starts with "Upload failed: " exactly when the file passed validation and storage refused it |
| Upload.UploadVideo | src/lib/uploadHelpers.ts:57-85 | a storage request goes out exactly for a video within 50 MB of an allowed type, and only to the videos bucket |
| Upload.UploadAvatar | src/lib/uploadHelpers.ts:102-130 | a storage request goes out exactly for an image within 2 MB of an allowed type, and only to the avatars bucket |
| Upload.UploadPortfolioImage | src/lib/uploadHelpers.ts:147-175 | a storage request goes out exactly for an image within 2 MB of an allowed type, and only to the portfolio bucket |
| Upload.PortfolioMatchesAvatar | src/lib/uploadHelpers.ts:102-175 | portfolio and avatar uploads accept and reject the same files with the same outcome |
| Carousel.JsRem | src/hooks/useCarousel.ts:21-29 | JavaScript's `%` takes the sign of the dividend and is smaller than the divisor in magnitude |
| Carousel.GoToForgets | src/hooks/useCarousel.ts:11-34 | goTo forgets the previous state: the result depends only on the target, lies in range exactly for a valid target, and autoplay stays off through later ticks |
| Carousel.PauseResumeRoundTrip | src/hooks/useCarousel.ts:11-42 | pause and resume undo each other and are idempotent; a paused carousel ignores ticks, and after resume a tick advances by one |
| Carousel.Tick | src/hooks/useCarousel.ts:11-19 | the timer never changes the autoplay flag and does nothing while autoplay is off or there are no items |
| Carousel.NextPrevInRange | src/hooks/useCarousel.ts:21-29 | next and prev keep an in-range index in range, wrapping at the ends, and each undoes the other |
| Carousel.WrapOnce | src/hooks/useCarousel.ts:21-24 | for values below twice the length, the remainder is a single wrap |
| Carousel.EmptyCarouselIsNaN | src/hooks/useCarousel.ts:21-29 | with no items, next and prev make the index NaN |
| Carousel.GoToOutOfRange | src/hooks/useCarousel.ts:31-34 | goTo can leave the index out of range |
| Carousel.RunStaysInRange | src/hooks/useCarousel.ts:11-42 | any sequence of timer ticks, next, prev, pause, resume and in-range goTo keeps the index in range |
| Carousel.AutoPlayNeedsResume | src/hooks/useCarousel.ts:11-42 | once autoplay is off, only resume turns it back on |
| ProfileCompletion.PortfolioCount | src/components/ProfileCompletionMeter.tsx:23-37 | a failed count query keeps the count held before; an answered one gives its count, or 0 when the count is null; the count is positive exactly when the answer is |
| ProfileCompletion.Steps | src/components/ProfileCompletionMeter.tsx:39-47 | there are seven steps, each with a positive weight |
| ProfileCompletion.TotalProgress | src/components/ProfileCompletionMeter.tsx:49 | the progress never exceeds the sum of the weights |
| ProfileCompletion.FullProgressIff | src/components/ProfileCompletionMeter.tsx:39-49 | with positive weights, progress reaches the weight sum exactly when every step is complete |
| ProfileCompletion.ProgressIsPercentage | src/components/ProfileCompletionMeter.tsx:39-49 | the weights sum to 100, the progress lies in [0, 100], and it is 100 exactly when the profile is complete |
| ProfileCompletion.NextStep | src/components/ProfileCompletionMeter.tsx:50 | the next step is the first incomplete one in listed order, and there is none exactly when all are done |
| ProfileCompletion.Render | src/components/ProfileCompletionMeter.tsx:52-54 | the meter is hidden exactly while loading or when complete; when shown, progress is below 100 and a next step exists |
| ProfileCompletion.StepsNeedTruthyFields | src/components/ProfileCompletionMeter.tsx:40-46 | the avatar, bio, specialty, location and experience steps are each complete exactly when that field is non-empty; the videos and portfolio steps exactly when their count is positive; with no profile, none of the five field steps is complete |
| ProfileCompletion.StepKeysAndWeights | src/components/ProfileCompletionMeter.tsx:39-47 | the steps come in the order avatar_url, bio, specialty, location, experience, videos, portfolio, weighted 15, 20, 15, 10, 10, 15 and 15 |
| Follow.Optimistic | src/components/FollowButton.tsx:73-82 | the optimistic update flips the following flag and never makes the count negative |
| Follow.HandleFollow | src/components/FollowButton.tsx:58-122 | with no user, or on the user's own profile, nothing changes and only the callback or alert fires; otherwise it deletes when following and inserts when not; success keeps the optimistic state, a failure restores the state from before the click with the "Failed to update follow status: " alert; `onFollowChange` hears the optimistic state, then the restored one after a failure, so its last report is the final state; the count stays non-negative |
| Follow.FollowUnfollowRestores | src/components/FollowButton.tsx:77-81 | follow then unfollow from count c restores c; unfollowing at 0 stays at 0 |
| Follow.UnfollowAtZeroDoesNotRoundTrip | src/components/FollowButton.tsx:78 | because of the clamp, unfollow then follow from count 0 ends at 1 |
| Follow.TwoClicksRestore | src/components/FollowButton.tsx:58-122 | two successful clicks on another user's profile restore the state, whenever the count is consistent with the flag |
| VideoFeed.ToggleLike | src/components/VideoFeed.tsx:147-157 | only the video with the matching id changes: its like flag flips and its count moves by one in the matching direction |
| VideoFeed.ToggleLikeTwice | src/components/VideoFeed.tsx:147-157 | applying the update twice restores the list |
| VideoFeed.UnlikeAtZero | src/components/VideoFeed.tsx:153 | the like count has no lower clamp: unliking at 0 gives -1 |
| VideoFeed.HandleLike | src/components/VideoFeed.tsx:127-162 | with no user or while a like is in flight, nothing happens; otherwise it unlikes or likes according to the video's flag, and updates the list only when the call returns |
| VideoFeed.LikeThenUnlikeRestores | src/components/VideoFeed.tsx:127-162 | a like and then an unlike of the same video, both returning, send opposite requests for that video and restore the list |
| VideoFeed.FilterByLocation | src/components/VideoFeed.tsx:113-117 | an empty filter keeps every video; otherwise exactly the videos whose location contains the filter, ignoring case, are kept, each as often as it occurs, in their order |
| VideoFeed.NullLocationDropped | src/components/VideoFeed.tsx:113-117 | a video without a location never passes a non-empty filter |
| VideoFeed.HandleScroll | src/components/VideoFeed.tsx:164-174 | the index changes only to a different index inside the list |
| VideoFeed.ScrollStaysInRange | src/components/VideoFeed.tsx:164-174 | any number of scroll events keeps an in-range index in range |
| AdminPanel.FilteredProviders | src/components/AdminPanel.tsx:173-180 | exactly the providers whose name or e-mail contains the term, ignoring case, and which pass the verification filter, each as often as it occurs, in their order |
| AdminPanel.FilteredVideos | src/components/AdminPanel.tsx:182-188 | exactly the videos matching the search and the status filter, each as often as it occurs, in their order |
| AdminPanel.ProviderListedIff | src/components/AdminPanel.tsx:173-180 | a given provider is listed exactly when it passes both tests |
| AdminPanel.EmptySearchKeepsAll | src/components/AdminPanel.tsx:173-188 | an empty term with the "all" filters lists everything |
| AdminPanel.DisplayedStatus | src/components/AdminPanel.tsx:398 | a video with no status is shown as "pending" |
| AdminPanel.NullStatusNotPending | src/components/AdminPanel.tsx:182-188 | a video with no status is shown as "pending" but is missing from the default "pending" filter |
| AdminPanel.ToggleVerification | src/components/AdminPanel.tsx:80-99 | on success, only the matching provider's verified flag changes, to the negation of the status shown; on failure, nothing changes |
| AdminPanel.ToggleNegates | src/components/AdminPanel.tsx:90-92 | toggling a provider flips its flag and changes nothing else about it |
| AdminPanel.FindVideo | src/components/AdminPanel.tsx:148-150 | the video found has the given id; when none is found, no video has it |
| AdminPanel.UpdateVideoStatus | src/components/AdminPanel.tsx:101-171 | when no row was updated, the list is unchanged and nobody is notified; otherwise only the matching video's status changes, and a notification is sent exactly when the video is in the list, to that video's provider, carrying the video's id and the new status |
| AdminPanel.ApprovedLeavesPending | src/components/AdminPanel.tsx:143-188 | after approval, a video leaves the default pending list and, when it matches the search, appears under "approved" |
| AuthModal.ValidateField | src/components/AuthModal.tsx:53-88 | only the entry of its own field changes; an empty value clears it; e-mail, name and confirmation fail exactly by their own rules; in sign-up mode a password error is present exactly when the value is non-empty and the password state fails, and it is that state's first issue; in sign-in mode there is none |
| AuthModal.ValidateFieldFixed | src/components/AuthModal.tsx:53-88 | as above, but a password error appears exactly when the typed value is invalid in sign-up mode, and shows its first issue |
| AuthModal.StalePasswordCheck | src/components/AuthModal.tsx:72 | typing "a" while the state still holds a valid password raises no error as written; the fixed check reports the length issue |
| AuthModal.StaleCheckMissesShort | src/components/AuthModal.tsx:72 | after any valid password, a short non-empty replacement passes the stale check but fails the fixed one on length |
| AuthModal.CheckSubmit | src/components/AuthModal.tsx:90-118 | sign-in is blocked exactly by a malformed e-mail; sign-up passes exactly when the name, password, confirmation, terms and e-mail all pass |
| AuthModal.SignUpCheckOrder | src/components/AuthModal.tsx:96-118 | sign-up checks the name, then the password, then the confirmation, then the terms, then the e-mail, and reports the first failure; sign-in is blocked with the e-mail message when the address is malformed |
| AuthModal.SubmitMessageListsAllIssues | src/components/AuthModal.tsx:101-104 | the submit-time password error is all the issues joined with ", ", starting with the first |
| AuthModal.SignInChecksEmailOnly | src/components/AuthModal.tsx:115-118 | sign-in ignores the password, name and terms fields client-side |
| AuthModal.HandleSubmit | src/components/AuthModal.tsx:90-143 | the auth call is made exactly when the checks pass, with the mode's arguments; a successful sign-in closes the modal, and a successful sign-up shows the success panel; a failed call shows the error's message, or "An error occurred" for a thrown non-Error; a blocked submit shows only the blocking message, on its field or on the form |
| AuthModal.SubmitForgetsEarlierErrors | src/components/AuthModal.tsx:90-143 | the outcome of a submit does not depend on earlier errors, only on the mode and the two flags, and repeating the same submit with the same answer changes nothing |
| AuthModal.SuccessTimeout | src/components/AuthModal.tsx:133-136 | the timer hides the success screen and closes the modal, keeping the mode and the errors |
| AuthModal.SignUpThenTimerCloses | src/components/AuthModal.tsx:127-136 | a successful sign-up shows the success screen, and once the timer fires the modal is closed with no errors |
| AuthModal.SwitchMode | src/components/AuthModal.tsx:42-46 | changing mode clears the error, the field errors and the success flag; keeping the same mode changes nothing |
| AuthModal.SwitchThenBlockedSubmit | src/components/AuthModal.tsx:42-113 | after a mode switch, a blocked submit shows exactly one field error and no form error |
| ProviderDashboard.OfferedActions | src/components/ProviderDashboard.tsx:242-271 | no action leads back to pending; completed and cancelled offer none |
| ProviderDashboard.ActionsMoveForward | src/components/ProviderDashboard.tsx:242-271 | every offered action moves the booking to a later stage |
| ProviderDashboard.HistoryMovesForward | src/components/ProviderDashboard.tsx:242-271 | a history built from offered actions moves strictly forward, never returns to pending, ends at a terminal state if it reaches one, and has at most three entries |
| ProviderDashboard.BadgeColours | src/components/ProviderDashboard.tsx:222-230 | pending, confirmed and completed have distinct badges, and every other status is red |
| ProviderDashboard.Label | src/components/ProviderDashboard.tsx:232 | the label is the status with its first character upper-cased and the rest kept; it has the status's length, lower-cases to the same text, and does not begin with a lowercase ASCII letter |
| ProviderDashboard.LabelRoundTrip | src/components/ProviderDashboard.tsx:232 | lower-casing a label gives back the status name |
| ClientDashboard.LoadStats | src/components/ClientDashboard.tsx:44-65 | signed out, nothing changes; missing data counts as zero; otherwise the total is the number of bookings, the completed and pending counts are how many bookings have that status, and the reviews total is the number of rating rows |
| ClientDashboard.StatsCountRows | src/components/ClientDashboard.tsx:51-62 | the totals are the row counts, the completed and pending counts are the multiplicities of those statuses, and each is zero exactly when no row has that status |
| ClientDashboard.StoredReview | src/components/ClientDashboard.tsx:112-118 | a blank review is stored as null; otherwise it is stored trimmed and non-empty |
| ClientDashboard.RatingFormLifecycle | src/components/ClientDashboard.tsx:109-130 | cancelling an opened form gives the closed form; opening twice keeps only the last booking; a failed submit keeps the form open on the same booking with the same draft |
| ClientDashboard.SubmitRating | src/components/ClientDashboard.tsx:109-130 | signed out, nothing happens; otherwise it inserts the rating with the stored review; success closes and resets the form; failure keeps it |
| ClientDashboard.FormResets | src/components/ClientDashboard.tsx:121-125 | a successful submit and a cancel leave the same closed form, rated 5 |
| NotificationsView.Limit | src/components/NotificationsView.tsx:61 | each query keeps at most its first 20 rows |
| NotificationsView.NameOrSomeone | src/components/NotificationsView.tsx:69 | the name when it is non-empty, and "Someone" when it is missing or empty, so the shown name is never empty |
| NotificationsView.CorrectionOnlyAffectsClient | src/components/NotificationsView.tsx:107-121 | the corrected choice changes only what the booking's client sees, who now gets the provider's name; everyone else still sees the client's |
| NotificationsView.ClientSeesOwnName | src/components/NotificationsView.tsx:107-121 | because client_id is never selected, a client sees their own name in the message where the provider's belongs |
| NotificationsView.Unsorted | src/components/NotificationsView.tsx:44-133 | at most 60 items; an item is read exactly when it is no newer than the last-read time |
| NotificationsView.LoadNotifications | src/components/NotificationsView.tsx:41-136 | the list is every like, follow and booking item, with no deduplication, sorted newest first; there are at most 60 |
| NotificationsView.ReadFlagIsTimestampTest | src/components/NotificationsView.tsx:41-129 | in the loaded list, read means created at or before the stored time, and the epoch when none is stored |
| NotificationsView.ItemCount | src/components/NotificationsView.tsx:44-117 | the count is the capped likes (only for a user with videos), plus the capped follows, plus the capped bookings |
| NotificationsView.MarkAllAsRead | src/components/NotificationsView.tsx:146-163 | every item becomes read and nothing else changes |
| NotificationsView.UnreadCount | src/components/NotificationsView.tsx:164 | zero exactly when every item is read |
| NotificationsView.MarkAllClearsUnread | src/components/NotificationsView.tsx:146-178 | after marking all, nothing is unread and the button is gone; marking again changes nothing |
| ConversationList.LoadConversations | src/components/ConversationList.tsx:78-94 | on error, the list is kept; otherwise it is a permutation of the rows, newest activity first |
| ConversationList.NewerActivityFirst | src/components/ConversationList.tsx:86-90 | a conversation with newer activity is listed above an older one |
| ConversationList.ListsEveryBooking | src/components/ConversationList.tsx:78-94 | every booking row is listed, and nothing else |
| ConversationList.CounterpartIsOtherParticipant | src/components/ConversationList.tsx:147-148 | a participant of a booking between two different users is shown the other participant's profile, never their own |
| ConversationList.UnreadOnlyFromOthers | src/components/ConversationList.tsx:150 | unread exactly when there is an unread last message from someone else; the user's own messages are never unread |
| ConversationList.NoMessageConversation | src/components/ConversationList.tsx:78-81 | a conversation without messages sorts by the booking's time, shows the placeholder and is never unread |
| Chat.AttachmentPathFolder | src/components/Chat.tsx:204-206 | attachments are stored in the booking's folder |
| Chat.AttachmentPathExtension | src/components/Chat.tsx:204-206 | an attachment keeps the file's last extension |
| Chat.InferType | src/components/Chat.tsx:245-249 | an explicit type is kept; a file sent as text becomes an image for image/*, audio for audio/*, and a file for any other type |
| Chat.StoredTextFollowsMime | src/components/Chat.tsx:245-253 | for a file sent with the send button, the stored text is "Image" for an image, "Voice message" for audio, and the file's name otherwise |
| Chat.HandleSend | src/components/Chat.tsx:221-281 | with no user, no booking, a send in flight, or nothing to send, nothing happens; the insert goes to this booking from this user; the draft is cleared only after a successful insert; a failure keeps the draft and file |
| Chat.TextSend | src/components/Chat.tsx:224-276 | a text message stores the trimmed draft; success clears the draft, failure keeps it |
| Chat.BlankDraftIsNoOp | src/components/Chat.tsx:227 | a blank draft with no file sends nothing |
| Chat.AttachmentSend | src/components/Chat.tsx:237-273 | the selected file is uploaded to the booking's folder; a failed upload inserts nothing; the stored text and type follow the file's type |
| Chat.VoiceSend | src/components/Chat.tsx:237-253 | a voice recording is sent as audio with the text "Voice message" |
| Chat.NoSendWhileSending | src/components/Chat.tsx:224 | while a send is in flight, nothing is uploaded or inserted |
| Chat.HeaderShowsOtherParty | src/components/Chat.tsx:285-288 | the header never shows the signed-in participant: a client sees the provider and a provider sees the client |
| ReviewsSheet.Eligibility | src/components/ReviewsSheet.tsx:39-65 | unknown when signed out; a review is allowed exactly with at least one completed booking and no existing rating |
| ReviewsSheet.ReviewNeedsCompletedBooking | src/components/ReviewsSheet.tsx:42-64 | no completed booking, or an existing rating, rules out a review |
| ReviewsSheet.FailureAlert | src/components/ReviewsSheet.tsx:142 | the alert starts with "Failed to submit review: " and ends with ". Please try again."; between them stands the error's message, or "Unknown error" when it has none |
| ReviewsSheet.FailureAlertInjective | src/components/ReviewsSheet.tsx:142 | two non-empty error messages give the same alert exactly when they are the same message |
| ReviewsSheet.SubmitReview | src/components/ReviewsSheet.tsx:91-143 | signed out or with blank text, nothing happens; the trimmed text is inserted exactly when a completed booking is found; success resets the form; a missing booking or a lookup error gives its alert |
| ReviewsSheet.OneReviewPerProvider | src/components/ReviewsSheet.tsx:127-133 | after a successful review, the form is reset to 5 stars with no text, and the user can no longer review that provider |
| AuthContext.ParseInt | src/contexts/AuthContext.tsx:91 | with no radix, as JavaScript's parseInt: after white space and a sign, a "0x" prefix reads hexadecimal digits, otherwise decimal ones; a number comes out only when at least one digit is read |
| AuthContext.HexPrefixParses | src/contexts/AuthContext.tsx:91 | "0x1A" reads as 26, "0x" and "0xg" are NaN, and a "0x" stamp blocks the write |
| AuthContext.ParseIntRoundTrip | src/contexts/AuthContext.tsx:91-96 | the stored stamp reads back as the time that was written |
| AuthContext.LastSeenCheckSettles | src/contexts/AuthContext.tsx:84-102 | a check right after a check changes nothing, and a check within the hour after a write keeps the written stamp |
| AuthContext.AtMostOneWritePerHour | src/contexts/AuthContext.tsx:87-97 | after a write at t, the next write happens exactly when more than 3,600,000 ms have passed |
| AuthContext.UnparsableStampBlocks | src/contexts/AuthContext.tsx:91 | a stamp without digits compares as NaN and blocks every later write |
| AuthContext.BeforeFirstAt | src/contexts/AuthContext.tsx:141 | the text before the first '@', or the whole text when there is none |
| AuthContext.DefaultUserType | src/contexts/AuthContext.tsx:129-130 | the pending type when a non-empty one is stored, and 'client' when it is missing or empty |
| AuthContext.DefaultFullName | src/contexts/AuthContext.tsx:141 | never empty; the metadata name wins when present |
| AuthContext.FullNameFallbacks | src/contexts/AuthContext.tsx:141 | without a metadata name, the name is the e-mail's local part, or "Signed In User" when there is no local part |
| AuthContext.LoadProfile | src/contexts/AuthContext.tsx:104-160 | a found profile is used as is; an error sets nothing; a missing profile is created for the signed-in user with the default type and name; the pending type is cleared exactly when that upsert succeeds, and the profile is then set to the re-read row, or to null when that read fails; with no auth user or a failed upsert no profile is set |
| AuthContext.PendingTypeConsumedOnce | src/contexts/AuthContext.tsx:123-156 | a failed upsert keeps the pending type, so the next attempt writes the same row; after a successful one, a later creation defaults to "client" |
| AuthContext.NewUserIsClientByDefault | src/contexts/AuthContext.tsx:129-130 | a new user with no pending type becomes a client, and one who chose provider becomes a provider |
| AuthContext.UpdateProfile | src/contexts/AuthContext.tsx:242-258 | with no user, it returns "No user logged in" without writing; otherwise it writes and returns the database's error, if any |
| AuthContext.UpdateOutcomeIff | src/contexts/AuthContext.tsx:242-258 | no error exactly when a signed-in user's write succeeds; the no-user message exactly when nobody is signed in; a write happens exactly when someone is signed in |
| ChatReminder.CutoffIsTwoDaysAgo | supabase/functions/chat-reminder/index.ts:22-39 | a message is older than the cutoff exactly when more than two days, 172,800,000 ms, have passed since it was created |
| ChatReminder.SelectMessages | supabase/functions/chat-reminder/index.ts:25-39 | exactly the unread messages older than the cutoff are considered, each once, in the table's order |
| ChatReminder.RecipientIsOtherParticipant | supabase/functions/chat-reminder/index.ts:48 | when a participant of a booking between two different users sends a message, the other participant is reminded, never the sender |
| ChatReminder.IndexOf | supabase/functions/chat-reminder/index.ts:50 | finds a recipient's entry, or shows that there is none |
| ChatReminder.AggregateSummarises | supabase/functions/chat-reminder/index.ts:44-68 | each recipient appears at most once, only when their profile exists and was not seen since the cutoff, with the number of messages sent to them; the counts sum to at most the number of messages |
| ChatReminder.StepPreserves | supabase/functions/chat-reminder/index.ts:50-67 | one turn of the loop keeps every entry counted and every eligible recipient listed, and adds at most one to the total |
| ChatReminder.StepAdds | supabase/functions/chat-reminder/index.ts:57-63 | a new eligible recipient enters with count 1 |
| ChatReminder.StepSkips | supabase/functions/chat-reminder/index.ts:50-63 | a new recipient who is not eligible is skipped |
| ChatReminder.StepCounts | supabase/functions/chat-reminder/index.ts:64-67 | a recipient already listed gets one more, with no second profile check |
| ChatReminder.RecipientListedIff | supabase/functions/chat-reminder/index.ts:44-68 | a recipient is listed exactly when eligible and sent at least one message, and the entry's count is the number of such messages |
| ChatReminder.SendAll | supabase/functions/chat-reminder/index.ts:72-99 | one send per entry, in order, to the entry's address with the subject naming its count; the result records the service's status or the thrown error, and a failure does not stop the rest |
| ChatReminder.SubjectCarriesCount | supabase/functions/chat-reminder/index.ts:85 | the subject is "You have ", the count's digits, then " unread messages on SkilXress", and those digits read back as the count |
| ChatReminder.Run | supabase/functions/chat-reminder/index.ts:18-111 | a failed query answers 400 with its message; a message whose booking join is missing makes the loop throw, answering 400 with the TypeError's message; otherwise it answers with one result per recipient |
| ChatReminder.OneEmailPerRecipient | supabase/functions/chat-reminder/index.ts:44-101 | one e-mail per distinct eligible recipient, sent to their profile's address, with a count of at least 1 |
| EmailRouting.AdminEmail | supabase/functions/notifications/index.ts:7 | the approval e-mail always has a recipient: the configured address when it is non-empty, and admin@skilxpress.com otherwise |
| EmailRouting.FollowerEmails | supabase/functions/notifications/index.ts:110-126 | one e-mail per follower with an address, as many as there are such followers, all with the provider's subject |
| EmailRouting.FollowerEmailsFollowFilter | supabase/functions/notifications/index.ts:110-126 | the k-th e-mail goes to the k-th follower with an address, so nobody is skipped, repeated or added and the followers' order is kept |
| EmailRouting.Route | supabase/functions/notifications/index.ts:28-128 | a booking update without its previous row fails; other tables, and events other than booking insert/update and video insert, send nothing |
| EmailRouting.NewBookingNotifiesProvider | supabase/functions/notifications/index.ts:28-57 | a new booking e-mails only the provider, and only when both profiles are found |
| EmailRouting.StatusChangeNotifiesClient | supabase/functions/notifications/index.ts:58-78 | an update e-mails the client exactly when the status changed and the client is found, as one e-mail whose subject is "Booking Status Updated: " followed by the new status |
| EmailRouting.NewVideoNotifiesAdminThenFollowers | supabase/functions/notifications/index.ts:80-127 | a new video e-mails the admin first, then the followers with addresses; nobody when either lookup found nothing |
| EmailRouting.OtherEventsSendNothing | supabase/functions/notifications/index.ts:28-128 | every other table and event sends nothing |
| Sorting.SortDesc | src/components/NotificationsView.tsx:136 | the sort is a permutation ordered newest first |
| Sorting.SortSortedIsIdentity | src/components/ConversationList.tsx:86-90 | an already ordered list is left as it is |
| Text.FilterUnique | src/components/VideoFeed.tsx:113-117 | a list drawn in order from the source list, whose elements all pass the test and which is as long as the number that pass, is the filter's result: `Array.prototype.filter` has one possible answer |
| Patch.EolMatchesBothEndings | update_app.py:16 | `\r?\n` matches "\n" or "\r\n" |
| Patch.AbsentAnchorNoOp | update_app.py:8-66 | a rule whose anchor is absent leaves the text unchanged, in both scripts |
| Patch.SingleMatchAgrees | update_app.js:9-62 | replace-first and replace-all agree when the anchor occurs at most once |
| Patch.TwoMatchesDiffer | update_app.js:9-62 | with two occurrences, re.sub replaces both and String.replace only the first |
| UpdateApp.AbsentRulesNoOp | update_app.py:8-66 | a rule list whose anchors are all absent leaves the text unchanged, under either substitution |
| UpdateApp.UnrecognisedFileUnchanged | update_app.py:8-66 | a file containing none of the six anchors leaves all three scripts unchanged |
| UpdateApp.ImportGainsSearch | update_app.py:8-12 | step 1 adds Search to the lucide import, matched literally with no line-ending tolerance |
| UpdateApp.StateLineAdded | update_app.py:15-19 | step 2 puts the searchModalOpen state between the two anchors with "\r\n" on both sides, whichever ending was matched, in both scripts |
| UpdateApp.HandlerLineAdded | update_app.py:22-26 | step 3 puts the search back-handler between its anchors with "\r\n" on both sides, in both scripts |
| UpdateApp.ButtonInserted | update_app.py:40-44 | step 4 keeps both anchors with the search button between them; the button's `${` is inserted literally |
| UpdateApp.OverlayRemoved | update_app.py:47-48 | step 5 deletes the whole overlay block |
| UpdateApp.ModalDropsClosingAsWritten | update_app.py:62-66 | as written, step 6 replaces the closing group with CR LF U+0002, so AppContent's closing tags are lost |
| UpdateApp.ModalInserted | update_app.js:59-62 | the JavaScript step 6, and the corrected Python, put the modal before the closing tags and keep them |
| UpdateApp.JoinedMatchesLikeSplit | update_app.js:15-24 | an anchor written as two groups around `\r?\n` matches exactly where the single pattern does |
| UpdateApp.SplitAndJoinedAgree | update_app.js:15-24 | rebuilding the anchors from literals gives the same text as re-emitting the captured groups |
| UpdateApp.StateRulesAgree | update_app.js:15-18 | step 2 gives the same result in both scripts when its anchor occurs at most once |
| UpdateApp.HandlerRulesAgree | update_app.js:21-24 | step 3 gives the same result in both scripts when its anchor occurs at most once |
| UpdateApp.RuleAgrees | update_app.js:9-62 | each of the six steps gives the same result in both scripts when its anchor occurs at most once |
| UpdateApp.ScriptsAgree | update_app.js:9-62 | the corrected Python script and the JavaScript script give the same file whenever each anchor occurs at most once when its step runs |

## Left out

- I/O is not modelled. This covers Supabase queries, storage uploads, realtime channels, Resend e-mail delivery, and the patch scripts' file reads and writes. Fetched rows and call outcomes are inputs, and writes are outputs.
- Python's universal-newline read is not modelled: the rules are stated over any string, with or without CR.
- `Date.now`, `new Date()` and `Math.random` are parameters, and ISO timestamps are integers in milliseconds.
- Floating-point arithmetic is not modelled. Confidence and the threshold are `real` and only compared. The rounded confidence percentage, `Math.round(confidence * 100)`, is an integer input.
- The OpenAI prompts and calls are not modelled: only what each call answered, or that it threw, is an input. The HTML bodies of e-mails are also left out; only the recipients and subjects are modelled.
- Chat's typing broadcast, voice recording, read receipts and realtime subscriptions are browser or realtime plumbing with no decision logic.
- The profile-load timeout in AuthContext is folded into the "error" reply.
- The `deleteFile`, `createFilePreview` and `revokeFilePreview` upload helpers only wrap storage and browser URL calls. `getTikTokMetadata` only wraps a network fetch.
- Case-insensitive matching lower-cases ASCII letters only, and there is no Unicode case folding.
- Toast and console messages are not modelled, apart from the alerts whose text the model states.
- UnrecognisedFileUnchanged: `src/App.tsx` is not part of this model, so the claim that the shipped file contains none of the anchors is not checked against its text. The lemma states the no-op for every file without the anchors.
- Sorting.SortDesc: stability is not stated. The source relies on `Array.prototype.sort`, whose order between equal keys the model does not pin down.
- NotificationsView.LoadNotifications: builds its booking messages with the corrected `OtherName`, so a client is shown the provider's name. The shipped component always shows the client's name; `NotificationsView.OtherNameAsWritten` and `NotificationsView.ClientSeesOwnName` model that behaviour.
- UpdateApp.PythonScript: built from the corrected `AddModal` step, which keeps the closing tags. The shipped Python script writes CR LF U+0002 in their place; `UpdateApp.PythonScriptAsWritten` models it.
- AuthContext.ParseInt: the value is an exact integer. JavaScript's parseInt rounds digit runs beyond 2^53 to a double, which the model does not do.
- AuthModal.SuccessTimeout: the two-second delay is not modelled. The function is what the timer does when it fires, and a sign-up is followed by it only in `AuthModal.SignUpThenTimerCloses`.
- UpdateApp.RuleAgrees: stated only for inputs where the anchor occurs at most once. When an anchor occurs more than once, the scripts differ, as Patch.TwoMatchesDiffer shows.

## Findings

| source | as written | input that shows it | evidently intended | confidence | as-written member | corrected member |
|---|---|---|---|---|---|---|
| update_app.py:62-66 | the replacement `'\r\n\2'` is not a raw string, so `\2` is the character U+0002; the captured closing group is replaced by CR LF U+0002 | ProfilePageClose + "\n" + AppContentClose | re-emit the closing group after the modal, as the JavaScript twin does with `$2` | not executed | UpdateApp.ModalDropsClosingAsWritten | UpdateApp.ModalInserted |
| src/components/NotificationsView.tsx:107-121 | the bookings query never selects `client_id`, so `booking.client_id === user.id` is always false and the message always names the client | a booking whose client is the signed-in user | a client's message names the provider | not executed | NotificationsView.ClientSeesOwnName | NotificationsView.OtherName |
| server/services/videoModeration.ts:243-263 | the reason ignores the confidence threshold, so a rejected video can say "Approved" | a clean video whose classifier call failed (confidence 0.5, default threshold 0.6) | the reason agrees with the decision | not executed | Moderation.ReasonSaysApprovedWhenRejected | Moderation.ModerateVideoCorrected |
| src/components/AuthModal.tsx:72 | the live check validates the password state from the render before the keystroke (`passwordValidation`, line 50) instead of the value just typed (line 290) | state "Abcdefg1!", typed "a" | validate the typed value | not executed | AuthModal.StalePasswordCheck | AuthModal.ValidateFieldFixed |

The models in this project use the corrected definitions:

- `UpdateApp.PythonScript` uses `UpdateApp.AddModal`. The as-written rule is `UpdateApp.AddModalAsWritten`, in `UpdateApp.PythonScriptAsWritten`.
- The booking message uses `NotificationsView.OtherName`. The as-written rule is `NotificationsView.OtherNameAsWritten`.
- `Moderation.ModerateVideoCorrected` takes its reason from `Moderation.CorrectedReason`.
- `AuthModal.ValidateFieldFixed` checks the typed value.

=== FILE: admin_panel.dfy ===
/** src/components/AdminPanel.tsx: the provider and video lists the admin
    sees (search and status filters) and the local updates after verifying a
    provider or approving/rejecting a video. */
module AdminPanel {
  import opened Text

  datatype Provider = Provider(id: string, fullName: string, email: string, isVerified: bool)

  datatype ProviderFilter = AllProviders | VerifiedOnly | UnverifiedOnly

  /** `providerName` is None when the joined public profile or its name is
      missing; `status` is None when the column is null. */
  datatype AdminVideo = AdminVideo(
    id: string, providerId: string, title: string, providerName: Option<string>, status: Option<string>)

  /** The video tab's filter; it starts at "pending". */
  datatype VideoFilter = AllVideos | WithStatus(status: string)

  const DefaultVideoFilter := WithStatus("pending")

  // ---------------------------------------------------------------------------
  // Filters
  // ---------------------------------------------------------------------------

  predicate ProviderMatchesSearch(p: Provider, term: string) {
    ContainsIgnoreCase(p.fullName, term) || ContainsIgnoreCase(p.email, term)
  }

  predicate KeepProvider(p: Provider, term: string, f: ProviderFilter) {
    ProviderMatchesSearch(p, term)
    && match f
       case AllProviders => true
       case VerifiedOnly => p.isVerified
       case UnverifiedOnly => !p.isVerified
  }

  function ProviderKeep(term: string, f: ProviderFilter): Provider -> bool {
    p => KeepProvider(p, term, f)
  }

  /** filteredProviders: the providers that pass both tests, each as often as
      it occurs and in the list's order. */
  function FilteredProviders(providers: seq<Provider>, term: string, f: ProviderFilter): (r: seq<Provider>)
    ensures IsSubsequence(r, providers)
    ensures forall k :: 0 <= k < |r| ==> KeepProvider(r[k], term, f)
    ensures forall k :: 0 <= k < |providers| && KeepProvider(providers[k], term, f) ==> providers[k] in r
    ensures |r| == Count(providers, ProviderKeep(term, f))
  {
    Filter(providers, ProviderKeep(term, f))
  }

  /** `matchesSearch ?? false`: a missing provider name does not match. */
  predicate VideoMatchesSearch(v: AdminVideo, term: string) {
    ContainsIgnoreCase(v.title, term)
    || (v.providerName.Some? && ContainsIgnoreCase(v.providerName.value, term))
  }

  predicate KeepVideo(v: AdminVideo, term: string, f: VideoFilter) {
    VideoMatchesSearch(v, term)
    && match f
       case AllVideos => true
       case WithStatus(s) => v.status == Some(s)
  }

  function VideoKeep(term: string, f: VideoFilter): AdminVideo -> bool {
    v => KeepVideo(v, term, f)
  }

  /** filteredVideos: the videos that pass both tests, each as often as it
      occurs and in the list's order. */
  function FilteredVideos(videos: seq<AdminVideo>, term: string, f: VideoFilter): (r: seq<AdminVideo>)
    ensures IsSubsequence(r, videos)
    ensures forall k :: 0 <= k < |r| ==> KeepVideo(r[k], term, f)
    ensures forall k :: 0 <= k < |videos| && KeepVideo(videos[k], term, f) ==> videos[k] in r
    ensures |r| == Count(videos, VideoKeep(term, f))
  {
    Filter(videos, VideoKeep(term, f))
  }

  /** A provider is listed exactly when it matches the search and the
      verification filter. */
  lemma ProviderListedIff(providers: seq<Provider>, term: string, f: ProviderFilter, k: int)
    requires 0 <= k < |providers|
    ensures providers[k] in FilteredProviders(providers, term, f) <==> KeepProvider(providers[k], term, f)
  {
    var r := FilteredProviders(providers, term, f);
    if providers[k] in r {
      var j :| 0 <= j < |r| && r[j] == providers[k];
    }
  }

  /** The empty search term matches every provider and every video, so only
      the status filters remove anything. */
  lemma EmptySearchKeepsAll(providers: seq<Provider>, videos: seq<AdminVideo>)
    ensures FilteredProviders(providers, "", AllProviders) == providers
    ensures FilteredVideos(videos, "", AllVideos) == videos
  {
    forall p: Provider { ContainsIgnoreCaseEmpty(p.fullName); }
    forall v: AdminVideo { ContainsIgnoreCaseEmpty(v.title); }
    FilterKeepsAll(providers, ProviderKeep("", AllProviders));
    FilterKeepsAll(videos, VideoKeep("", AllVideos));
  }

  /** Filtering with a test every element passes changes nothing. */
  lemma {:induction false} FilterKeepsAll<T>(s: seq<T>, keep: T -> bool)
    requires forall k :: 0 <= k < |s| ==> keep(s[k])
    ensures Filter(s, keep) == s
    decreases |s|
  {
    if |s| > 0 {
      FilterKeepsAll(s[1..], keep);
    }
  }

  /** The status shown on a card: `status || 'pending'`. */
  function DisplayedStatus(v: AdminVideo): (s: string)
    ensures v.status.None? ==> s == "pending"
    ensures s != ""
  {
    match v.status
    case None => "pending"
    case Some(s) => if s == "" then "pending" else s
  }

  /** A video with a null status is shown as "pending" but is not in the
      "pending" list. */
  lemma NullStatusNotPending(videos: seq<AdminVideo>, term: string, k: int)
    requires 0 <= k < |videos| && videos[k].status.None?
    ensures DisplayedStatus(videos[k]) == "pending"
    ensures videos[k] !in FilteredVideos(videos, term, DefaultVideoFilter)
  {
  }

  // ---------------------------------------------------------------------------
  // Local updates
  // ---------------------------------------------------------------------------

  /** The backend's answer to an update. */
  datatype UpdateReply = UpdateFailed | NoRowsUpdated | RowsUpdated

  /** toggleVerification: on success, the provider with the id gets
      `is_verified := !currentStatus`; on error the list is kept. */
  function ToggleVerification(providers: seq<Provider>, providerId: string, currentStatus: bool, reply: UpdateReply): (r: seq<Provider>)
    ensures |r| == |providers|
    ensures reply == UpdateFailed ==> r == providers
    ensures forall k :: 0 <= k < |providers| && providers[k].id != providerId ==> r[k] == providers[k]
    ensures reply != UpdateFailed ==>
              forall k :: 0 <= k < |providers| && providers[k].id == providerId ==>
                r[k] == providers[k].(isVerified := !currentStatus)
  {
    if reply == UpdateFailed then providers
    else
      seq(|providers|, k requires 0 <= k < |providers| =>
        if providers[k].id == providerId then providers[k].(isVerified := !currentStatus) else providers[k])
  }

  /** Called with the provider's shown status, as the buttons do, the
      matching provider's flag is negated and nothing else changes. */
  lemma ToggleNegates(providers: seq<Provider>, k: int)
    requires 0 <= k < |providers|
    ensures var r := ToggleVerification(providers, providers[k].id, providers[k].isVerified, RowsUpdated);
            r[k].isVerified == !providers[k].isVerified
            && r[k].(isVerified := providers[k].isVerified) == providers[k]
  {
  }

  datatype Decision = Approve | Reject

  function StatusText(d: Decision): string {
    match d case Approve => "approved" case Reject => "rejected"
  }

  /** The notification inserted for the video's provider. */
  datatype Notification = Notification(userId: string, title: string, message: string, videoId: string, status: string)

  datatype StatusUpdate = StatusUpdate(videos: seq<AdminVideo>, notification: Option<Notification>)

  function FindVideo(videos: seq<AdminVideo>, id: string): (r: Option<AdminVideo>)
    ensures r.Some? ==> r.value in videos && r.value.id == id
    ensures r.None? ==> forall k :: 0 <= k < |videos| ==> videos[k].id != id
  {
    if |videos| == 0 then None
    else if videos[0].id == id then Some(videos[0])
    else FindVideo(videos[1..], id)
  }

  function ApprovalNotification(v: AdminVideo, d: Decision): Notification {
    match d
    case Approve =>
      Notification(v.providerId, "Video Approved! \U{1F3A5}",
        "Your video \"" + v.title + "\" has been approved and is now live!", v.id, "approved")
    case Reject =>
      Notification(v.providerId, "Video Update",
        "Your video \"" + v.title + "\" was not approved at this time.", v.id, "rejected")
  }

  /** updateVideoStatus. With an error or no updated rows nothing changes
      locally and nobody is notified; otherwise only the matching video's
      status changes and its provider is notified. */
  function UpdateVideoStatus(videos: seq<AdminVideo>, videoId: string, d: Decision, reply: UpdateReply): (r: StatusUpdate)
    ensures reply != RowsUpdated ==> r.videos == videos && r.notification.None?
    ensures |r.videos| == |videos|
    ensures forall k :: 0 <= k < |videos| && videos[k].id != videoId ==> r.videos[k] == videos[k]
    ensures reply == RowsUpdated ==>
              forall k :: 0 <= k < |videos| && videos[k].id == videoId ==>
                r.videos[k] == videos[k].(status := Some(StatusText(d)))
    ensures r.notification.Some? ==>
              exists k :: 0 <= k < |videos| && videos[k].id == videoId
                          && r.notification.value.userId == videos[k].providerId
    ensures reply == RowsUpdated ==>
              (r.notification.Some? <==> exists k :: 0 <= k < |videos| && videos[k].id == videoId)
    ensures r.notification.Some? ==>
              r.notification.value.status == StatusText(d) && r.notification.value.videoId == videoId
  {
    if reply != RowsUpdated then StatusUpdate(videos, None)
    else
      var updated := seq(|videos|, k requires 0 <= k < |videos| =>
        if videos[k].id == videoId then videos[k].(status := Some(StatusText(d))) else videos[k]);
      match FindVideo(videos, videoId)
      case None => StatusUpdate(updated, None)
      case Some(v) => StatusUpdate(updated, Some(ApprovalNotification(v, d)))
  }

  /** After an approval the video leaves the "pending" list and, if it
      matches the search, shows in the "approved" one. */
  lemma ApprovedLeavesPending(videos: seq<AdminVideo>, term: string, k: int)
    requires 0 <= k < |videos|
    ensures var r := UpdateVideoStatus(videos, videos[k].id, Approve, RowsUpdated).videos;
            r[k] !in FilteredVideos(r, term, DefaultVideoFilter)
            && (VideoMatchesSearch(videos[k], term) ==> r[k] in FilteredVideos(r, term, WithStatus("approved")))
  {
  }
}

=== FILE: auth_context.dfy ===
/** src/contexts/AuthContext.tsx: the hourly last-seen throttle, the profile
    created for a signed-in user who has none, and the guards of
    updateProfile and useAuth. localStorage values, the clock and the
    database answers are inputs; writes are outputs. */
module AuthContext {
  import opened Text

  // ---------------------------------------------------------------------------
  // parseInt
  // ---------------------------------------------------------------------------

  /** The number of decimal digits at the start of `s`. */
  function DigitRun(s: string): (n: nat)
    ensures n <= |s| && AllDigits(s[..n])
    ensures n < |s| ==> !IsDigit(s[n])
  {
    if |s| == 0 || !IsDigit(s[0]) then 0
    else
      var n := 1 + DigitRun(s[1..]);
      assert s[..n] == [s[0]] + s[1..][..n - 1];
      n
  }

  predicate IsHexDigit(c: char) {
    IsDigit(c) || ('a' <= c <= 'f') || ('A' <= c <= 'F')
  }

  predicate AllHexDigits(s: string) {
    forall k :: 0 <= k < |s| ==> IsHexDigit(s[k])
  }

  function HexDigitValue(c: char): (v: nat)
    requires IsHexDigit(c)
    ensures v < 16
  {
    if IsDigit(c) then c as int - '0' as int
    else if 'a' <= c <= 'f' then c as int - 'a' as int + 10
    else c as int - 'A' as int + 10
  }

  /** The number of hexadecimal digits at the start of `s`. */
  function HexRun(s: string): (n: nat)
    ensures n <= |s| && AllHexDigits(s[..n])
    ensures n < |s| ==> !IsHexDigit(s[n])
  {
    if |s| == 0 || !IsHexDigit(s[0]) then 0
    else
      var n := 1 + HexRun(s[1..]);
      assert s[..n] == [s[0]] + s[1..][..n - 1];
      n
  }

  /** Value of a string of hexadecimal digits. */
  function HexValue(s: string): nat
    requires AllHexDigits(s)
  {
    if |s| == 0 then 0 else HexValue(s[..|s| - 1]) * 16 + HexDigitValue(s[|s| - 1])
  }

  /** After the sign, "0x" or "0X" selects base 16. */
  predicate HexPrefixed(u: string) {
    |u| >= 2 && u[0] == '0' && (u[1] == 'x' || u[1] == 'X')
  }

  /** `parseInt(s)` without a radix, as section 19.2.5 of ECMA-262 defines
      it: leading white space is skipped, then an optional sign; a "0x" or
      "0X" prefix selects base 16, and otherwise base 10 is used; the
      longest run of digits of that base is read. None is NaN, the result
      when that run is empty. */
  function ParseInt(s: string): (r: Option<int>)
    ensures r.Some? ==> exists k :: 0 <= k < |s| && IsDigit(s[k])
  {
    var lead := LeadingSpaces(s);
    var t := s[lead..];
    var negative := |t| > 0 && t[0] == '-';
    var start := if |t| > 0 && (t[0] == '-' || t[0] == '+') then lead + 1 else lead;
    var u := s[start..];
    if HexPrefixed(u) then
      var h := u[2..];
      var n := HexRun(h);
      if n == 0 then None
      else
        assert IsDigit(s[start]) by { assert u[0] == s[start]; }
        var v: int := HexValue(h[..n]);
        Some(if negative then -v else v)
    else
      var n := DigitRun(u);
      if n == 0 then None
      else
        assert IsDigit(s[start]) by { assert u[..n][0] == u[0] == s[start]; }
        var v: int := DigitsValue(u[..n]);
        Some(if negative then -v else v)
  }

  /** A "0x" prefix reads hexadecimal digits: "0x1A" is 26, and "0x" with no
      hexadecimal digit after it is NaN, so such a stamp blocks every later
      write although it starts with a decimal digit. */
  lemma HexPrefixParses(now: int)
    ensures ParseInt("0x1A") == Some(26)
    ensures ParseInt("0x") == None && ParseInt("0xg") == None
    ensures !ShouldWriteLastSeen(Some("0x"), now)
  {
    var a := "0x1A";
    assert LeadingSpaces(a) == 0 && a[0..] == a && HexPrefixed(a);
    var h := a[2..];
    assert h == "1A";
    assert HexRun(h) == 2 by { assert HexRun(h[1..]) == 1; }
    assert h[..2] == h;
    assert HexValue(h) == 26 by {
      assert h[..1] == "1" && h[..1][..0] == "";
      assert HexValue(h[..1]) == 1;
      assert HexDigitValue(h[1]) == 10;
    }
    var b := "0x";
    assert LeadingSpaces(b) == 0 && b[0..] == b && HexPrefixed(b);
    assert HexRun(b[2..]) == 0;
    var c := "0xg";
    assert LeadingSpaces(c) == 0 && c[0..] == c && HexPrefixed(c);
    assert HexRun(c[2..]) == 0;
  }

  /** The stamp the app writes, `now.toString()`, reads back as `now`. */
  lemma ParseIntRoundTrip(now: nat)
    ensures ParseInt(NatToString(now)) == Some(now)
  {
    var s := NatToString(now);
    assert !IsSpace(s[0]);
    assert LeadingSpaces(s) == 0;
    assert s[0..] == s;
    assert s[0] != '-' && s[0] != '+';
    assert !HexPrefixed(s) by { assert |s| < 2 || IsDigit(s[1]); }
    assert DigitRun(s) == |s| by { DigitRunAll(s); }
    assert s[..|s|] == s;
    NatToStringRoundTrip(now);
  }

  lemma {:induction false} DigitRunAll(s: string)
    requires AllDigits(s)
    ensures DigitRun(s) == |s|
    decreases |s|
  {
    if |s| > 0 {
      DigitRunAll(s[1..]);
    }
  }

  // ---------------------------------------------------------------------------
  // last_seen_at
  // ---------------------------------------------------------------------------

  /** The minimum time between two last-seen writes, in milliseconds. */
  const OneHour := 3600000

  /** updateLastSeen's test: write when no stamp is stored (or it is empty),
      or when more than an hour has passed since it. A stamp that does not
      parse compares as NaN and never allows a write. */
  predicate ShouldWriteLastSeen(stored: Option<string>, now: int) {
    match stored
    case None => true
    case Some(s) =>
      s == "" || (match ParseInt(s) case None => false case Some(v) => now - v > OneHour)
  }

  /** The stamp stored after a check at `now`: the new time when it wrote,
      the old one otherwise. */
  function AfterLastSeenCheck(stored: Option<string>, now: nat): (r: Option<string>)
    ensures ShouldWriteLastSeen(stored, now) ==> r == Some(NatToString(now))
    ensures !ShouldWriteLastSeen(stored, now) ==> r == stored
  {
    if ShouldWriteLastSeen(stored, now) then Some(NatToString(now)) else stored
  }

  /** After a write at `t`, no check writes again until more than an hour
      later, and the first check after that writes. */
  lemma AtMostOneWritePerHour(t: nat, later: int)
    ensures ShouldWriteLastSeen(Some(NatToString(t)), later) <==> later - t > OneHour
  {
    ParseIntRoundTrip(t);
  }

  /** Checking again at the same moment never writes a second time, and
      after a write no check within the next hour changes the stamp. */
  lemma LastSeenCheckSettles(stored: Option<string>, now: nat, later: nat)
    ensures AfterLastSeenCheck(AfterLastSeenCheck(stored, now), now) == AfterLastSeenCheck(stored, now)
    ensures ShouldWriteLastSeen(stored, now) && later <= now + OneHour ==>
              AfterLastSeenCheck(AfterLastSeenCheck(stored, now), later) == Some(NatToString(now))
  {
    AtMostOneWritePerHour(now, now);
    AtMostOneWritePerHour(now, later);
  }

  /** A stamp with no digits blocks every later write. */
  lemma UnparsableStampBlocks(s: string, now: int)
    requires s != "" && ParseInt(s).None?
    ensures !ShouldWriteLastSeen(Some(s), now)
  {
  }

  // ---------------------------------------------------------------------------
  // The profile created on first sign-in
  // ---------------------------------------------------------------------------

  /** `email.split('@')[0]`: the text before the first '@', or all of it. */
  function BeforeFirstAt(s: string): (r: string)
    ensures |r| <= |s| && r == s[..|r|]
    ensures '@' !in r
    ensures |r| < |s| ==> s[|r|] == '@'
  {
    if |s| == 0 || s[0] == '@' then ""
    else [s[0]] + BeforeFirstAt(s[1..])
  }

  /** `pendingType || 'client'`. */
  function DefaultUserType(pending: Option<string>): (r: string)
    ensures r != ""
    ensures pending.Some? && pending.value != "" ==> r == pending.value
    ensures pending.None? || pending == Some("") ==> r == "client"
  {
    match pending
    case None => "client"
    case Some(p) => if p == "" then "client" else p
  }

  const FallbackName := "Signed In User"

  /** `metadata.full_name || email.split('@')[0] || 'Signed In User'`. */
  function DefaultFullName(metadataName: Option<string>, email: Option<string>): (r: string)
    ensures r != ""
    ensures metadataName.Some? && metadataName.value != "" ==> r == metadataName.value
  {
    if metadataName.Some? && metadataName.value != "" then metadataName.value
    else if email.Some? && BeforeFirstAt(email.value) != "" then BeforeFirstAt(email.value)
    else FallbackName
  }

  /** The fallbacks in order: the metadata name, else the e-mail's local
      part, else the fixed name, which only an e-mail that is missing or
      starts with '@' reaches. */
  lemma FullNameFallbacks(metadataName: Option<string>, local: string, domain: string)
    requires '@' !in local
    ensures (metadataName.None? || metadataName == Some("")) && local != "" ==>
              DefaultFullName(metadataName, Some(local + "@" + domain)) == local
    ensures (metadataName.None? || metadataName == Some("")) ==>
              DefaultFullName(metadataName, Some("@" + domain)) == FallbackName
              && DefaultFullName(metadataName, None) == FallbackName
  {
    BeforeFirstAtSplit(local, domain);
    BeforeFirstAtSplit("", domain);
  }

  lemma {:induction false} BeforeFirstAtSplit(local: string, domain: string)
    requires '@' !in local
    ensures BeforeFirstAt(local + "@" + domain) == local
    decreases |local|
  {
    if |local| > 0 {
      assert (local + "@" + domain)[1..] == local[1..] + "@" + domain;
      BeforeFirstAtSplit(local[1..], domain);
    }
  }

  /** The row upserted for a signed-in user without a profile. */
  datatype ProfileUpsert = ProfileUpsert(id: string, email: string, fullName: string, userType: string)

  /** What the profile query answered: an error (also a timeout), a row, or
      nothing. */
  datatype ProfileReply = ProfileError | ProfileFound(profile: string) | ProfileMissing

  /** The signed-in account as auth reports it. */
  datatype AuthUser = AuthUser(email: Option<string>, metadataName: Option<string>)

  /** What loadProfile does to the profile state: nothing, or `setProfile`
      with a row or with null. */
  datatype ProfileWrite = Unchanged | SetProfile(value: Option<string>)

  /** What loadProfile did: the profile write, the row upserted, and whether
      the pending type was cleared and the account marked as existing. */
  datatype LoadRun = LoadRun(profileSet: ProfileWrite, upsert: Option<ProfileUpsert>, pendingCleared: bool)

  /** loadProfile. `reloaded` is what the `.single()` read after a successful
      upsert gave back: the row, or None when that read failed. */
  function LoadProfile(
    userId: string, reply: ProfileReply, pending: Option<string>, authUser: Option<AuthUser>,
    upsertOk: bool, reloaded: Option<string>): (r: LoadRun)
    ensures reply.ProfileFound? ==> r == LoadRun(SetProfile(Some(reply.profile)), None, false)
    ensures reply.ProfileError? ==> r == LoadRun(Unchanged, None, false)
    ensures r.upsert.Some? <==> reply.ProfileMissing? && authUser.Some?
    ensures r.upsert.Some? ==>
              r.upsert.value.id == userId && r.upsert.value.userType == DefaultUserType(pending)
              && r.upsert.value.fullName == DefaultFullName(authUser.value.metadataName, authUser.value.email)
    ensures r.pendingCleared <==> r.upsert.Some? && upsertOk
    ensures r.pendingCleared ==> r.profileSet == SetProfile(reloaded)
    ensures r.profileSet != Unchanged <==> reply.ProfileFound? || r.pendingCleared
  {
    match reply
    case ProfileError => LoadRun(Unchanged, None, false)
    case ProfileFound(p) => LoadRun(SetProfile(Some(p)), None, false)
    case ProfileMissing =>
      match authUser
      case None => LoadRun(Unchanged, None, false)
      case Some(a) =>
        var email := match a.email case None => "" case Some(e) => e;
        var row := ProfileUpsert(userId, email, DefaultFullName(a.metadataName, a.email), DefaultUserType(pending));
        if upsertOk then LoadRun(SetProfile(reloaded), Some(row), true) else LoadRun(Unchanged, Some(row), false)
  }

  /** A user who never chose a type becomes a client. */
  lemma NewUserIsClientByDefault(userId: string, a: AuthUser, reloaded: Option<string>)
    ensures LoadProfile(userId, ProfileMissing, None, Some(a), true, reloaded).upsert.value.userType == "client"
    ensures LoadProfile(userId, ProfileMissing, Some("provider"), Some(a), true, reloaded).upsert.value.userType == "provider"
  {
  }

  /** The pending type is used by one successful creation only: a failed
      upsert keeps it, so the next attempt asks for the same type, while after
      a success a later creation falls back to "client". */
  lemma PendingTypeConsumedOnce(userId: string, pending: Option<string>, a: AuthUser,
                                upsertOk: bool, reloaded: Option<string>, again: bool)
    ensures var first := LoadProfile(userId, ProfileMissing, pending, Some(a), upsertOk, reloaded);
            var pendingAfter := if first.pendingCleared then None else pending;
            var second := LoadProfile(userId, ProfileMissing, pendingAfter, Some(a), again, reloaded);
            (upsertOk ==> second.upsert.value.userType == "client")
            && (!upsertOk ==> second.upsert == first.upsert && first.profileSet == Unchanged)
  {
    var first := LoadProfile(userId, ProfileMissing, pending, Some(a), upsertOk, reloaded);
    assert first.pendingCleared == upsertOk;
  }

  // ---------------------------------------------------------------------------
  // Guards
  // ---------------------------------------------------------------------------

  datatype UpdateReply = UpdateOk | UpdateFailed(message: string)

  /** updateProfile's answer and whether it wrote. */
  datatype UpdateRun = UpdateRun(error: Option<string>, wrote: bool)

  const NoUserMessage := "No user logged in"

  function UpdateProfile(user: Option<string>, reply: UpdateReply): (r: UpdateRun)
    ensures user.None? ==> r == UpdateRun(Some(NoUserMessage), false)
    ensures user.Some? ==> r.wrote && (r.error.None? <==> reply.UpdateOk?)
    ensures user.Some? && reply.UpdateFailed? ==> r.error == Some(reply.message)
  {
    match user
    case None => UpdateRun(Some(NoUserMessage), false)
    case Some(_) =>
      match reply
      case UpdateOk => UpdateRun(None, true)
      case UpdateFailed(m) => UpdateRun(Some(m), true)
  }

  /** The answer tells the two failures apart: no error exactly when a
      signed-in user's write succeeded, the fixed no-user message with no
      write exactly when nobody is signed in, and otherwise the database's
      own message after a write. */
  lemma UpdateOutcomeIff(user: Option<string>, reply: UpdateReply)
    requires reply.UpdateFailed? ==> reply.message != NoUserMessage
    ensures UpdateProfile(user, reply).error.None? <==> user.Some? && reply.UpdateOk?
    ensures UpdateProfile(user, reply).error == Some(NoUserMessage) <==> user.None?
    ensures UpdateProfile(user, reply).wrote <==> user.Some?
  {
  }

  /** useAuth: the context value, or the error it throws outside the
      provider. */
  datatype Hook<C> = Context(value: C) | Throws(message: string)

  const OutsideProviderMessage := "useAuth must be used within an AuthProvider"

  function UseAuth<C>(context: Option<C>): (r: Hook<C>)
    ensures r.Throws? <==> context.None?
    ensures r.Throws? ==> r.message == OutsideProviderMessage
    ensures context.Some? ==> r == Context(context.value)
  {
    match context
    case None => Throws(OutsideProviderMessage)
    case Some(c) => Context(c)
  }
}

=== FILE: auth_modal.dfy ===
/** src/components/AuthModal.tsx: live field validation, the submit-time
    checks and their order, and the reset when switching between sign-in and
    sign-up. The sign-in and sign-up calls are outputs; their answer is an
    input. */
module AuthModal {
  import opened Text
  import opened Validation

  datatype Mode = SignIn | SignUp

  datatype Field = EmailField | FullNameField | PasswordField | ConfirmField

  datatype UserType = Client | ProviderType

  /** The form's fields as the component holds them. */
  datatype Form = Form(
    email: string, password: string, confirmPassword: string, fullName: string,
    agreedToTerms: bool, userType: UserType)

  const EmailMessage := "Please enter a valid email address"
  const NameMessage := "Name must be at least 2 characters"
  const ConfirmMessage := "Passwords do not match"
  const SubmitNameMessage := "Please enter your full name"
  const TermsMessage := "Please agree to the Terms and Conditions"

  // ---------------------------------------------------------------------------
  // validateField
  // ---------------------------------------------------------------------------

  /** validateField as written. `passwordState` is the password of the last
      render: the handler runs right after `setPassword(value)`, before the
      re-render, so `passwordValidation` still describes the previous text. */
  function ValidateField(
    errors: map<Field, string>, field: Field, value: string, mode: Mode, passwordState: string): (r: map<Field, string>)
    ensures forall f :: f != field ==> (f in r <==> f in errors) && (f in r ==> r[f] == errors[f])
    ensures value == "" ==> field !in r
    ensures field != PasswordField ==> (field in r <==> value != "" && FieldFails(field, value, passwordState))
    ensures field == PasswordField && mode == SignIn ==> field !in r
    ensures field == PasswordField && mode == SignUp ==>
              (field in r <==> value != "" && !ValidatePassword(passwordState).isValid)
    ensures field == PasswordField && field in r ==> r[field] == ValidatePassword(passwordState).issues[0]
  {
    match field
    case EmailField =>
      if value != "" && !ValidateEmail(value) then errors[EmailField := EmailMessage] else errors - {EmailField}
    case FullNameField =>
      if value != "" && !ValidateFullName(value) then errors[FullNameField := NameMessage] else errors - {FullNameField}
    case PasswordField =>
      var stale := ValidatePassword(passwordState);
      if mode == SignUp && value != "" && !stale.isValid then errors[PasswordField := stale.issues[0]]
      else errors - {PasswordField}
    case ConfirmField =>
      if value != "" && value != passwordState then errors[ConfirmField := ConfirmMessage] else errors - {ConfirmField}
  }

  /** The live check for the fields other than the password. */
  predicate FieldFails(field: Field, value: string, password: string) {
    match field
    case EmailField => !ValidateEmail(value)
    case FullNameField => !ValidateFullName(value)
    case PasswordField => !ValidatePassword(value).isValid
    case ConfirmField => value != password
  }

  /** The password check on the text just typed, with the first issue shown. */
  function ValidateFieldFixed(
    errors: map<Field, string>, field: Field, value: string, mode: Mode, passwordState: string): (r: map<Field, string>)
    ensures forall f :: f != field ==> (f in r <==> f in errors) && (f in r ==> r[f] == errors[f])
    ensures field == PasswordField ==>
              (field in r <==> mode == SignUp && value != "" && !ValidatePassword(value).isValid)
    ensures field == PasswordField && field in r ==> r[field] == ValidatePassword(value).issues[0]
  {
    if field == PasswordField then
      var check := ValidatePassword(value);
      if mode == SignUp && value != "" && !check.isValid then errors[PasswordField := check.issues[0]]
      else errors - {PasswordField}
    else ValidateField(errors, field, value, mode, passwordState)
  }

  /** The stale check disagrees with the fixed one: after a valid password,
      replacing it with "a" shows no error, though "a" is too short. */
  lemma StalePasswordCheck()
    ensures PasswordField !in ValidateField(map[], PasswordField, "a", SignUp, "Abcdefg1!")
    ensures ValidateFieldFixed(map[], PasswordField, "a", SignUp, "Abcdefg1!")[PasswordField] == LengthIssue
  {
    SamplePasswords();
    StaleCheckMissesShort("a", "Abcdefg1!");
  }

  /** After any valid password, a short replacement passes the stale check
      but fails the fixed one on length. */
  lemma StaleCheckMissesShort(value: string, previous: string)
    requires ValidatePassword(previous).isValid && value != "" && Utf16Length(value) < 8
    ensures PasswordField !in ValidateField(map[], PasswordField, value, SignUp, previous)
    ensures var r := ValidateFieldFixed(map[], PasswordField, value, SignUp, previous);
            PasswordField in r && r[PasswordField] == LengthIssue
  {
    StaleCheckPasses(value, previous);
    FixedCheckCatchesShort(value, previous);
  }

  lemma StaleCheckPasses(value: string, previous: string)
    requires ValidatePassword(previous).isValid
    ensures PasswordField !in ValidateField(map[], PasswordField, value, SignUp, previous)
  {
  }

  lemma FixedCheckCatchesShort(value: string, previous: string)
    requires value != "" && Utf16Length(value) < 8
    ensures var r := ValidateFieldFixed(map[], PasswordField, value, SignUp, previous);
            PasswordField in r && r[PasswordField] == LengthIssue
  {
    var check := ValidatePassword(value);
    ShortFailsLengthFirst(value);
    assert !check.isValid && check.issues[0] == LengthIssue;
  }

  /** "Abcdefg1!" passes every rule; "a" fails the length rule first. */
  lemma SamplePasswords()
    ensures ValidatePassword("Abcdefg1!").isValid
    ensures ValidatePassword("a").issues != [] && ValidatePassword("a").issues[0] == LengthIssue
  {
    var valid := "Abcdefg1!";
    assert SpecialChars[0] == valid[8];
    assert IsAsciiLower(valid[1]) && IsAsciiUpper(valid[0]) && IsDigit(valid[7]) && IsSpecial(valid[8]);
    AllClassesValid(valid);
    ShortFailsLengthFirst("a");
  }

  // ---------------------------------------------------------------------------
  // handleSubmit
  // ---------------------------------------------------------------------------

  /** Why a submit stopped before calling the backend. */
  datatype Blocked = FieldBlocked(field: Field, message: string) | FormBlocked(message: string)

  /** The client-side checks of handleSubmit, in order; the first failure
      wins. */
  function CheckSubmit(mode: Mode, f: Form): (r: Option<Blocked>)
    ensures mode == SignIn ==> (r.None? <==> ValidateEmail(f.email))
    ensures mode == SignUp ==>
              (r.None? <==> ValidateFullName(f.fullName) && ValidatePassword(f.password).isValid
                            && f.password == f.confirmPassword && f.agreedToTerms && ValidateEmail(f.email))
  {
    if mode == SignUp && !ValidateFullName(f.fullName) then Some(FieldBlocked(FullNameField, SubmitNameMessage))
    else if mode == SignUp && !ValidatePassword(f.password).isValid then
      Some(FieldBlocked(PasswordField, Join(ValidatePassword(f.password).issues, ", ")))
    else if mode == SignUp && f.password != f.confirmPassword then Some(FieldBlocked(ConfirmField, ConfirmMessage))
    else if mode == SignUp && !f.agreedToTerms then Some(FormBlocked(TermsMessage))
    else if !ValidateEmail(f.email) then Some(FieldBlocked(EmailField, EmailMessage))
    else None
  }

  /** Sign-up checks the name first, then the password, the confirmation,
      the terms and last the email: each check reports only when all earlier
      ones passed. */
  lemma SignUpCheckOrder(f: Form)
    ensures !ValidateFullName(f.fullName) ==> CheckSubmit(SignUp, f) == Some(FieldBlocked(FullNameField, SubmitNameMessage))
    ensures ValidateFullName(f.fullName) && !ValidatePassword(f.password).isValid ==>
              CheckSubmit(SignUp, f) == Some(FieldBlocked(PasswordField, Join(ValidatePassword(f.password).issues, ", ")))
    ensures ValidateFullName(f.fullName) && ValidatePassword(f.password).isValid && f.password != f.confirmPassword ==>
              CheckSubmit(SignUp, f) == Some(FieldBlocked(ConfirmField, ConfirmMessage))
    ensures (ValidateFullName(f.fullName) && ValidatePassword(f.password).isValid && f.password == f.confirmPassword
             && !f.agreedToTerms) ==> CheckSubmit(SignUp, f) == Some(FormBlocked(TermsMessage))
    ensures (ValidateFullName(f.fullName) && ValidatePassword(f.password).isValid && f.password == f.confirmPassword
             && f.agreedToTerms && !ValidateEmail(f.email)) ==>
              CheckSubmit(SignUp, f) == Some(FieldBlocked(EmailField, EmailMessage))
    ensures !ValidateEmail(f.email) ==> CheckSubmit(SignIn, f) == Some(FieldBlocked(EmailField, EmailMessage))
  {
    var r := CheckSubmit(SignUp, f);
    if !ValidateFullName(f.fullName) {
      assert r == Some(FieldBlocked(FullNameField, SubmitNameMessage));
    } else if !ValidatePassword(f.password).isValid {
      assert r == Some(FieldBlocked(PasswordField, Join(ValidatePassword(f.password).issues, ", ")));
    } else if f.password != f.confirmPassword {
      assert r == Some(FieldBlocked(ConfirmField, ConfirmMessage));
    } else if !f.agreedToTerms {
      assert r == Some(FormBlocked(TermsMessage));
    } else if !ValidateEmail(f.email) {
      assert r == Some(FieldBlocked(EmailField, EmailMessage));
    }
    SignInBlockedByEmail(f);
  }

  /** A malformed email blocks sign-in with the email message. */
  lemma SignInBlockedByEmail(f: Form)
    ensures !ValidateEmail(f.email) ==> CheckSubmit(SignIn, f) == Some(FieldBlocked(EmailField, EmailMessage))
  {
  }

  /** The submit-time password message lists every issue, joined by ", ";
      the live check shows only the first, which the message starts with. */
  lemma SubmitMessageListsAllIssues(f: Form)
    requires ValidateFullName(f.fullName) && !ValidatePassword(f.password).isValid
    ensures ValidatePassword(f.password).issues != []
    ensures StartsWith(CheckSubmit(SignUp, f).value.message, ValidatePassword(f.password).issues[0])
  {
    var issues := ValidatePassword(f.password).issues;
    assert CheckSubmit(SignUp, f).value.message == Join(issues, ", ");
    JoinStartsWithFirst(issues, ", ");
  }

  /** Sign-in checks only the email: the password is not validated on the
      client. */
  lemma SignInChecksEmailOnly(f: Form, password: string)
    ensures CheckSubmit(SignIn, f) == CheckSubmit(SignIn, f.(password := password, fullName := "", agreedToTerms := false))
  {
  }

  /** The call made once the checks pass. */
  datatype AuthCall = SignInCall(email: string, password: string)
                    | SignUpCall(email: string, password: string, fullName: string, userType: UserType)

  /** The auth call's answer: success, an Error with its message, or a
      thrown value that is not an Error. */
  datatype AuthReply = AuthOk | AuthError(message: string) | AuthThrewOther

  const FallbackAuthMessage := "An error occurred"

  /** The modal state that submitting and switching mode touch. */
  datatype ModalState = ModalState(
    mode: Mode, error: string, fieldErrors: map<Field, string>, showSuccess: bool, closed: bool)

  datatype SubmitRun = SubmitRun(state: ModalState, call: Option<AuthCall>)

  /** handleSubmit: errors are cleared, the checks run, and only if they all
      pass is the backend called. */
  function HandleSubmit(s: ModalState, f: Form, reply: AuthReply): (r: SubmitRun)
    ensures r.call.Some? <==> CheckSubmit(s.mode, f).None?
    ensures r.call.Some? ==> r.call.value == (if s.mode == SignIn then SignInCall(f.email, f.password)
                                              else SignUpCall(f.email, f.password, f.fullName, f.userType))
    ensures r.state.mode == s.mode
    ensures r.call.Some? && reply.AuthOk? ==>
              (if s.mode == SignIn then r.state.closed else r.state.showSuccess)
    ensures r.call.Some? && !reply.AuthOk? ==>
              r.state.error == (if reply.AuthError? then reply.message else FallbackAuthMessage)
              && r.state.fieldErrors == map[] && r.state.closed == s.closed && r.state.showSuccess == s.showSuccess
    ensures r.call.None? ==>
              match CheckSubmit(s.mode, f).value
              case FieldBlocked(field, m) => r.state.fieldErrors == map[field := m] && r.state.error == ""
              case FormBlocked(m) => r.state.error == m && r.state.fieldErrors == map[]
  {
    var cleared := s.(error := "", fieldErrors := map[]);
    match CheckSubmit(s.mode, f)
    case Some(FieldBlocked(field, m)) => SubmitRun(cleared.(fieldErrors := map[field := m]), None)
    case Some(FormBlocked(m)) => SubmitRun(cleared.(error := m), None)
    case None =>
      var call := if s.mode == SignIn then SignInCall(f.email, f.password)
                  else SignUpCall(f.email, f.password, f.fullName, f.userType);
      match reply
      case AuthError(m) => SubmitRun(cleared.(error := m), Some(call))
      case AuthThrewOther => SubmitRun(cleared.(error := FallbackAuthMessage), Some(call))
      case AuthOk =>
        if s.mode == SignIn then SubmitRun(cleared.(closed := true), Some(call))
        else SubmitRun(cleared.(showSuccess := true), Some(call))
  }

  /** Switching mode clears the error, the field errors and the success
      flag; choosing the current mode again changes nothing. */
  function SwitchMode(s: ModalState, m: Mode): (r: ModalState)
    ensures r.mode == m
    ensures m != s.mode ==> r.error == "" && r.fieldErrors == map[] && !r.showSuccess
    ensures m == s.mode ==> r == s
    ensures r.closed == s.closed
  {
    if m == s.mode then s else ModalState(m, "", map[], false, s.closed)
  }

  /** The success timer of a sign-up: two seconds after the success screen
      appears it is hidden and the modal closes. The delay itself is not
      modelled; the function is the timer's callback. */
  function SuccessTimeout(s: ModalState): (r: ModalState)
    ensures r.closed && !r.showSuccess
    ensures r.mode == s.mode && r.error == s.error && r.fieldErrors == s.fieldErrors
  {
    s.(showSuccess := false, closed := true)
  }

  /** A successful sign-up shows the success screen, and once its timer
      fires the modal is closed with the screen hidden, as a successful
      sign-in closes it at once. */
  lemma SignUpThenTimerCloses(s: ModalState, f: Form)
    requires s.mode == SignUp && CheckSubmit(SignUp, f).None?
    ensures HandleSubmit(s, f, AuthOk).state.showSuccess
    ensures var r := SuccessTimeout(HandleSubmit(s, f, AuthOk).state);
            r.closed && !r.showSuccess && r.error == "" && r.fieldErrors == map[]
  {
  }

  /** Nothing from an earlier submit survives a new one: the outcome depends
      on the previous state only through its mode and its two flags, and
      submitting the same form again with the same answer changes nothing. */
  lemma SubmitForgetsEarlierErrors(s: ModalState, t: ModalState, f: Form, reply: AuthReply)
    requires s.mode == t.mode && s.closed == t.closed && s.showSuccess == t.showSuccess
    ensures HandleSubmit(s, f, reply).state == HandleSubmit(t, f, reply).state
    ensures HandleSubmit(HandleSubmit(s, f, reply).state, f, reply).state == HandleSubmit(s, f, reply).state
  {
  }

  /** After a switch, a blocked submit shows only its own complaint. */
  lemma SwitchThenBlockedSubmit(s: ModalState, m: Mode, f: Form, reply: AuthReply)
    requires m != s.mode
    requires CheckSubmit(m, f).Some? && CheckSubmit(m, f).value.FieldBlocked?
    ensures var r := HandleSubmit(SwitchMode(s, m), f, reply).state;
            r.error == "" && |r.fieldErrors.Keys| == 1
  {
  }
}

=== FILE: carousel.dfy ===
/** src/hooks/useCarousel.ts: the current index and the auto-play flag of a
    carousel over `n` items. JavaScript's `%` truncates toward zero and gives
    NaN for a zero divisor, so an index is either an integer or NaN. */
module Carousel {

  datatype Index = At(i: int) | NaN

  datatype State = State(index: Index, autoPlaying: bool)

  /** The state right after mounting. */
  const Initial := State(At(0), true)

  /** JavaScript's `%` on integers: the result has the dividend's sign. */
  function JsRem(a: int, n: int): (r: int)
    requires n != 0
    ensures a >= 0 ==> 0 <= r < (if n > 0 then n else -n)
    ensures a < 0 ==> -(if n > 0 then n else -n) < r <= 0
  {
    var m := if n > 0 then n else -n;
    if a >= 0 then a % m else -((-a) % m)
  }

  /** `(x + delta) % n` on an index. */
  function Shift(x: Index, delta: int, n: nat): Index {
    match x
    case NaN => NaN
    case At(i) => if n == 0 then NaN else At(JsRem(i + delta, n))
  }

  /** next: one step forward, and auto-play stops. */
  function Next(s: State, n: nat): State {
    State(Shift(s.index, 1, n), false)
  }

  /** prev: `(i - 1 + n) % n`, and auto-play stops. */
  function Prev(s: State, n: nat): State {
    State(Shift(s.index, n - 1, n), false)
  }

  /** goTo: takes the index as given, without a bounds check. */
  function GoTo(s: State, index: int): (r: State)
    ensures r.index == At(index) && !r.autoPlaying
  {
    State(At(index), false)
  }

  function Pause(s: State): (r: State)
    ensures r.index == s.index && !r.autoPlaying
  {
    s.(autoPlaying := false)
  }

  function Resume(s: State): (r: State)
    ensures r.index == s.index && r.autoPlaying
  {
    s.(autoPlaying := true)
  }

  /** One firing of the auto-advance interval. The interval exists only
      while auto-play is on and there are items. */
  function Tick(s: State, n: nat): (r: State)
    ensures r.autoPlaying == s.autoPlaying
    ensures !s.autoPlaying || n == 0 ==> r == s
  {
    if !s.autoPlaying || n == 0 then s else State(Shift(s.index, 1, n), true)
  }

  predicate InRange(x: Index, n: nat) {
    x.At? && 0 <= x.i < n
  }

  /** For an index in range, next and prev stay in range, step by one
      position around the ring, and undo each other. */
  lemma NextPrevInRange(s: State, n: nat)
    requires InRange(s.index, n)
    ensures InRange(Next(s, n).index, n) && InRange(Prev(s, n).index, n)
    ensures Next(s, n).index.i == (if s.index.i == n - 1 then 0 else s.index.i + 1)
    ensures Prev(s, n).index.i == (if s.index.i == 0 then n - 1 else s.index.i - 1)
    ensures Prev(Next(s, n), n).index == s.index
    ensures Next(Prev(s, n), n).index == s.index
  {
    var i := s.index.i;
    WrapOnce(i + 1, n);
    WrapOnce(i + n - 1, n);
    var j := Next(s, n).index.i;
    WrapOnce(j + n - 1, n);
    var k := Prev(s, n).index.i;
    WrapOnce(k + 1, n);
  }

  /** Below `2n`, the remainder by `n` subtracts `n` at most once. */
  lemma WrapOnce(a: int, n: nat)
    requires n > 0 && 0 <= a < 2 * n
    ensures JsRem(a, n) == (if a < n then a else a - n)
  {
    var q, r := a / n, a % n;
    assert a == q * n + r && 0 <= r < n;
    MulMono(2, q, n);
    MulMono(q, -1, n);
    assert q == (if a < n then 0 else 1);
  }

  /** Multiplying by a natural number keeps the order. */
  lemma MulMono(x: int, y: int, n: nat)
    ensures x <= y ==> x * n <= y * n
  {
    if x <= y {
      assert y * n == x * n + (y - x) * n;
    }
  }

  /** goTo forgets where the carousel was: the result depends only on the
      target, lands in range exactly for a valid target, and stops
      auto-play. */
  lemma GoToForgets(s: State, t: State, index: int, n: nat)
    ensures GoTo(s, index) == GoTo(t, index)
    ensures InRange(GoTo(s, index).index, n) <==> 0 <= index < n
    ensures !GoTo(s, index).autoPlaying && !Tick(GoTo(s, index), n).autoPlaying
  {
  }

  /** Pausing and resuming touch only the flag: each undoes the other, both
      are idempotent, and a paused carousel does not advance on a tick. */
  lemma PauseResumeRoundTrip(s: State, n: nat)
    ensures s.autoPlaying ==> Resume(Pause(s)) == s
    ensures !s.autoPlaying ==> Pause(Resume(s)) == s
    ensures Pause(Pause(s)) == Pause(s) && Resume(Resume(s)) == Resume(s)
    ensures Tick(Pause(s), n) == Pause(s)
    ensures n > 0 && s.index.At? ==> Tick(Resume(s), n).index == Shift(s.index, 1, n)
  {
  }

  /** With no items, next and prev make the index NaN. */
  lemma EmptyCarouselIsNaN(s: State)
    ensures Next(s, 0).index == NaN && Prev(s, 0).index == NaN
  {
  }

  /** goTo does not check bounds: going to index 7 of three items leaves 7. */
  lemma GoToOutOfRange()
    ensures var r := GoTo(Initial, 7); r.index == At(7) && !InRange(r.index, 3)
  {
  }

  // ---------------------------------------------------------------------------
  // Sequences of user actions
  // ---------------------------------------------------------------------------

  datatype Action = NextAction | PrevAction | GoToAction(target: int) | PauseAction | ResumeAction | TickAction

  function Step(s: State, a: Action, n: nat): State {
    match a
    case NextAction => Next(s, n)
    case PrevAction => Prev(s, n)
    case GoToAction(t) => GoTo(s, t)
    case PauseAction => Pause(s)
    case ResumeAction => Resume(s)
    case TickAction => Tick(s, n)
  }

  function Run(s: State, actions: seq<Action>, n: nat): State
    decreases |actions|
  {
    if |actions| == 0 then s else Run(Step(s, actions[0], n), actions[1..], n)
  }

  /** Every goTo in `actions` targets a valid index. */
  predicate TargetsInRange(actions: seq<Action>, n: nat) {
    forall k :: 0 <= k < |actions| && actions[k].GoToAction? ==> 0 <= actions[k].target < n
  }

  /** Starting in range, any run whose goTo targets are valid keeps the index
      in range. */
  lemma {:induction false} RunStaysInRange(s: State, actions: seq<Action>, n: nat)
    requires InRange(s.index, n)
    requires TargetsInRange(actions, n)
    ensures InRange(Run(s, actions, n).index, n)
    decreases |actions|
  {
    if |actions| > 0 {
      var t := Step(s, actions[0], n);
      assert InRange(t.index, n);
      assert TargetsInRange(actions[1..], n) by {
        forall k | 0 <= k < |actions[1..]| && actions[1..][k].GoToAction?
          ensures 0 <= actions[1..][k].target < n
        {
          assert actions[1..][k] == actions[k + 1];
        }
      }
      RunStaysInRange(t, actions[1..], n);
    }
  }

  /** Once auto-play stops, only resume turns it back on. */
  lemma {:induction false} AutoPlayNeedsResume(s: State, actions: seq<Action>, n: nat)
    requires !s.autoPlaying
    requires forall k :: 0 <= k < |actions| ==> !actions[k].ResumeAction?
    ensures !Run(s, actions, n).autoPlaying
    decreases |actions|
  {
    if |actions| > 0 {
      var t := Step(s, actions[0], n);
      assert !t.autoPlaying;
      AutoPlayNeedsResume(t, actions[1..], n);
    }
  }
}

=== FILE: chat.dfy ===
/** src/components/Chat.tsx: sending a message in a booking's chat (the
    guards, the message type inferred from an attachment, the stored text, the
    attachment path and what is kept after a failure) and the counterpart
    shown in the header. The random file token is an input, the storage and
    insert answers are inputs, and the writes are outputs. */
module Chat {
  import opened Text
  import Upload

  datatype MessageType = TextMsg | ImageMsg | AudioMsg | FileMsg

  datatype File = File(name: string, mimeType: string, size: nat)

  /** The composer: the draft, the attached file, and whether a send is
      under way. */
  datatype Composer = Composer(draft: string, selectedFile: Option<File>, sending: bool)

  /** The chat_messages row inserted. */
  datatype MessageInsert = MessageInsert(
    bookingId: string, senderId: string, text: string, messageType: MessageType,
    fileUrl: Option<string>, fileName: Option<string>, fileSize: Option<nat>)

  /** The storage answer for an attachment: its public URL, or an error
      (which is thrown). */
  datatype StorageReply = Stored(publicUrl: string) | StorageFailed

  datatype InsertReply = Inserted | InsertFailed

  /** What one call of handleSend did: the composer afterwards, the storage
      path written, the row inserted, and whether the failure toast showed. */
  datatype SendRun = SendRun(composer: Composer, uploadPath: Option<string>, insert: Option<MessageInsert>, failed: bool)

  const FailureToast := "Failed to send message"

  /** uploadFile's path: the booking's folder, the random token, and the
      file's last extension. */
  function AttachmentPath(bookingId: string, token: string, fileName: string): string {
    bookingId + "/" + token + "." + Upload.Extension(fileName)
  }

  /** The path sits in the booking's folder. */
  lemma AttachmentPathFolder(bookingId: string, token: string, fileName: string)
    ensures StartsWith(AttachmentPath(bookingId, token, fileName), bookingId + "/")
  {
    var rest := token + "." + Upload.Extension(fileName);
    assert AttachmentPath(bookingId, token, fileName) == (bookingId + "/") + rest;
  }

  /** The path keeps the file's last extension. */
  lemma AttachmentPathExtension(bookingId: string, token: string, fileName: string)
    ensures AfterLast(AttachmentPath(bookingId, token, fileName), '.') == Upload.Extension(fileName)
  {
    var front := bookingId + "/" + token;
    var ext := Upload.Extension(fileName);
    assert AttachmentPath(bookingId, token, fileName) == front + ['.'] + ext;
    Upload.AfterLastAppend(front, '.', ext);
  }

  /** The type stored with an attachment: a `text` request is refined from
      the file's MIME type, any other requested type is kept. */
  function InferType(requested: MessageType, f: File): (t: MessageType)
    ensures requested != TextMsg ==> t == requested
    ensures requested == TextMsg ==> t != TextMsg
    ensures requested == TextMsg && StartsWith(f.mimeType, "image/") ==> t == ImageMsg
    ensures requested == TextMsg && !StartsWith(f.mimeType, "image/") && StartsWith(f.mimeType, "audio/") ==> t == AudioMsg
    ensures requested == TextMsg && !StartsWith(f.mimeType, "image/") && !StartsWith(f.mimeType, "audio/") ==> t == FileMsg
  {
    if requested != TextMsg then requested
    else if StartsWith(f.mimeType, "image/") then ImageMsg
    else if StartsWith(f.mimeType, "audio/") then AudioMsg
    else FileMsg
  }

  /** The text stored with an attachment. */
  function AttachmentText(t: MessageType, f: File): (s: string)
    ensures t == AudioMsg ==> s == "Voice message"
    ensures t == ImageMsg ==> s == "Image"
    ensures t != AudioMsg && t != ImageMsg ==> s == f.name
  {
    if t == AudioMsg then "Voice message" else if t == ImageMsg then "Image" else f.name
  }

  /** For an attachment sent with the send button, the stored text follows
      the file's MIME type: "Image" for an image, "Voice message" for audio,
      and the file's own name for anything else. The text typed is never
      stored with an attachment. */
  lemma StoredTextFollowsMime(f: File)
    ensures var t := InferType(TextMsg, f);
            (StartsWith(f.mimeType, "image/") ==> AttachmentText(t, f) == "Image")
            && (!StartsWith(f.mimeType, "image/") && StartsWith(f.mimeType, "audio/") ==> AttachmentText(t, f) == "Voice message")
            && (!StartsWith(f.mimeType, "image/") && !StartsWith(f.mimeType, "audio/") ==> AttachmentText(t, f) == f.name)
  {
  }

  /** The first guard: no user, no booking, or a send already under way. */
  predicate Idle(user: Option<string>, booking: Option<string>, c: Composer) {
    user.Some? && booking.Some? && !c.sending
  }

  /** The second guard: a text send needs a non-blank draft or a file. */
  predicate HasSomethingToSend(c: Composer, fileToSend: Option<File>, requested: MessageType) {
    !(requested == TextMsg && Trim(c.draft) == "" && fileToSend.None? && c.selectedFile.None?)
  }

  /** handleSend. `fileToSend` is the recorded voice file, `requested` the
      type asked for (text for the send button), `token` the random text of
      the attachment name. */
  function HandleSend(
    user: Option<string>, booking: Option<string>, c: Composer, fileToSend: Option<File>,
    requested: MessageType, token: string, storage: StorageReply, reply: InsertReply): (r: SendRun)
    ensures !Idle(user, booking, c) || !HasSomethingToSend(c, fileToSend, requested) ==>
              r == SendRun(c, None, None, false)
    ensures Idle(user, booking, c) && HasSomethingToSend(c, fileToSend, requested) ==>
              !r.composer.sending
    ensures r.insert.Some? ==> r.insert.value.bookingId == booking.value && r.insert.value.senderId == user.value
    ensures r.composer.draft == c.draft || (r.composer.draft == "" && r.composer.selectedFile.None? && r.insert.Some? && reply == Inserted)
    ensures r.failed ==> r.composer == c.(sending := false)
  {
    if !Idle(user, booking, c) || !HasSomethingToSend(c, fileToSend, requested) then SendRun(c, None, None, false)
    else
      var done := c.(sending := false);
      var file := if fileToSend.Some? then fileToSend else c.selectedFile;
      var uploaded: Option<(string, string)> :=
        match file
        case None => None
        case Some(f) => Some((AttachmentPath(booking.value, token, f.name), match storage case Stored(u) => u case StorageFailed => ""));
      if file.Some? && storage.StorageFailed? then
        SendRun(done, Some(uploaded.value.0), None, true)
      else
        var row := match file
          case None =>
            MessageInsert(booking.value, user.value, Trim(c.draft), requested, None, None, None)
          case Some(f) =>
            var t := InferType(requested, f);
            MessageInsert(booking.value, user.value, AttachmentText(t, f), t, Some(uploaded.value.1), Some(f.name), Some(f.size));
        var path := if file.Some? then Some(uploaded.value.0) else None;
        if reply == Inserted then SendRun(Composer("", None, false), path, Some(row), false)
        else SendRun(done, path, Some(row), true)
  }

  /** A plain text send stores the trimmed draft as a text message and, once
      stored, clears the draft; a failure keeps it for another try. */
  lemma TextSend(user: string, booking: string, draft: string, token: string, storage: StorageReply, reply: InsertReply)
    requires Trim(draft) != ""
    ensures var r := HandleSend(Some(user), Some(booking), Composer(draft, None, false), None, TextMsg, token, storage, reply);
            r.insert == Some(MessageInsert(booking, user, Trim(draft), TextMsg, None, None, None))
            && r.uploadPath.None?
            && (reply == Inserted ==> r.composer == Composer("", None, false) && !r.failed)
            && (reply == InsertFailed ==> r.composer == Composer(draft, None, false) && r.failed)
  {
  }

  /** A blank draft with nothing attached sends nothing. */
  lemma BlankDraftIsNoOp(user: string, booking: string, draft: string, token: string, storage: StorageReply, reply: InsertReply)
    requires AllSpace(draft)
    ensures var c := Composer(draft, None, false);
            HandleSend(Some(user), Some(booking), c, None, TextMsg, token, storage, reply) == SendRun(c, None, None, false)
  {
    TrimEmptyIff(draft);
  }

  /** An attached file is uploaded first; a failed upload inserts nothing
      and keeps the draft and the file. Otherwise the row carries the file's
      URL, name and size, its type is inferred from the MIME type, and its
      text replaces whatever was typed. */
  lemma AttachmentSend(user: string, booking: string, draft: string, f: File, token: string, storage: StorageReply, reply: InsertReply)
    ensures var c := Composer(draft, Some(f), false);
            var r := HandleSend(Some(user), Some(booking), c, None, TextMsg, token, storage, reply);
            r.uploadPath == Some(AttachmentPath(booking, token, f.name))
            && (storage.StorageFailed? ==> r.insert.None? && r.failed && r.composer == c)
            && (storage.Stored? ==>
                  var t := InferType(TextMsg, f);
                  r.insert == Some(MessageInsert(booking, user, AttachmentText(t, f), t, Some(storage.publicUrl), Some(f.name), Some(f.size))))
            && (storage.Stored? && reply == Inserted ==> r.composer == Composer("", None, false))
  {
    var c := Composer(draft, Some(f), false);
    assert Idle(Some(user), Some(booking), c) && HasSomethingToSend(c, None, TextMsg);
    if storage.Stored? {
      var t := InferType(TextMsg, f);
      var row := MessageInsert(booking, user, AttachmentText(t, f), t, Some(storage.publicUrl), Some(f.name), Some(f.size));
      assert HandleSend(Some(user), Some(booking), c, None, TextMsg, token, storage, reply).insert == Some(row);
    }
  }

  /** A recorded voice file, sent with the audio type, is stored as "Voice
      message" whatever its MIME type, and takes precedence over an attached
      file. */
  lemma VoiceSend(user: string, booking: string, c: Composer, voice: File, token: string, url: string, reply: InsertReply)
    requires !c.sending
    ensures var r := HandleSend(Some(user), Some(booking), c, Some(voice), AudioMsg, token, Stored(url), reply);
            r.insert.Some? && r.insert.value.messageType == AudioMsg && r.insert.value.text == "Voice message"
            && r.insert.value.fileName == Some(voice.name)
  {
  }

  /** While a send is under way, no other send starts. */
  lemma NoSendWhileSending(user: Option<string>, booking: Option<string>, c: Composer, fileToSend: Option<File>,
                           requested: MessageType, token: string, storage: StorageReply, reply: InsertReply)
    requires c.sending
    ensures var r := HandleSend(user, booking, c, fileToSend, requested, token, storage, reply);
            r.insert.None? && r.uploadPath.None? && r.composer == c
  {
  }

  datatype UserType = ClientType | ProviderType | AdminType

  /** The header's counterpart: the provider when the signed-in profile is a
      client, the client otherwise, including when no profile is loaded. */
  function Counterpart<P>(profileType: Option<UserType>, client: P, provider: P): (p: P)
    ensures profileType == Some(ClientType) ==> p == provider
    ensures profileType != Some(ClientType) ==> p == client
  {
    if profileType == Some(ClientType) then provider else client
  }

  /** A participant never sees their own profile in the header: a client
      sees the provider and a provider sees the client. */
  lemma HeaderShowsOtherParty<P>(profileType: UserType, client: P, provider: P)
    requires client != provider
    ensures profileType == ClientType ==> Counterpart(Some(profileType), client, provider) != client
    ensures profileType == ProviderType ==> Counterpart(Some(profileType), client, provider) != provider
  {
  }
}

=== FILE: chat_reminder.dfy ===
/** supabase/functions/chat-reminder/index.ts: the daily reminder of unread
    chat messages. Messages unread for two days are grouped by recipient,
    recipients seen in the last two days are skipped, and one e-mail goes to
    each remaining recipient with their count. The clock, the query answers
    and each send's answer are inputs. Times are milliseconds since the
    epoch. */
module ChatReminder {
  import opened Text

  /** Two days, in milliseconds. */
  const TwoDays := 2 * 24 * 60 * 60 * 1000

  function Cutoff(now: int): (c: int)
    ensures c == now - 172800000
  {
    now - TwoDays
  }

  /** A message row with its joined booking's two participants. `joined` is
      false when the join came back null (the booking row is gone); the two
      ids are then meaningless. */
  datatype ChatMessage = ChatMessage(
    id: string, senderId: string, createdAt: int, isRead: bool, joined: bool, clientId: string, providerId: string)

  /** A message is waiting long enough: a message created more than two
      days before `now` is older than the cutoff, and one created later is
      not. */
  lemma CutoffIsTwoDaysAgo(now: int, createdAt: int)
    ensures createdAt < Cutoff(now) <==> now - createdAt > 172800000
  {
  }

  function Waiting(cutoff: int): ChatMessage -> bool {
    (m: ChatMessage) => !m.isRead && m.createdAt < cutoff
  }

  /** The message query: the unread messages older than the cutoff, each
      once and in the table's order. */
  function SelectMessages(all: seq<ChatMessage>, cutoff: int): (r: seq<ChatMessage>)
    ensures forall k :: 0 <= k < |r| ==> !r[k].isRead && r[k].createdAt < cutoff
    ensures forall k :: 0 <= k < |all| && !all[k].isRead && all[k].createdAt < cutoff ==> all[k] in r
    ensures IsSubsequence(r, all) && |r| == Count(all, Waiting(cutoff))
  {
    Filter(all, Waiting(cutoff))
  }

  /** Who a message is waiting for: the provider when the client sent it,
      the client otherwise. */
  function Recipient(m: ChatMessage): (id: string)
    ensures m.senderId == m.clientId ==> id == m.providerId
    ensures m.senderId != m.clientId ==> id == m.clientId
  {
    if m.senderId == m.clientId then m.providerId else m.clientId
  }

  /** When one of the two participants sent a message, the other one is
      reminded of it, never the sender. */
  lemma RecipientIsOtherParticipant(m: ChatMessage)
    requires m.senderId == m.clientId || m.senderId == m.providerId
    requires m.clientId != m.providerId
    ensures Recipient(m) != m.senderId
    ensures Recipient(m) == m.clientId || Recipient(m) == m.providerId
  {
  }

  datatype Profile = Profile(email: string, fullName: string, lastSeenAt: Option<int>)

  /** A recipient is reminded when their profile exists and they have not
      been seen since the cutoff. */
  predicate Eligible(profiles: map<string, Profile>, id: string, cutoff: int) {
    id in profiles && (profiles[id].lastSeenAt.None? || profiles[id].lastSeenAt.value < cutoff)
  }

  /** One entry of the reminder map, in insertion order. */
  datatype Entry = Entry(id: string, email: string, name: string, count: nat)

  /** The position of `id` among the entries, or -1. */
  function IndexOf(e: seq<Entry>, id: string): (i: int)
    ensures -1 <= i < |e|
    ensures i >= 0 ==> e[i].id == id
    ensures i < 0 ==> forall k :: 0 <= k < |e| ==> e[k].id != id
  {
    if |e| == 0 then -1
    else if e[|e| - 1].id == id then |e| - 1
    else IndexOf(e[..|e| - 1], id)
  }

  /** One turn of the loop: a recipient already present counts one more
      message without a new check; a new one enters with count 1 if eligible. */
  function Step(e: seq<Entry>, m: ChatMessage, profiles: map<string, Profile>, cutoff: int): seq<Entry> {
    var r := Recipient(m);
    var i := IndexOf(e, r);
    if i >= 0 then e[i := e[i].(count := e[i].count + 1)]
    else if Eligible(profiles, r, cutoff) then e + [Entry(r, profiles[r].email, profiles[r].fullName, 1)]
    else e
  }

  /** The reminder map after the loop over `msgs`. */
  function Aggregate(msgs: seq<ChatMessage>, profiles: map<string, Profile>, cutoff: int): seq<Entry>
    decreases |msgs|
  {
    if |msgs| == 0 then []
    else Step(Aggregate(msgs[..|msgs| - 1], profiles, cutoff), msgs[|msgs| - 1], profiles, cutoff)
  }

  /** How many of the messages wait for `id`. */
  function MessagesFor(msgs: seq<ChatMessage>, id: string): (n: nat)
    ensures n <= |msgs|
    decreases |msgs|
  {
    if |msgs| == 0 then 0
    else MessagesFor(msgs[..|msgs| - 1], id) + (if Recipient(msgs[|msgs| - 1]) == id then 1 else 0)
  }

  /** The total of the counts. */
  function Total(e: seq<Entry>): nat
    decreases |e|
  {
    if |e| == 0 then 0 else Total(e[..|e| - 1]) + e[|e| - 1].count
  }

  predicate UniqueIds(e: seq<Entry>) {
    forall i, j :: 0 <= i < j < |e| ==> e[i].id != e[j].id
  }

  /** Every entry is an eligible recipient, counted once per message waiting
      for them, with their profile's address. */
  predicate EntriesCounted(e: seq<Entry>, msgs: seq<ChatMessage>, profiles: map<string, Profile>, cutoff: int) {
    forall i :: 0 <= i < |e| ==>
      Eligible(profiles, e[i].id, cutoff) && e[i].count == MessagesFor(msgs, e[i].id) && e[i].count >= 1
      && e[i].email == profiles[e[i].id].email
  }

  /** Every eligible recipient with a message waiting is present. */
  ghost predicate Complete(e: seq<Entry>, msgs: seq<ChatMessage>, profiles: map<string, Profile>, cutoff: int) {
    forall id :: Eligible(profiles, id, cutoff) && MessagesFor(msgs, id) > 0 ==> IndexOf(e, id) >= 0
  }

  /** What the map holds after the loop. */
  ghost predicate Summarises(e: seq<Entry>, msgs: seq<ChatMessage>, profiles: map<string, Profile>, cutoff: int) {
    UniqueIds(e) && EntriesCounted(e, msgs, profiles, cutoff) && Complete(e, msgs, profiles, cutoff)
  }

  /** The loop's result summarises its messages, and the counts add up to at
      most the number of messages. */
  lemma {:induction false} AggregateSummarises(msgs: seq<ChatMessage>, profiles: map<string, Profile>, cutoff: int)
    ensures Summarises(Aggregate(msgs, profiles, cutoff), msgs, profiles, cutoff)
    ensures Total(Aggregate(msgs, profiles, cutoff)) <= |msgs|
    decreases |msgs|
  {
    if |msgs| > 0 {
      var front := msgs[..|msgs| - 1];
      var m := msgs[|msgs| - 1];
      var e := Aggregate(front, profiles, cutoff);
      AggregateSummarises(front, profiles, cutoff);
      StepPreserves(e, front, m, profiles, cutoff);
      SplitLast(msgs);
      assert Aggregate(msgs, profiles, cutoff) == Step(e, m, profiles, cutoff);
    }
  }

  /** One turn of the loop keeps the summary, and adds at most one to the
      total. */
  lemma StepPreserves(e: seq<Entry>, front: seq<ChatMessage>, m: ChatMessage, profiles: map<string, Profile>, cutoff: int)
    requires Summarises(e, front, profiles, cutoff)
    ensures Summarises(Step(e, m, profiles, cutoff), front + [m], profiles, cutoff)
    ensures Total(Step(e, m, profiles, cutoff)) <= Total(e) + 1
  {
    var r := Recipient(m);
    if IndexOf(e, r) >= 0 {
      StepCounts(e, front, m, profiles, cutoff);
    } else if Eligible(profiles, r, cutoff) {
      StepAdds(e, front, m, profiles, cutoff);
    } else {
      StepSkips(e, front, m, profiles, cutoff);
    }
  }

  /** Appending a message counts it for its recipient only. */
  lemma MessagesForAppend(front: seq<ChatMessage>, m: ChatMessage, id: string)
    ensures MessagesFor(front + [m], id) == MessagesFor(front, id) + (if Recipient(m) == id then 1 else 0)
  {
    assert (front + [m])[..|front|] == front;
  }

  /** A recipient already present counts one more message. */
  lemma StepCounts(e: seq<Entry>, front: seq<ChatMessage>, m: ChatMessage, profiles: map<string, Profile>, cutoff: int)
    requires Summarises(e, front, profiles, cutoff)
    requires IndexOf(e, Recipient(m)) >= 0
    ensures Summarises(Step(e, m, profiles, cutoff), front + [m], profiles, cutoff)
    ensures Total(Step(e, m, profiles, cutoff)) == Total(e) + 1
  {
    var s := Step(e, m, profiles, cutoff);
    var i := IndexOf(e, Recipient(m));
    assert s == e[i := e[i].(count := e[i].count + 1)];
    TotalUpdate(e, i, e[i].(count := e[i].count + 1));
    BumpedCounted(e, front, m, profiles, cutoff, s);
    BumpedComplete(e, front, m, profiles, cutoff, s);
  }

  lemma BumpedCounted(e: seq<Entry>, front: seq<ChatMessage>, m: ChatMessage, profiles: map<string, Profile>, cutoff: int, s: seq<Entry>)
    requires UniqueIds(e) && EntriesCounted(e, front, profiles, cutoff)
    requires IndexOf(e, Recipient(m)) >= 0 && s == Step(e, m, profiles, cutoff)
    ensures UniqueIds(s) && EntriesCounted(s, front + [m], profiles, cutoff)
  {
    var i := IndexOf(e, Recipient(m));
    assert s == e[i := e[i].(count := e[i].count + 1)];
    forall k | 0 <= k < |s|
      ensures s[k].id == e[k].id
      ensures Eligible(profiles, s[k].id, cutoff) && s[k].count == MessagesFor(front + [m], s[k].id) && s[k].count >= 1
      ensures s[k].email == profiles[s[k].id].email
    {
      MessagesForAppend(front, m, e[k].id);
    }
  }

  lemma BumpedComplete(e: seq<Entry>, front: seq<ChatMessage>, m: ChatMessage, profiles: map<string, Profile>, cutoff: int, s: seq<Entry>)
    requires Complete(e, front, profiles, cutoff)
    requires IndexOf(e, Recipient(m)) >= 0 && s == Step(e, m, profiles, cutoff)
    ensures Complete(s, front + [m], profiles, cutoff)
  {
    var r := Recipient(m);
    var i := IndexOf(e, r);
    assert s == e[i := e[i].(count := e[i].count + 1)];
    forall id | Eligible(profiles, id, cutoff) && MessagesFor(front + [m], id) > 0 ensures IndexOf(s, id) >= 0 {
      MessagesForAppend(front, m, id);
      if id != r {
        IndexOfFinds(s, IndexOf(e, id), id);
      } else {
        IndexOfFinds(s, i, id);
      }
    }
  }

  /** A new eligible recipient enters with count 1. */
  lemma StepAdds(e: seq<Entry>, front: seq<ChatMessage>, m: ChatMessage, profiles: map<string, Profile>, cutoff: int)
    requires Summarises(e, front, profiles, cutoff)
    requires IndexOf(e, Recipient(m)) < 0 && Eligible(profiles, Recipient(m), cutoff)
    ensures Summarises(Step(e, m, profiles, cutoff), front + [m], profiles, cutoff)
    ensures Total(Step(e, m, profiles, cutoff)) == Total(e) + 1
  {
    var r := Recipient(m);
    var s := Step(e, m, profiles, cutoff);
    assert s == e + [Entry(r, profiles[r].email, profiles[r].fullName, 1)];
    AppendedCounted(e, front, m, profiles, cutoff);
    AppendedComplete(e, front, m, profiles, cutoff);
    assert s[..|s| - 1] == e;
  }

  lemma AppendedCounted(e: seq<Entry>, front: seq<ChatMessage>, m: ChatMessage, profiles: map<string, Profile>, cutoff: int)
    requires Summarises(e, front, profiles, cutoff)
    requires IndexOf(e, Recipient(m)) < 0 && Eligible(profiles, Recipient(m), cutoff)
    ensures var r := Recipient(m);
            var s := e + [Entry(r, profiles[r].email, profiles[r].fullName, 1)];
            UniqueIds(s) && EntriesCounted(s, front + [m], profiles, cutoff)
  {
    var r := Recipient(m);
    var s := e + [Entry(r, profiles[r].email, profiles[r].fullName, 1)];
    MessagesForAppend(front, m, r);
    forall k | 0 <= k < |s|
      ensures Eligible(profiles, s[k].id, cutoff) && s[k].count == MessagesFor(front + [m], s[k].id) && s[k].count >= 1
    {
      MessagesForAppend(front, m, s[k].id);
    }
  }

  lemma AppendedComplete(e: seq<Entry>, front: seq<ChatMessage>, m: ChatMessage, profiles: map<string, Profile>, cutoff: int)
    requires Complete(e, front, profiles, cutoff)
    requires IndexOf(e, Recipient(m)) < 0 && Eligible(profiles, Recipient(m), cutoff)
    ensures var r := Recipient(m);
            Complete(e + [Entry(r, profiles[r].email, profiles[r].fullName, 1)], front + [m], profiles, cutoff)
  {
    var r := Recipient(m);
    var s := e + [Entry(r, profiles[r].email, profiles[r].fullName, 1)];
    forall id | Eligible(profiles, id, cutoff) && MessagesFor(front + [m], id) > 0 ensures IndexOf(s, id) >= 0 {
      MessagesForAppend(front, m, id);
      if id != r {
        IndexOfFinds(s, IndexOf(e, id), id);
      } else {
        IndexOfFinds(s, |s| - 1, id);
      }
    }
  }

  /** A new recipient who was seen recently, or has no profile, is skipped. */
  lemma StepSkips(e: seq<Entry>, front: seq<ChatMessage>, m: ChatMessage, profiles: map<string, Profile>, cutoff: int)
    requires Summarises(e, front, profiles, cutoff)
    requires IndexOf(e, Recipient(m)) < 0 && !Eligible(profiles, Recipient(m), cutoff)
    ensures Summarises(Step(e, m, profiles, cutoff), front + [m], profiles, cutoff)
    ensures Total(Step(e, m, profiles, cutoff)) == Total(e)
  {
    var msgs := front + [m];
    forall k | 0 <= k < |e| ensures e[k].count == MessagesFor(msgs, e[k].id) {
      MessagesForAppend(front, m, e[k].id);
    }
    forall id | Eligible(profiles, id, cutoff) && MessagesFor(msgs, id) > 0 ensures IndexOf(e, id) >= 0 {
      MessagesForAppend(front, m, id);
    }
  }

  /** A present id is found. */
  lemma IndexOfFinds(e: seq<Entry>, j: int, id: string)
    requires 0 <= j < |e| && e[j].id == id
    ensures IndexOf(e, id) >= 0
  {
  }

  /** Replacing one entry changes the total by the change in its count. */
  lemma {:induction false} TotalUpdate(e: seq<Entry>, i: int, x: Entry)
    requires 0 <= i < |e|
    ensures Total(e[i := x]) == Total(e) - e[i].count + x.count
    decreases |e|
  {
    var u := e[i := x];
    if i < |e| - 1 {
      assert u[..|u| - 1] == e[..|e| - 1][i := x];
      TotalUpdate(e[..|e| - 1], i, x);
    } else {
      assert u[..|u| - 1] == e[..|e| - 1];
    }
  }

  /** Each recipient is in the map exactly when they are eligible and some
      message waits for them, with the number of such messages as count. */
  lemma RecipientListedIff(msgs: seq<ChatMessage>, profiles: map<string, Profile>, cutoff: int, id: string)
    ensures var e := Aggregate(msgs, profiles, cutoff);
            (IndexOf(e, id) >= 0 <==> Eligible(profiles, id, cutoff) && MessagesFor(msgs, id) > 0)
            && (IndexOf(e, id) >= 0 ==> e[IndexOf(e, id)].count == MessagesFor(msgs, id))
  {
    AggregateSummarises(msgs, profiles, cutoff);
  }

  // ---------------------------------------------------------------------------
  // Sending
  // ---------------------------------------------------------------------------

  /** The answer of one send: an HTTP status, or a thrown error. */
  datatype SendReply = Status(code: int) | SendError(message: string)

  datatype SendResult = Sent(email: string, status: int) | NotSent(email: string, error: string)

  /** The e-mail's subject. */
  function Subject(count: nat): string {
    "You have " + NatToString(count) + " unread messages on SkilXress"
  }

  /** The subject carries the count: the digits between its fixed prefix
      and suffix read back as the number of unread messages. */
  lemma SubjectCarriesCount(count: nat)
    ensures var s := Subject(count);
            |s| > 38 && s[..9] == "You have " && s[|s| - 29..] == " unread messages on SkilXress"
            && DigitsValue(s[9..|s| - 29]) == count
  {
    var s := Subject(count);
    assert s[9..|s| - 29] == NatToString(count);
    NatToStringRoundTrip(count);
  }

  /** The request one send posts to the mail service. */
  datatype Outgoing = Outgoing(to: string, subject: string)

  /** The send loop: one result per entry, in order; a failed send is
      recorded and the loop goes on. `reply` gives the mail service's
      answer to each request. */
  function SendAll(e: seq<Entry>, reply: Outgoing -> SendReply): (r: seq<SendResult>)
    ensures |r| == |e|
    ensures forall k :: 0 <= k < |e| ==> r[k].email == e[k].email
    ensures forall k :: 0 <= k < |e| ==>
              var answer := reply(Outgoing(e[k].email, Subject(e[k].count)));
              (r[k].NotSent? <==> answer.SendError?)
              && (r[k].Sent? ==> r[k].status == answer.code)
              && (r[k].NotSent? ==> r[k].error == answer.message)
  {
    seq(|e|, k requires 0 <= k < |e| =>
      match reply(Outgoing(e[k].email, Subject(e[k].count)))
      case Status(c) => Sent(e[k].email, c)
      case SendError(m) => NotSent(e[k].email, m))
  }

  /** The message of the TypeError V8 throws when the loop reads
      `bookings.client_id` from a null join. */
  const MissingJoinMessage := "Cannot read properties of null " + "(reading 'client_id')"

  /** The request the function answers: either something threw (status 400
      with its message) or the results, with status 200. */
  datatype Response = Ok(processed: nat, details: seq<SendResult>) | BadRequest(error: string)

  datatype QueryReply = QueryError(message: string) | Messages(rows: seq<ChatMessage>)

  predicate AllJoined(rows: seq<ChatMessage>) {
    forall k :: 0 <= k < |rows| ==> rows[k].joined
  }

  /** The whole run. `rows` are the messages the query returned, already
      unread and older than the cutoff. A row whose booking join is null
      makes the loop throw before any e-mail is sent, so the answer is a
      400 with the TypeError's message. */
  function Run(now: int, query: QueryReply, profiles: map<string, Profile>, reply: Outgoing -> SendReply): (r: Response)
    ensures query.QueryError? ==> r == BadRequest(query.message)
    ensures query.Messages? && !AllJoined(query.rows) ==> r == BadRequest(MissingJoinMessage)
    ensures r.Ok? <==> query.Messages? && AllJoined(query.rows)
    ensures r.Ok? ==> r.processed == |Aggregate(query.rows, profiles, Cutoff(now))| && |r.details| == r.processed
  {
    match query
    case QueryError(m) => BadRequest(m)
    case Messages(rows) =>
      if !AllJoined(rows) then BadRequest(MissingJoinMessage)
      else
        var results := SendAll(Aggregate(rows, profiles, Cutoff(now)), reply);
        Ok(|results|, results)
  }

  /** One e-mail per reminded recipient, whatever the sends answer: a
      failure for one does not stop the rest, and nobody gets two. */
  lemma OneEmailPerRecipient(now: int, rows: seq<ChatMessage>, profiles: map<string, Profile>, reply: Outgoing -> SendReply)
    requires AllJoined(rows)
    ensures var e := Aggregate(rows, profiles, Cutoff(now));
            var r := Run(now, Messages(rows), profiles, reply);
            r.processed == |e| && UniqueIds(e)
            && (forall k :: 0 <= k < |e| ==> e[k].id in profiles && r.details[k].email == profiles[e[k].id].email && e[k].count >= 1)
  {
    AggregateSummarises(rows, profiles, Cutoff(now));
  }
}

=== FILE: client_dashboard.dfy ===
/** src/components/ClientDashboard.tsx: the statistics shown to a client and
    the rating form under a completed booking. */
module ClientDashboard {
  import opened Text

  datatype Stats = Stats(totalBookings: nat, completedBookings: nat, pendingBookings: nat, totalReviews: nat)

  const InitialStats := Stats(0, 0, 0, 0)

  /** `rows?.length || 0` on a query result that may be missing. */
  function RowCount<T>(rows: Option<seq<T>>): nat {
    match rows case None => 0 case Some(r) => |r|
  }

  /** loadStats: `bookingStatuses` are the `status` values of the client's
      bookings, `ratingRows` the client's rating rows; a missing result
      counts as none. Without a user the stats stay as they are. */
  function LoadStats(current: Stats, signedIn: bool, bookingStatuses: Option<seq<string>>, ratingRows: Option<seq<string>>): (r: Stats)
    ensures !signedIn ==> r == current
    ensures signedIn && bookingStatuses.None? ==> r.totalBookings == 0 && r.completedBookings == 0 && r.pendingBookings == 0
    ensures signedIn && bookingStatuses.Some? ==>
              var statuses := bookingStatuses.value;
              r.totalBookings == |statuses|
              && r.completedBookings == multiset(statuses)["completed"]
              && r.pendingBookings == multiset(statuses)["pending"]
    ensures signedIn && ratingRows.None? ==> r.totalReviews == 0
    ensures signedIn && ratingRows.Some? ==> r.totalReviews == |ratingRows.value|
    ensures signedIn ==> r.completedBookings + r.pendingBookings <= r.totalBookings
  {
    if !signedIn then current
    else
      var statuses := match bookingStatuses case None => [] case Some(s) => s;
      CountDisjoint(statuses, EqualTo("completed"), EqualTo("pending"));
      CountEqualTo(statuses, "completed");
      CountEqualTo(statuses, "pending");
      Stats(
        RowCount(bookingStatuses),
        Count(statuses, EqualTo("completed")),
        Count(statuses, EqualTo("pending")),
        RowCount(ratingRows))
  }

  /** The counts agree with the rows: completed and pending are the numbers
      of rows with exactly that status, so each is zero exactly when no row
      has it. */
  lemma StatsCountRows(statuses: seq<string>, ratings: seq<string>)
    ensures var r := LoadStats(InitialStats, true, Some(statuses), Some(ratings));
            r.totalBookings == |statuses| && r.totalReviews == |ratings|
            && r.completedBookings == multiset(statuses)["completed"]
            && r.pendingBookings == multiset(statuses)["pending"]
            && (r.completedBookings == 0 <==> "completed" !in statuses)
            && (r.pendingBookings == 0 <==> "pending" !in statuses)
  {
    var r := LoadStats(InitialStats, true, Some(statuses), Some(ratings));
    assert r.completedBookings == multiset(statuses)["completed"];
    assert r.pendingBookings == multiset(statuses)["pending"];
  }

  /** "Rate Service" is offered only under a completed booking. */
  predicate RateServiceShown(status: string) {
    status == "completed"
  }

  // ---------------------------------------------------------------------------
  // Rating form
  // ---------------------------------------------------------------------------

  /** Which booking's form is open, the star rating and the review text. */
  datatype RatingForm = RatingForm(ratingBooking: Option<string>, rating: int, review: string)

  const ClosedForm := RatingForm(None, 5, "")

  /** The rating row inserted; an empty review is stored as null. */
  datatype RatingInsert = RatingInsert(bookingId: string, providerId: string, clientId: string, rating: int, review: Option<string>)

  datatype Reply = Ok | Failed

  datatype RatingRun = RatingRun(form: RatingForm, insert: Option<RatingInsert>)

  /** `review.trim() || null`. */
  function StoredReview(review: string): (r: Option<string>)
    ensures r.None? <==> AllSpace(review)
    ensures r.Some? ==> r.value == Trim(review) && |r.value| > 0
  {
    TrimEmptyIff(review);
    var t := Trim(review);
    if t == "" then None else Some(t)
  }

  /** Opening the form for a booking keeps the current rating and text. */
  function OpenRating(f: RatingForm, bookingId: string): (r: RatingForm)
    ensures r.ratingBooking == Some(bookingId) && r.rating == f.rating && r.review == f.review
  {
    f.(ratingBooking := Some(bookingId))
  }

  /** handleSubmitRating. On success the form closes and resets; on failure
      it stays as it was. */
  function SubmitRating(f: RatingForm, user: Option<string>, bookingId: string, providerId: string, reply: Reply): (r: RatingRun)
    ensures user.None? ==> r == RatingRun(f, None)
    ensures user.Some? ==>
              r.insert == Some(RatingInsert(bookingId, providerId, user.value, f.rating, StoredReview(f.review)))
    ensures user.Some? && reply == Ok ==> r.form == ClosedForm
    ensures reply == Failed ==> r.form == f
  {
    match user
    case None => RatingRun(f, None)
    case Some(uid) =>
      var insert := RatingInsert(bookingId, providerId, uid, f.rating, StoredReview(f.review));
      if reply == Ok then RatingRun(ClosedForm, Some(insert)) else RatingRun(f, Some(insert))
  }

  /** The Cancel button. */
  function CancelRating(f: RatingForm): (r: RatingForm)
    ensures r.ratingBooking.None? && r.rating == 5 && r.review == ""
  {
    ClosedForm
  }

  /** The form's life cycle: opening then cancelling gives the closed form,
      opening for another booking moves the draft to it, and a failed submit
      leaves the form open on the same booking with the same draft. */
  lemma RatingFormLifecycle(f: RatingForm, a: string, b: string, user: string, providerId: string)
    ensures CancelRating(OpenRating(f, a)) == ClosedForm
    ensures OpenRating(OpenRating(f, a), b) == OpenRating(f, b)
    ensures var r := SubmitRating(OpenRating(f, a), Some(user), a, providerId, Failed);
            r.form.ratingBooking == Some(a) && r.form.rating == f.rating && r.form.review == f.review
            && r.insert.Some?
  {
  }

  /** Whatever was typed or chosen, a successful submit or a cancel leaves
      the form as it started: closed, five stars, no text. */
  lemma FormResets(f: RatingForm, user: string, bookingId: string, providerId: string)
    ensures SubmitRating(f, Some(user), bookingId, providerId, Ok).form == CancelRating(f) == ClosedForm
    ensures ClosedForm.rating == 5
  {
  }
}

=== FILE: conversation_list.dfy ===
/** src/components/ConversationList.tsx: one conversation per booking the user
    is part of, ordered by latest activity, with the unread mark, the
    counterpart shown and the preview line. Timestamps are milliseconds since
    the epoch; the fetched rows are inputs. */
module ConversationList {
  import opened Text
  import opened Sorting

  datatype Profile = Profile(fullName: string, avatarUrl: Option<string>)

  datatype Message = Message(text: string, createdAt: int, isRead: bool, senderId: string)

  /** A booking with its joined profiles and its newest message, if any. */
  datatype Conversation = Conversation(
    id: string, clientId: string, providerId: string, createdAt: int,
    client: Profile, provider: Profile, lastMessage: Option<Message>)

  /** The time a conversation is ordered by: its newest message's, or the
      booking's when there is no message. */
  function ActivityTime(c: Conversation): (t: int)
    ensures c.lastMessage.Some? ==> t == c.lastMessage.value.createdAt
    ensures c.lastMessage.None? ==> t == c.createdAt
  {
    match c.lastMessage
    case None => c.createdAt
    case Some(m) => m.createdAt
  }

  /** The bookings query either fails (and throws) or returns the rows. */
  datatype Rows = QueryFailed | Rows(rows: seq<Conversation>)

  /** loadConversations: the list shown, ordered by latest activity; a failed
      query leaves the current list in place. */
  function LoadConversations(current: seq<Conversation>, reply: Rows): (r: seq<Conversation>)
    ensures reply.QueryFailed? ==> r == current
    ensures reply.Rows? ==> SortedDesc(r, ActivityTime) && multiset(r) == multiset(reply.rows)
  {
    match reply
    case QueryFailed => current
    case Rows(rows) => SortDesc(rows, ActivityTime)
  }

  /** A conversation with a message is listed no later than every
      conversation whose activity is older. */
  lemma NewerActivityFirst(current: seq<Conversation>, rows: seq<Conversation>, i: int, j: int)
    requires var r := LoadConversations(current, Rows(rows)); 0 <= i < |r| && 0 <= j < |r|
    requires var r := LoadConversations(current, Rows(rows)); ActivityTime(r[i]) > ActivityTime(r[j])
    ensures i < j
  {
  }

  /** Every fetched booking is listed, and nothing else. */
  lemma ListsEveryBooking(current: seq<Conversation>, rows: seq<Conversation>)
    ensures forall c :: c in LoadConversations(current, Rows(rows)) <==> c in rows
  {
    SortKeepsElements(rows, ActivityTime);
  }

  /** Whether the user is the booking's client. */
  predicate IsClient(userId: Option<string>, c: Conversation) {
    userId == Some(c.clientId)
  }

  /** The profile shown: the provider's for the client, the client's for
      anyone else. */
  function Counterpart(userId: Option<string>, c: Conversation): (p: Profile)
    ensures IsClient(userId, c) ==> p == c.provider
    ensures !IsClient(userId, c) ==> p == c.client
  {
    if IsClient(userId, c) then c.provider else c.client
  }

  /** A participant of a booking between two different users is shown the
      other participant's profile, never their own. */
  lemma CounterpartIsOtherParticipant(u: string, c: Conversation)
    requires u == c.clientId || u == c.providerId
    requires c.clientId != c.providerId
    ensures var p := Counterpart(Some(u), c);
            (p == c.provider && u != c.providerId) || (p == c.client && u != c.clientId)
  {
  }

  /** The unread mark: there is a last message, it is unread, and someone
      else sent it. */
  predicate IsUnread(userId: Option<string>, c: Conversation) {
    match c.lastMessage
    case None => false
    case Some(m) => !m.isRead && Some(m.senderId) != userId
  }

  /** The user's own messages never mark a conversation unread, and neither
      does a read one or the absence of messages. */
  lemma UnreadOnlyFromOthers(userId: string, c: Conversation)
    ensures c.lastMessage.Some? && c.lastMessage.value.senderId == userId ==> !IsUnread(Some(userId), c)
    ensures c.lastMessage.None? ==> !IsUnread(Some(userId), c)
    ensures IsUnread(Some(userId), c) <==>
              c.lastMessage.Some? && !c.lastMessage.value.isRead && c.lastMessage.value.senderId != userId
  {
  }

  const NoMessagePreview := "Start a conversation"

  /** The preview line: the newest message's text, or an invitation to
      start when there is none. */
  function Preview(c: Conversation): (s: string)
    ensures c.lastMessage.None? ==> s == NoMessagePreview
    ensures c.lastMessage.Some? ==> s == c.lastMessage.value.text
  {
    match c.lastMessage
    case None => NoMessagePreview
    case Some(m) => m.text
  }

  /** `messages || undefined`: a missing newest message leaves the
      conversation without one, which then orders by the booking time and
      previews the invitation. */
  lemma NoMessageConversation(c: Conversation)
    requires c.lastMessage.None?
    ensures ActivityTime(c) == c.createdAt && Preview(c) == NoMessagePreview
    ensures forall u :: !IsUnread(u, c)
  {
  }
}

=== FILE: email_routing.dfy ===
/** supabase/functions/notifications/index.ts: which e-mails a database event
    produces. A new booking goes to its provider, a booking whose status
    changed goes to its client, and a new video goes to the admin and then to
    every follower with an address. Profile and follower lookups are inputs;
    the e-mails (recipient and subject) are the output, in sending order. */
module EmailRouting {
  import opened Text

  const DefaultAdminEmail := "admin@skilxpress.com"

  /** `Deno.env.get('ADMIN_EMAIL') || 'admin@skilxpress.com'`: the approval
      e-mail always has a recipient. */
  function AdminEmail(env: Option<string>): (r: string)
    ensures r != ""
    ensures env.Some? && env.value != "" ==> r == env.value
    ensures env.None? || env == Some("") ==> r == DefaultAdminEmail
  {
    match env
    case None => DefaultAdminEmail
    case Some(e) => if e == "" then DefaultAdminEmail else e
  }

  datatype Email = Email(to: string, subject: string)

  /** The changed row: a booking (with its status) or a video (with its
      title). Only the fields the routing reads are kept. */
  datatype Row = Row(id: string, providerId: string, clientId: string, status: string, title: string)

  datatype Event = Event(kind: string, table: string, record: Row, oldRecord: Option<Row>)

  datatype Profile = Profile(email: string, fullName: string)

  /** A follower row with its joined profile, whose fields may be missing. */
  datatype Follower = Follower(email: Option<string>, fullName: Option<string>)

  /** The lookups the function makes, as the database answers them; None is
      a missing row. */
  datatype Lookups = Lookups(provider: Option<Profile>, client: Option<Profile>, followers: Option<seq<Follower>>)

  /** The routing's outcome: the e-mails, or an error (status 400) when an
      update arrives without its previous row. */
  datatype Routed = Emails(emails: seq<Email>) | Failed

  predicate HasEmail(f: Follower) {
    f.email.Some? && f.email.value != ""
  }

  function NewVideoSubject(providerName: string): string {
    providerName + " uploaded a new video!"
  }

  /** The `followers.forEach` loop: one e-mail per follower with an
      address, in the followers' order. */
  function FollowerEmails(followers: seq<Follower>, providerName: string): (r: seq<Email>)
    ensures |r| == Count(followers, HasEmail)
    ensures forall k :: 0 <= k < |r| ==> r[k].subject == providerName + " uploaded a new video!"
    ensures forall j :: 0 <= j < |followers| && HasEmail(followers[j]) ==> Email(followers[j].email.value, providerName + " uploaded a new video!") in r
  {
    if |followers| == 0 then []
    else
      var f := followers[0];
      var rest := FollowerEmails(followers[1..], providerName);
      assert forall j :: 1 <= j < |followers| ==> followers[j] == followers[1..][j - 1];
      if HasEmail(f) then [Email(f.email.value, NewVideoSubject(providerName))] + rest else rest
  }

  /** The loop agrees with filtering first and mapping after: the k-th
      e-mail goes to the k-th follower that has an address. So nobody
      without an address is e-mailed and nobody is skipped or repeated. */
  lemma {:induction false} FollowerEmailsFollowFilter(followers: seq<Follower>, providerName: string)
    ensures var r := FollowerEmails(followers, providerName);
            var w := Filter(followers, HasEmail);
            |r| == |w| && forall k :: 0 <= k < |r| ==> r[k] == Email(w[k].email.value, NewVideoSubject(providerName))
  {
    if |followers| > 0 {
      var subject := NewVideoSubject(providerName);
      var r := FollowerEmails(followers, providerName);
      var r1 := FollowerEmails(followers[1..], providerName);
      var w := Filter(followers, HasEmail);
      var w1 := Filter(followers[1..], HasEmail);
      FollowerEmailsFollowFilter(followers[1..], providerName);
      if HasEmail(followers[0]) {
        assert r == [Email(followers[0].email.value, subject)] + r1;
        assert w == [followers[0]] + w1;
        forall k | 0 <= k < |r| ensures r[k] == Email(w[k].email.value, subject) {
          if k > 0 {
            assert r[k] == r1[k - 1] && w[k] == w1[k - 1];
          }
        }
      } else {
        assert r == r1 && w == w1;
      }
    }
  }

  /** The routing of one event. */
  function Route(ev: Event, lookups: Lookups, adminEnv: Option<string>): (r: Routed)
    ensures r.Failed? <==> ev.table == "bookings" && ev.kind == "UPDATE" && ev.oldRecord.None?
    ensures ev.table != "bookings" && !(ev.table == "skill_videos" && ev.kind == "INSERT") ==> r == Emails([])
    ensures ev.table == "bookings" && ev.kind != "INSERT" && ev.kind != "UPDATE" ==> r == Emails([])
  {
    if ev.table == "bookings" then
      if ev.kind == "INSERT" then
        if lookups.provider.Some? && lookups.client.Some? then
          Emails([Email(lookups.provider.value.email, "New Booking Request - SkilXress")])
        else Emails([])
      else if ev.kind == "UPDATE" then
        match ev.oldRecord
        case None => Failed
        case Some(previous) =>
          if ev.record.status != previous.status && lookups.client.Some? then
            Emails([Email(lookups.client.value.email, "Booking Status Updated: " + ev.record.status)])
          else Emails([])
      else Emails([])
    else if ev.table == "skill_videos" && ev.kind == "INSERT" then
      if lookups.provider.Some? && lookups.followers.Some? then
        Emails([Email(AdminEmail(adminEnv), "New Video for Approval: " + ev.record.title)]
               + FollowerEmails(lookups.followers.value, lookups.provider.value.fullName))
      else Emails([])
    else Emails([])
  }

  /** A new booking sends exactly one e-mail, to the provider, and only when
      both the provider's and the client's profiles are found. */
  lemma NewBookingNotifiesProvider(r: Row, previous: Option<Row>, lookups: Lookups, adminEnv: Option<string>)
    ensures var out := Route(Event("INSERT", "bookings", r, previous), lookups, adminEnv);
            out.Emails?
            && (out.emails != [] <==> lookups.provider.Some? && lookups.client.Some?)
            && (out.emails != [] ==> out.emails == [Email(lookups.provider.value.email, "New Booking Request - SkilXress")])
  {
  }

  /** An update e-mails the client only when the status changed, with the
      new status in the subject; any other change to the booking sends
      nothing. */
  lemma StatusChangeNotifiesClient(r: Row, previous: Row, lookups: Lookups, adminEnv: Option<string>)
    ensures var out := Route(Event("UPDATE", "bookings", r, Some(previous)), lookups, adminEnv);
            out.Emails?
            && (out.emails != [] <==> r.status != previous.status && lookups.client.Some?)
            && (out.emails != [] ==> out.emails == [Email(lookups.client.value.email, "Booking Status Updated: " + r.status)])
  {
  }

  /** A new video e-mails the admin first and then each follower with an
      address; nobody is e-mailed when either lookup found nothing. */
  lemma NewVideoNotifiesAdminThenFollowers(r: Row, previous: Option<Row>, lookups: Lookups, adminEnv: Option<string>)
    ensures var out := Route(Event("INSERT", "skill_videos", r, previous), lookups, adminEnv);
            out.Emails?
            && (lookups.provider.None? || lookups.followers.None? ==> out.emails == [])
            && (lookups.provider.Some? && lookups.followers.Some? ==>
                  |out.emails| >= 1
                  && out.emails[0] == Email(AdminEmail(adminEnv), "New Video for Approval: " + r.title)
                  && out.emails[1..] == FollowerEmails(lookups.followers.value, lookups.provider.value.fullName)
                  && |out.emails| <= 1 + |lookups.followers.value|)
  {
    if lookups.provider.Some? && lookups.followers.Some? {
      var out := Route(Event("INSERT", "skill_videos", r, previous), lookups, adminEnv);
      var f := FollowerEmails(lookups.followers.value, lookups.provider.value.fullName);
      assert out.emails == [Email(AdminEmail(adminEnv), "New Video for Approval: " + r.title)] + f;
      assert out.emails[1..] == f;
    }
  }

  /** Updating or deleting a video, and any event on another table, sends
      nothing. */
  lemma OtherEventsSendNothing(kind: string, table: string, r: Row, previous: Option<Row>, lookups: Lookups, adminEnv: Option<string>)
    requires table != "bookings"
    requires table != "skill_videos" || kind != "INSERT"
    ensures Route(Event(kind, table, r, previous), lookups, adminEnv) == Emails([])
  {
  }
}

=== FILE: follow.dfy ===
/** src/components/FollowButton.tsx: the `handleFollow` click handler. The
    button flips its state optimistically, sends a delete or an insert, and
    puts the old state back if the backend reports an error. */
module Follow {
  import opened Text

  datatype FollowState = FollowState(isFollowing: bool, followersCount: int)

  /** The backend row operation the click sends. */
  datatype FollowRequest = Unfollow(followerId: string, followingId: string)
                         | FollowInsert(followerId: string, followingId: string)

  /** The backend's answer to that request. */
  datatype Reply = Ok | Failed(message: string)

  /** What the user is told. */
  datatype Notice = NoNotice | AuthCallback | Alert(text: string)

  /** The outcome of one click. `changes` lists the states reported through
      `onFollowChange`, in order, when the parent passed that callback. */
  datatype Click = Click(state: FollowState, request: Option<FollowRequest>, notice: Notice, changes: seq<FollowState>)

  const SignInAlert := "Please sign in to follow providers"
  const SelfFollowAlert := "You cannot follow yourself"

  /** The button's state before the status check has answered:
      `initialFollowersCount` defaults to 0. */
  function InitialState(initialFollowersCount: Option<int>): FollowState {
    FollowState(false, match initialFollowersCount case None => 0 case Some(c) => c)
  }

  /** The optimistic state: following flips, and the count goes up by one on
      follow or down by one, not below zero, on unfollow. */
  function Optimistic(s: FollowState): (r: FollowState)
    ensures r.isFollowing == !s.isFollowing
    ensures s.followersCount >= 0 ==> r.followersCount >= 0
  {
    var newIsFollowing := !s.isFollowing;
    FollowState(newIsFollowing,
      if newIsFollowing then s.followersCount + 1
      else if s.followersCount - 1 > 0 then s.followersCount - 1 else 0)
  }

  /** handleFollow. `user` is the signed-in user's id, `hasAuthCallback`
      whether `onAuthRequired` was given. */
  function HandleFollow(
    s: FollowState, user: Option<string>, providerId: string,
    hasAuthCallback: bool, reply: Reply): (r: Click)
    ensures user.None? ==> r.state == s && r.request.None? && r.changes == []
                           && r.notice == (if hasAuthCallback then AuthCallback else Alert(SignInAlert))
    ensures user == Some(providerId) ==>
              r.state == s && r.request.None? && r.notice == Alert(SelfFollowAlert) && r.changes == []
    ensures user.Some? && user.value != providerId ==>
              r.request == Some(if s.isFollowing then Unfollow(user.value, providerId)
                                else FollowInsert(user.value, providerId))
    ensures user.Some? && user.value != providerId && reply == Ok ==>
              r.state == Optimistic(s) && r.notice == NoNotice && r.changes == [Optimistic(s)]
    ensures reply.Failed? ==> r.state == s
    ensures user.Some? && user.value != providerId && reply.Failed? ==>
              r.notice == Alert("Failed to update follow status: " + reply.message)
              && r.changes == [Optimistic(s), s]
    ensures |r.changes| > 0 ==> r.changes[|r.changes| - 1] == r.state
    ensures s.followersCount >= 0 ==> r.state.followersCount >= 0
  {
    match user
    case None => Click(s, None, if hasAuthCallback then AuthCallback else Alert(SignInAlert), [])
    case Some(uid) =>
      if uid == providerId then Click(s, None, Alert(SelfFollowAlert), [])
      else
        var request := if s.isFollowing then Unfollow(uid, providerId) else FollowInsert(uid, providerId);
        match reply
        case Ok => Click(Optimistic(s), Some(request), NoNotice, [Optimistic(s)])
        case Failed(m) => Click(s, Some(request), Alert("Failed to update follow status: " + m), [Optimistic(s), s])
  }

  /** Following and then unfollowing from a count `c >= 0` gives back `c`;
      unfollowing at 0 stays at 0. */
  lemma FollowUnfollowRestores(c: int)
    requires c >= 0
    ensures Optimistic(Optimistic(FollowState(false, c))) == FollowState(false, c)
    ensures Optimistic(FollowState(true, 0)) == FollowState(false, 0)
  {
  }

  /** Unfollowing at 0 and following again does not restore the state: the
      count rises to 1. */
  lemma UnfollowAtZeroDoesNotRoundTrip()
    ensures Optimistic(Optimistic(FollowState(true, 0))) == FollowState(true, 1)
  {
  }

  /** Two successful clicks bring the state back whenever the first one did
      not hit the zero clamp. */
  lemma {:induction false} TwoClicksRestore(s: FollowState, user: string, providerId: string, cb: bool)
    requires user != providerId
    requires s.followersCount >= 1 || !s.isFollowing
    requires s.followersCount >= 0
    ensures HandleFollow(HandleFollow(s, Some(user), providerId, cb, Ok).state, Some(user), providerId, cb, Ok).state == s
  {
    var t := HandleFollow(s, Some(user), providerId, cb, Ok).state;
    assert t == Optimistic(s);
    assert HandleFollow(t, Some(user), providerId, cb, Ok).state == Optimistic(t);
  }
}

=== FILE: moderation.dfy ===
/** The decision logic of server/services/videoModeration.ts: how the
    moderation categories become safety flags, the fallbacks used when either
    remote call fails, the approval rule with its confidence threshold, the
    human-readable reason, and the assembly of the final result. The remote
    calls themselves are inputs: each is either an answer or a thrown error. */
module Moderation {
  import opened Text

  /** The category flags of one moderation-API result. */
  datatype Categories = Categories(
    sexual: bool, sexualMinors: bool, violence: bool, violenceGraphic: bool, hate: bool)

  datatype SafetyResult = SafetyResult(
    nudityDetected: bool, violenceDetected: bool, explicitContentDetected: bool,
    summary: string, concerns: seq<string>)

  /** The classifier's JSON reply once parsed; a field the reply left out or
      made falsy arrives as false, "" or 0. */
  datatype Classification = Classification(isSkillRelated: bool, detectedSkill: string, confidence: real)

  datatype SkillResult = SkillResult(
    isSkillRelated: bool, detectedSkill: Option<string>, confidence: real, reasoning: string)

  /** What a remote call produced: its answer, or a thrown error. */
  datatype Reply<T> = Answered(value: T) | Threw

  /** MODERATION_SKILL_CONFIDENCE_THRESHOLD as `Number(...)` reads it: unset
      and unparsable text give NaN, the empty string gives 0. */
  datatype EnvNumber = NotANumber | Number(v: real)

  datatype ModerationResult = ModerationResult(
    nudityFlag: bool, violenceFlag: bool, explicitContentFlag: bool,
    skillFlag: bool, isSkillRelated: bool, detectedSkill: Option<string>,
    videoSummary: string, reason: string, confidenceScore: real, approved: bool)

  const SafetyFallbackSummary := "Unable to analyze video automatically - " +
      "flagged for manual review"
  const SafetyFallbackConcern := "API Error - Manual Review Required"
  const ClassifierFallbackConfidence: real := 0.5
  const ClassifierFallbackReasoning := "Unable to classify - approved for " +
      "manual review"
  const DefaultThreshold: real := 0.6

  const NudityReason := "Nudity or sexual content detected"
  const ViolenceReason := "Violence or graphic content detected"
  const ExplicitReason := "Explicit content detected"
  // Written as two literals: the verifier reads the characters of short literals only.
  const NotSkillReason := "Content does not demonstrate " + "a professional skill"

  // ---------------------------------------------------------------------------
  // checkVideoSafety and classifySkillContent, past their remote calls
  // ---------------------------------------------------------------------------

  /** checkVideoSafety. `title` is "" when the upload gave none. */
  function CheckVideoSafety(reply: Reply<Categories>, title: string): (r: SafetyResult)
    ensures reply.Threw? ==>
              !r.nudityDetected && !r.violenceDetected && !r.explicitContentDetected
              && r.summary == SafetyFallbackSummary
    ensures reply.Answered? ==> r.concerns == []
  {
    match reply
    case Answered(c) =>
      SafetyResult(
        c.sexual || c.sexualMinors,
        c.violence || c.violenceGraphic,
        c.sexual || c.hate,
        "Video about " + (if title == "" then "untitled content" else title),
        [])
    case Threw =>
      SafetyResult(false, false, false, SafetyFallbackSummary, [SafetyFallbackConcern])
  }

  /** Each flag is raised by exactly its categories: nudity by `sexual` or
      `sexual/minors`, violence by `violence` or `violence/graphic`, explicit
      content by `sexual` or `hate`. The summary names the title, or
      "untitled content" when there is none. */
  lemma CategoryFlags(c: Categories, title: string)
    ensures CheckVideoSafety(Answered(c), title).nudityDetected <==> c.sexual || c.sexualMinors
    ensures CheckVideoSafety(Answered(c), title).violenceDetected <==> c.violence || c.violenceGraphic
    ensures CheckVideoSafety(Answered(c), title).explicitContentDetected <==> c.sexual || c.hate
    ensures CheckVideoSafety(Answered(c), title).summary
            == "Video about " + (if title == "" then "untitled content" else title)
  {
  }

  /** classifySkillContent. When the call fails the video is assumed to be
      skill-related with confidence 0.5. */
  function ClassifySkillContent(reply: Reply<Classification>): (r: SkillResult)
    ensures reply.Threw? ==>
              r.isSkillRelated && r.detectedSkill == None && r.confidence == ClassifierFallbackConfidence
    ensures reply.Answered? ==> r.detectedSkill.Some? ==> r.detectedSkill.value != ""
  {
    match reply
    case Answered(c) =>
      SkillResult(
        c.isSkillRelated,
        if c.detectedSkill == "" then None else Some(c.detectedSkill),
        c.confidence,
        "")
    case Threw =>
      SkillResult(true, None, ClassifierFallbackConfidence, ClassifierFallbackReasoning)
  }

  // ---------------------------------------------------------------------------
  // determineApproval and buildModerationReason
  // ---------------------------------------------------------------------------

  /** `Number(env) || 0.6`: NaN and 0 fall back to the default. */
  function Threshold(env: EnvNumber): real {
    if env.Number? && env.v != 0.0 then env.v else DefaultThreshold
  }

  predicate SafetyPassed(s: SafetyResult) {
    !s.nudityDetected && !s.violenceDetected && !s.explicitContentDetected
  }

  /** determineApproval. */
  predicate DetermineApproval(s: SafetyResult, k: SkillResult, env: EnvNumber) {
    SafetyPassed(s) && k.isSkillRelated && k.confidence >= Threshold(env)
  }

  /** The failure texts, in the order the source pushes them. */
  function FailureReasons(s: SafetyResult, k: SkillResult): seq<string> {
    (if s.nudityDetected then [NudityReason] else [])
    + (if s.violenceDetected then [ViolenceReason] else [])
    + (if s.explicitContentDetected then [ExplicitReason] else [])
    + (if !k.isSkillRelated then [NotSkillReason] else [])
  }

  /** buildModerationReason. `percent` stands for
      `Math.round(confidence * 100)`, computed by the caller. */
  function BuildModerationReason(s: SafetyResult, k: SkillResult, percent: int): string {
    var reasons := FailureReasons(s, k);
    if |reasons| == 0 then
      match k.detectedSkill
      case Some(skill) =>
        "Approved - " + skill + " demonstration (" + IntToString(percent) + "% confidence)"
      case None => "Approved - Skill-related content"
    else Join(reasons, "; ")
  }

  /** No failure text starts with 'A'. */
  lemma FailureTextInitial(t: string)
    requires t in {NudityReason, ViolenceReason, ExplicitReason, NotSkillReason}
    ensures |t| > 0 && t[0] != 'A'
  {
    if t == NudityReason { assert NudityReason[0] == 'N'; }
    else if t == ViolenceReason { assert ViolenceReason[0] == 'V'; }
    else if t == ExplicitReason { assert ExplicitReason[0] == 'E'; }
    else { assert NotSkillReason[0] == 'C'; }
  }

  /** A joined list whose first text does not start with 'A' does not start
      with "Approved". */
  lemma JoinedNotApproved(reasons: seq<string>)
    requires |reasons| > 0 && |reasons[0]| > 0 && reasons[0][0] != 'A'
    ensures !StartsWith(Join(reasons, "; "), "Approved")
  {
    JoinStartsWithFirst(reasons, "; ");
    assert Join(reasons, "; ")[0] == reasons[0][0];
  }

  /** The reason starts with "Approved" exactly when no safety flag is raised
      and the video is skill-related; with no failure it names the detected
      skill and its percentage, or says "Skill-related content". */
  lemma ReasonApprovedIffNoFailure(s: SafetyResult, k: SkillResult, percent: int)
    ensures StartsWith(BuildModerationReason(s, k, percent), "Approved")
            <==> (SafetyPassed(s) && k.isSkillRelated)
    ensures SafetyPassed(s) && k.isSkillRelated && k.detectedSkill.Some? ==>
              BuildModerationReason(s, k, percent)
              == "Approved - " + k.detectedSkill.value + " demonstration (" + IntToString(percent) + "% confidence)"
    ensures SafetyPassed(s) && k.isSkillRelated && k.detectedSkill.None? ==>
              BuildModerationReason(s, k, percent) == "Approved - Skill-related content"
  {
    var reasons := FailureReasons(s, k);
    if |reasons| > 0 {
      FailureTextInitial(reasons[0]);
      JoinedNotApproved(reasons);
    } else {
      var r := BuildModerationReason(s, k, percent);
      assert r[..8] == "Approved";
    }
  }

  /** With failures, the reason is the failure texts in the fixed order
      nudity, violence, explicit, not-skill, joined by "; ". */
  lemma ReasonListsFailuresInOrder(s: SafetyResult, k: SkillResult, percent: int)
    requires !(SafetyPassed(s) && k.isSkillRelated)
    ensures BuildModerationReason(s, k, percent) == Join(FailureReasons(s, k), "; ")
    ensures |FailureReasons(s, k)| <= 4
    ensures (NudityReason in FailureReasons(s, k)) == s.nudityDetected
    ensures (NotSkillReason in FailureReasons(s, k)) == !k.isSkillRelated
  {
    assert NudityReason != ViolenceReason && NudityReason != ExplicitReason && NudityReason != NotSkillReason;
    assert NotSkillReason != ViolenceReason && NotSkillReason != ExplicitReason;
  }

  // ---------------------------------------------------------------------------
  // moderateVideo: result assembly
  // ---------------------------------------------------------------------------

  /** moderateVideo once both remote calls have returned or failed. */
  function ModerateVideo(
    safetyReply: Reply<Categories>, classifierReply: Reply<Classification>,
    title: string, env: EnvNumber, percent: int): (r: ModerationResult)
    ensures r.skillFlag == !r.isSkillRelated
    ensures r.approved <==>
              !r.nudityFlag && !r.violenceFlag && !r.explicitContentFlag
              && r.isSkillRelated && r.confidenceScore >= Threshold(env)
    ensures r.approved ==> StartsWith(r.reason, "Approved")
    ensures safetyReply.Threw? ==> !r.nudityFlag && !r.violenceFlag && !r.explicitContentFlag
    ensures classifierReply.Threw? && Threshold(env) == DefaultThreshold ==> !r.approved
  {
    var safety := CheckVideoSafety(safetyReply, title);
    var skill := ClassifySkillContent(classifierReply);
    ReasonApprovedIffNoFailure(safety, skill, percent);
    ModerationResult(
      safety.nudityDetected, safety.violenceDetected, safety.explicitContentDetected,
      !skill.isSkillRelated, skill.isSkillRelated, skill.detectedSkill,
      safety.summary, BuildModerationReason(safety, skill, percent),
      skill.confidence, DetermineApproval(safety, skill, env))
  }

  /** Any raised moderation category blocks approval and the reason does not
      read "Approved"; with no category raised, no safety flag is set. */
  lemma RaisedCategoryBlocks(c: Categories, classifierReply: Reply<Classification>,
                             title: string, env: EnvNumber, percent: int)
    ensures var r := ModerateVideo(Answered(c), classifierReply, title, env, percent);
            (c.sexual || c.sexualMinors || c.violence || c.violenceGraphic || c.hate
             <==> r.nudityFlag || r.violenceFlag || r.explicitContentFlag)
            && (c.sexual || c.sexualMinors || c.violence || c.violenceGraphic || c.hate ==>
                  !r.approved && !StartsWith(r.reason, "Approved"))
  {
    var safety := CheckVideoSafety(Answered(c), title);
    var skill := ClassifySkillContent(classifierReply);
    ReasonApprovedIffNoFailure(safety, skill, percent);
  }

  /** The threshold is the configured number, or 0.6 when it is unset,
      unparsable or zero. */
  lemma ThresholdDefault(env: EnvNumber)
    ensures env.NotANumber? ==> Threshold(env) == 0.6
    ensures env == Number(0.0) ==> Threshold(env) == 0.6
    ensures env.Number? && env.v != 0.0 ==> Threshold(env) == env.v
  {
  }

  /** The reason ignores the threshold: a safe, skill-related video below the
      confidence threshold is rejected while its reason reads "Approved". The
      classifier fallback under the default threshold is such a case. */
  lemma ReasonSaysApprovedWhenRejected(title: string, percent: int)
    ensures var r := ModerateVideo(
              Answered(Categories(false, false, false, false, false)), Threw,
              title, NotANumber, percent);
            !r.approved && r.reason == "Approved - Skill-related content"
  {
  }

  // ---------------------------------------------------------------------------
  // A reason that agrees with the decision
  // ---------------------------------------------------------------------------

  const LowConfidenceReason := "Skill confidence below threshold"

  /** The reason with the missing threshold failure added after the others. */
  function CorrectedReason(s: SafetyResult, k: SkillResult, env: EnvNumber, percent: int): string {
    var reasons := FailureReasons(s, k)
      + (if k.isSkillRelated && k.confidence < Threshold(env) then [LowConfidenceReason] else []);
    if |reasons| == 0 then BuildModerationReason(s, k, percent)
    else Join(reasons, "; ")
  }

  /** The corrected reason starts with "Approved" exactly when the video is
      approved. */
  lemma CorrectedReasonMatchesApproval(s: SafetyResult, k: SkillResult, env: EnvNumber, percent: int)
    ensures StartsWith(CorrectedReason(s, k, env, percent), "Approved") <==> DetermineApproval(s, k, env)
  {
    var reasons := FailureReasons(s, k)
      + (if k.isSkillRelated && k.confidence < Threshold(env) then [LowConfidenceReason] else []);
    if |reasons| > 0 {
      if reasons[0] == LowConfidenceReason {
        assert LowConfidenceReason[0] == 'S';
      } else {
        FailureTextInitial(reasons[0]);
      }
      JoinedNotApproved(reasons);
    } else {
      ReasonApprovedIffNoFailure(s, k, percent);
    }
  }

  /** moderateVideo with the corrected reason: the result's reason says
      "Approved" exactly when the video is approved. */
  function ModerateVideoCorrected(
    safetyReply: Reply<Categories>, classifierReply: Reply<Classification>,
    title: string, env: EnvNumber, percent: int): (r: ModerationResult)
    ensures r.approved <==> StartsWith(r.reason, "Approved")
    ensures r.approved <==>
              !r.nudityFlag && !r.violenceFlag && !r.explicitContentFlag
              && r.isSkillRelated && r.confidenceScore >= Threshold(env)
    ensures var w := ModerateVideo(safetyReply, classifierReply, title, env, percent);
            r.approved == w.approved && r == w.(reason := r.reason)
  {
    var safety := CheckVideoSafety(safetyReply, title);
    var skill := ClassifySkillContent(classifierReply);
    CorrectedReasonMatchesApproval(safety, skill, env, percent);
    ModerationResult(
      safety.nudityDetected, safety.violenceDetected, safety.explicitContentDetected,
      !skill.isSkillRelated, skill.isSkillRelated, skill.detectedSkill,
      safety.summary, CorrectedReason(safety, skill, env, percent),
      skill.confidence, DetermineApproval(safety, skill, env))
  }
}

=== FILE: notifications_view.dfy ===
/** src/components/NotificationsView.tsx: building the notification list from
    likes, new followers and bookings, the read flag, marking everything read,
    and the unread count. Timestamps are milliseconds since the epoch; the
    rows each query would return, newest first, are inputs. */
module NotificationsView {
  import opened Text
  import opened Sorting

  datatype Kind = LikeItem | FollowItem | BookingItem

  datatype Notification = Notification(
    id: string, kind: Kind, title: string, message: string, createdAt: int, read: bool)

  /** A like on one of the user's videos; None stands for a missing joined row. */
  datatype LikeRow = LikeRow(id: string, createdAt: int, likerName: Option<string>, videoTitle: Option<string>)

  datatype FollowRow = FollowRow(id: string, createdAt: int, followerName: Option<string>)

  /** A booking the user is part of. `clientId` is the real column; the
      query does not select it. */
  datatype BookingRow = BookingRow(
    id: string, status: string, createdAt: int, clientId: string,
    clientName: Option<string>, providerName: Option<string>)

  /** Each query asks for at most this many rows. */
  const QueryLimit: nat := 20

  /** `.limit(20)` on rows already ordered newest first. */
  function Limit<T>(rows: seq<T>): (r: seq<T>)
    ensures |r| == if |rows| <= QueryLimit then |rows| else QueryLimit
    ensures r == rows[..|r|]
  {
    if |rows| <= QueryLimit then rows else rows[..QueryLimit]
  }

  /** A template literal's rendering of a possibly missing text. */
  function Show(v: Option<string>): string {
    match v case None => "undefined" case Some(s) => s
  }

  /** `name || 'Someone'`. */
  function NameOrSomeone(v: Option<string>): (r: string)
    ensures r != ""
    ensures v.Some? && v.value != "" ==> r == v.value
    ensures v.None? || v == Some("") ==> r == "Someone"
  {
    match v
    case None => "Someone"
    case Some(s) => if s == "" then "Someone" else s
  }

  /** The read flag: created no later than the last time the user read. */
  predicate IsRead(createdAt: int, lastReadAt: int) {
    createdAt <= lastReadAt
  }

  /** `last_read_notifications_at`, or the epoch when unset. */
  function LastReadAt(stored: Option<int>): int {
    match stored case None => 0 case Some(t) => t
  }

  function LikeNotification(row: LikeRow, lastReadAt: int): Notification {
    Notification(row.id, LikeItem, "New Like",
      NameOrSomeone(row.likerName) + " liked your video \"" + Show(row.videoTitle) + "\"",
      row.createdAt, IsRead(row.createdAt, lastReadAt))
  }

  function FollowNotification(row: FollowRow, lastReadAt: int): Notification {
    Notification(row.id, FollowItem, "New Follower",
      NameOrSomeone(row.followerName) + " started following you",
      row.createdAt, IsRead(row.createdAt, lastReadAt))
  }

  /** The counterpart's name as written: `booking.client_id` is undefined
      because the query does not select it, so the test against the user's id
      always fails and the client's name is used. */
  function OtherNameAsWritten(row: BookingRow, userId: string): Option<string> {
    var selectedClientId: Option<string> := None;
    if selectedClientId == Some(userId) then row.providerName else row.clientName
  }

  /** The counterpart's name as intended: the provider when the user is the
      client, else the client. */
  function OtherName(row: BookingRow, userId: string): (r: Option<string>)
    ensures row.clientId == userId ==> r == row.providerName
    ensures row.clientId != userId ==> r == row.clientName
  {
    if row.clientId == userId then row.providerName else row.clientName
  }

  /** The correction changes only what the booking's client sees: the
      client is now shown the provider's name, and everyone else keeps the
      client's name as before. */
  lemma CorrectionOnlyAffectsClient(row: BookingRow, userId: string)
    ensures row.clientId != userId ==> OtherName(row, userId) == OtherNameAsWritten(row, userId) == row.clientName
    ensures row.clientId == userId ==>
              OtherName(row, userId) == row.providerName && OtherNameAsWritten(row, userId) == row.clientName
  {
  }

  function BookingMessage(otherName: Option<string>, status: string): string {
    "Booking with " + Show(otherName) + " is " + status
  }

  /** A client sees their own name in the message, not the provider's. */
  lemma ClientSeesOwnName(row: BookingRow, userId: string)
    requires row.clientId == userId
    ensures BookingMessage(OtherNameAsWritten(row, userId), row.status) == BookingMessage(row.clientName, row.status)
    ensures BookingMessage(OtherName(row, userId), row.status) == BookingMessage(row.providerName, row.status)
    ensures Show(row.clientName) != Show(row.providerName) ==>
              BookingMessage(OtherNameAsWritten(row, userId), row.status)
              != BookingMessage(OtherName(row, userId), row.status)
  {
    if Show(row.clientName) != Show(row.providerName) {
      var a := BookingMessage(row.clientName, row.status);
      var b := BookingMessage(row.providerName, row.status);
      if a == b {
        ShowInjectiveInMessage(row.clientName, row.providerName, row.status);
      }
    }
  }

  /** Different names give different booking messages. */
  lemma ShowInjectiveInMessage(x: Option<string>, y: Option<string>, status: string)
    requires BookingMessage(x, status) == BookingMessage(y, status)
    ensures Show(x) == Show(y)
  {
    assert BookingMessage(x, status) == "Booking with " + Show(x) + (" is " + status);
    assert BookingMessage(y, status) == "Booking with " + Show(y) + (" is " + status);
    MiddleInjective("Booking with ", Show(x), Show(y), " is " + status);
  }

  function BookingNotification(row: BookingRow, userId: string, lastReadAt: int): Notification {
    Notification(row.id, BookingItem, "Booking Update",
      BookingMessage(OtherName(row, userId), row.status),
      row.createdAt, IsRead(row.createdAt, lastReadAt))
  }

  function CreatedAt(n: Notification): int { n.createdAt }

  /** The three sources in push order, before sorting. Likes are fetched
      only when the user has videos. */
  function Unsorted(
    userId: string, hasVideos: bool, likes: seq<LikeRow>, follows: seq<FollowRow>,
    bookings: seq<BookingRow>, lastReadAt: int): (r: seq<Notification>)
    ensures |r| <= 3 * QueryLimit
    ensures forall k :: 0 <= k < |r| ==> (r[k].read <==> r[k].createdAt <= lastReadAt)
  {
    var l := if hasVideos then Limit(likes) else [];
    var f := Limit(follows);
    var b := Limit(bookings);
    seq(|l|, k requires 0 <= k < |l| => LikeNotification(l[k], lastReadAt))
    + seq(|f|, k requires 0 <= k < |f| => FollowNotification(f[k], lastReadAt))
    + seq(|b|, k requires 0 <= k < |b| => BookingNotification(b[k], userId, lastReadAt))
  }

  /** loadNotifications: every item of the three sources, newest first. */
  function LoadNotifications(
    userId: string, hasVideos: bool, likes: seq<LikeRow>, follows: seq<FollowRow>,
    bookings: seq<BookingRow>, storedLastRead: Option<int>): (r: seq<Notification>)
    ensures SortedDesc(r, CreatedAt)
    ensures multiset(r) == multiset(Unsorted(userId, hasVideos, likes, follows, bookings, LastReadAt(storedLastRead)))
    ensures |r| <= 3 * QueryLimit
  {
    SortDesc(Unsorted(userId, hasVideos, likes, follows, bookings, LastReadAt(storedLastRead)), CreatedAt)
  }

  /** Every listed item is read exactly when it was created no later than
      the stored last-read time, the epoch when none is stored. */
  lemma ReadFlagIsTimestampTest(
    userId: string, hasVideos: bool, likes: seq<LikeRow>, follows: seq<FollowRow>,
    bookings: seq<BookingRow>, storedLastRead: Option<int>)
    ensures var r := LoadNotifications(userId, hasVideos, likes, follows, bookings, storedLastRead);
            forall k :: 0 <= k < |r| ==> (r[k].read <==> r[k].createdAt <= LastReadAt(storedLastRead))
  {
    var t := LastReadAt(storedLastRead);
    var u := Unsorted(userId, hasVideos, likes, follows, bookings, t);
    SortKeepsProperty(u, CreatedAt, (n: Notification) => (n.read <==> n.createdAt <= t));
  }

  /** Without videos there are no like items; the count of items is the sum
      of the capped sources, with no deduplication. */
  lemma ItemCount(
    userId: string, hasVideos: bool, likes: seq<LikeRow>, follows: seq<FollowRow>,
    bookings: seq<BookingRow>, storedLastRead: Option<int>)
    ensures |LoadNotifications(userId, hasVideos, likes, follows, bookings, storedLastRead)|
            == (if hasVideos then |Limit(likes)| else 0) + |Limit(follows)| + |Limit(bookings)|
    ensures !hasVideos ==>
              forall k :: 0 <= k < |Unsorted(userId, hasVideos, likes, follows, bookings, LastReadAt(storedLastRead))| ==>
                Unsorted(userId, hasVideos, likes, follows, bookings, LastReadAt(storedLastRead))[k].kind != LikeItem
  {
  }

  /** markAllAsRead: every item becomes read; nothing else changes. */
  function MarkAllAsRead(items: seq<Notification>): (r: seq<Notification>)
    ensures |r| == |items|
    ensures forall k :: 0 <= k < |items| ==> r[k] == items[k].(read := true)
  {
    seq(|items|, k requires 0 <= k < |items| => items[k].(read := true))
  }

  function UnreadCount(items: seq<Notification>): (n: nat)
    ensures n <= |items|
    ensures n == 0 <==> forall k :: 0 <= k < |items| ==> items[k].read
  {
    Count(items, (i: Notification) => !i.read)
  }

  /** The "Mark all as read" button shows only while something is unread. */
  predicate MarkAllButtonShown(items: seq<Notification>) {
    UnreadCount(items) > 0
  }

  /** After marking all read the count is zero and the button is gone;
      marking twice is marking once. */
  lemma MarkAllClearsUnread(items: seq<Notification>)
    ensures UnreadCount(MarkAllAsRead(items)) == 0
    ensures !MarkAllButtonShown(MarkAllAsRead(items))
    ensures MarkAllAsRead(MarkAllAsRead(items)) == MarkAllAsRead(items)
  {
  }
}

=== FILE: patch_engine.dfy ===
/** The text-substitution machinery behind update_app.py and update_app.js.
    Every pattern those scripts use is literal text in which `\r?\n` may stand
    for a line end, with at most two capture groups (the text before the
    middle part and the text after it). Such a pattern never needs
    backtracking: at each position `\r?\n` can match in one way only. Both
    Python's `re.sub` (every non-overlapping match, left to right) and
    JavaScript's `String.prototype.replace` with a non-global pattern (the
    first match only) are defined here. */
module Patch {
  import opened Text

  /** One pattern element: a literal character, or `\r?\n`. */
  datatype Token = Lit(c: char) | Eol

  /** The pattern written as text, with '\n' standing for `\r?\n`. */
  function Toks(t: string): (r: seq<Token>)
    ensures |r| == |t|
    ensures forall k :: 0 <= k < |t| ==> r[k] == (if t[k] == '\n' then Eol else Lit(t[k]))
  {
    seq(|t|, k requires 0 <= k < |t| => if t[k] == '\n' then Eol else Lit(t[k]))
  }

  lemma ToksAppend(a: string, b: string)
    ensures Toks(a + b) == Toks(a) + Toks(b)
  {
  }

  /** Where a token starting at `i` ends, if it matches there. `\r?\n` tries
      the carriage return first, as the regex engines do. */
  function MatchToken(s: string, i: nat, t: Token): (r: Option<nat>)
    requires i <= |s|
    ensures r.Some? ==> i < r.value <= |s|
  {
    match t
    case Lit(c) => if i < |s| && s[i] == c then Some(i + 1) else None
    case Eol =>
      if i + 1 < |s| && s[i] == '\r' && s[i + 1] == '\n' then Some(i + 2)
      else if i < |s| && s[i] == '\n' then Some(i + 1)
      else None
  }

  /** `\r?\n` matches a lone line feed and a carriage return with line feed,
      and nothing else. */
  lemma EolMatchesBothEndings(s: string, i: nat)
    requires i <= |s|
    ensures i < |s| && s[i] == '\n' ==> MatchToken(s, i, Eol) == Some(i + 1)
    ensures i + 1 < |s| && s[i..i + 2] == "\r\n" ==> MatchToken(s, i, Eol) == Some(i + 2)
    ensures MatchToken(s, i, Eol).Some? ==>
              (s[i] == '\n' && MatchToken(s, i, Eol) == Some(i + 1))
              || (i + 1 < |s| && s[i..i + 2] == "\r\n" && MatchToken(s, i, Eol) == Some(i + 2))
  {
    if i + 1 < |s| && s[i..i + 2] == "\r\n" {
      assert s[i] == s[i..i + 2][0];
      assert s[i + 1] == s[i..i + 2][1];
    }
  }

  /** Where a token sequence starting at `i` ends, if it matches there. */
  function MatchTokens(s: string, i: nat, ts: seq<Token>): (r: Option<nat>)
    requires i <= |s|
    ensures r.Some? ==> i + |ts| <= r.value <= |s|
    decreases |ts|
  {
    if |ts| == 0 then Some(i)
    else
      match MatchToken(s, i, ts[0])
      case None => None
      case Some(j) => MatchTokens(s, j, ts[1..])
  }

  /** Matching a concatenation is matching its parts one after the other. */
  lemma {:induction false} MatchTokensAppend(s: string, i: nat, a: seq<Token>, b: seq<Token>)
    requires i <= |s|
    ensures MatchTokens(s, i, a + b) ==
              match MatchTokens(s, i, a) case None => None case Some(j) => MatchTokens(s, j, b)
    decreases |a|
  {
    if |a| == 0 {
      assert a + b == b;
    } else {
      assert (a + b)[1..] == a[1..] + b;
      assert (a + b)[0] == a[0];
      match MatchToken(s, i, a[0])
      case None =>
      case Some(j) => MatchTokensAppend(s, j, a[1..], b);
    }
  }

  /** Text matches the pattern written as that same text, and the match
      covers exactly it. */
  lemma {:induction false} TextMatchesItself(s: string, i: nat, t: string)
    requires i + |t| <= |s| && s[i..i + |t|] == t
    ensures MatchTokens(s, i, Toks(t)) == Some(i + |t|)
    decreases |t|
  {
    if |t| > 0 {
      assert s[i] == t[0] by { assert s[i..i + |t|][0] == s[i]; }
      assert Toks(t)[1..] == Toks(t[1..]);
      assert s[i + 1..i + 1 + |t[1..]|] == t[1..] by {
        assert s[i + 1..i + |t|] == s[i..i + |t|][1..];
      }
      TextMatchesItself(s, i + 1, t[1..]);
    }
  }

  /** A pattern: the first group, the ungrouped middle, the second group. A
      pattern without groups keeps everything in the middle. */
  datatype Pattern = Pattern(g1: seq<Token>, mid: seq<Token>, g2: seq<Token>)

  /** Every pattern the scripts use matches at least one character. */
  predicate NonEmpty(p: Pattern) {
    |p.g1| + |p.mid| + |p.g2| > 0
  }

  /** A match: where it starts, where the first group and the middle end,
      and where it ends. */
  datatype Match = Match(start: nat, end1: nat, end2: nat, end: nat)

  predicate Within(s: string, m: Match) {
    m.start <= m.end1 <= m.end2 <= m.end <= |s|
  }

  function MatchAt(s: string, i: nat, p: Pattern): (r: Option<Match>)
    requires i <= |s|
    ensures r.Some? ==> Within(s, r.value) && r.value.start == i
    ensures r.Some? ==> r.value.end >= i + |p.g1| + |p.mid| + |p.g2|
  {
    match MatchTokens(s, i, p.g1)
    case None => None
    case Some(e1) =>
      match MatchTokens(s, e1, p.mid)
      case None => None
      case Some(e2) =>
        match MatchTokens(s, e2, p.g2)
        case None => None
        case Some(e) => Some(Match(i, e1, e2, e))
  }

  /** Whether the pattern matches at `i`. */
  predicate MatchesAt(s: string, i: int, p: Pattern) {
    0 <= i <= |s| && MatchAt(s, i, p).Some?
  }

  /** One piece of a replacement: literal text, `\1` or `\2`. */
  datatype Part = Text(t: string) | Group1 | Group2

  /** The replacement text for one match. */
  function Expand(rep: seq<Part>, s: string, m: Match): string
    requires Within(s, m)
    decreases |rep|
  {
    if |rep| == 0 then ""
    else
      var head := match rep[0]
        case Text(t) => t
        case Group1 => s[m.start..m.end1]
        case Group2 => s[m.end2..m.end];
      head + Expand(rep[1..], s, m)
  }

  /** `re.sub` from position `i` on. */
  function SubFrom(s: string, i: nat, p: Pattern, rep: seq<Part>): string
    requires NonEmpty(p) && i <= |s|
    decreases |s| - i
  {
    if i == |s| then ""
    else
      match MatchAt(s, i, p)
      case Some(m) => Expand(rep, s, m) + SubFrom(s, m.end, p, rep)
      case None => [s[i]] + SubFrom(s, i + 1, p, rep)
  }

  /** Python's `re.sub(pattern, rep, s)`: every non-overlapping match, left
      to right. */
  function SubAll(s: string, p: Pattern, rep: seq<Part>): string
    requires NonEmpty(p)
  {
    SubFrom(s, 0, p, rep)
  }

  /** The leftmost match at or after `i`. */
  function FirstMatch(s: string, i: nat, p: Pattern): (r: Option<Match>)
    requires i <= |s|
    ensures r.Some? ==> Within(s, r.value) && i <= r.value.start && MatchAt(s, r.value.start, p) == r
    ensures r.Some? ==> forall k :: i <= k < r.value.start ==> !MatchesAt(s, k, p)
    ensures r.None? ==> forall k :: i <= k <= |s| ==> !MatchesAt(s, k, p)
    decreases |s| - i
  {
    match MatchAt(s, i, p)
    case Some(m) => Some(m)
    case None => if i == |s| then None else FirstMatch(s, i + 1, p)
  }

  /** JavaScript's `s.replace(pattern, rep)` with a string or non-global
      pattern: the first match only. */
  function SubFirst(s: string, p: Pattern, rep: seq<Part>): string {
    match FirstMatch(s, 0, p)
    case None => s
    case Some(m) => s[..m.start] + Expand(rep, s, m) + s[m.end..]
  }

  /** The pattern matches nowhere. */
  predicate Absent(s: string, p: Pattern) {
    forall i :: 0 <= i <= |s| ==> !MatchesAt(s, i, p)
  }

  /** The pattern matches at one position at most. */
  predicate AtMostOnce(s: string, p: Pattern) {
    forall i, j :: 0 <= i <= |s| && 0 <= j <= |s| && MatchesAt(s, i, p) && MatchesAt(s, j, p) ==> i == j
  }

  /** With no match from `i` on, the rest of the text is copied. */
  lemma {:induction false} NoMatchCopies(s: string, i: nat, p: Pattern, rep: seq<Part>)
    requires NonEmpty(p) && i <= |s|
    requires forall k :: i <= k <= |s| ==> !MatchesAt(s, k, p)
    ensures SubFrom(s, i, p, rep) == s[i..]
    decreases |s| - i
  {
    if i < |s| {
      assert !MatchesAt(s, i, p);
      NoMatchCopies(s, i + 1, p, rep);
      assert s[i..] == [s[i]] + s[i + 1..];
    }
  }

  /** Where the pattern does not match, one character is copied. */
  lemma CopyOne(s: string, i: nat, p: Pattern, rep: seq<Part>)
    requires NonEmpty(p) && i < |s| && MatchAt(s, i, p).None?
    ensures SubFrom(s, i, p, rep) == [s[i]] + SubFrom(s, i + 1, p, rep)
  {
  }

  /** Where the pattern does not match, the leftmost match lies further on. */
  lemma FirstMatchSkips(s: string, i: nat, p: Pattern)
    requires i < |s| && MatchAt(s, i, p).None?
    ensures FirstMatch(s, i, p) == FirstMatch(s, i + 1, p)
  {
  }

  /** Up to the leftmost match the text is copied, then the match is
      replaced and substitution goes on after it. */
  lemma {:induction false} CopyUpToMatch(s: string, i: nat, p: Pattern, rep: seq<Part>, m: Match)
    requires NonEmpty(p) && i <= |s|
    requires FirstMatch(s, i, p) == Some(m)
    ensures SubFrom(s, i, p, rep) == s[i..m.start] + (Expand(rep, s, m) + SubFrom(s, m.end, p, rep))
    decreases |s| - i
  {
    if i == m.start {
      ReplaceHere(s, i, p, rep, m);
    } else {
      FirstMatchSkips(s, i, p);
      CopyOne(s, i, p, rep);
      CopyUpToMatch(s, i + 1, p, rep, m);
      ConsSlice(s, i, m.start, Expand(rep, s, m) + SubFrom(s, m.end, p, rep));
    }
  }

  /** Where the pattern matches, the match is replaced. */
  lemma ReplaceHere(s: string, i: nat, p: Pattern, rep: seq<Part>, m: Match)
    requires NonEmpty(p) && i <= |s| && MatchAt(s, i, p) == Some(m)
    ensures SubFrom(s, i, p, rep) == s[i..i] + (Expand(rep, s, m) + SubFrom(s, m.end, p, rep))
  {
    assert s[i..i] == "";
  }

  lemma ConsSlice(s: string, i: nat, j: nat, rest: string)
    requires i < j <= |s|
    ensures [s[i]] + (s[i + 1..j] + rest) == s[i..j] + rest
  {
    assert s[i..j] == [s[i]] + s[i + 1..j];
  }

  /** An absent anchor leaves the text unchanged, in both scripts. */
  lemma AbsentAnchorNoOp(s: string, p: Pattern, rep: seq<Part>)
    requires NonEmpty(p) && Absent(s, p)
    ensures SubAll(s, p, rep) == s
    ensures SubFirst(s, p, rep) == s
  {
    NoMatchCopies(s, 0, p, rep);
    assert s[0..] == s;
    match FirstMatch(s, 0, p)
    case None =>
    case Some(m) =>
      assert MatchesAt(s, m.start, p);
      assert false;
  }

  /** Two first-match replacements agree when their leftmost matches span
      the same characters and expand to the same text. */
  lemma SameReplacement(s: string, p1: Pattern, r1: seq<Part>, p2: Pattern, r2: seq<Part>)
    requires FirstMatch(s, 0, p1).Some? <==> FirstMatch(s, 0, p2).Some?
    requires FirstMatch(s, 0, p1).Some? ==>
               var m1, m2 := FirstMatch(s, 0, p1).value, FirstMatch(s, 0, p2).value;
               m1.start == m2.start && m1.end == m2.end && Expand(r1, s, m1) == Expand(r2, s, m2)
    ensures SubFirst(s, p1, r1) == SubFirst(s, p2, r2)
  {
  }

  lemma SingleMatchAgrees(s: string, p: Pattern, rep: seq<Part>)
    requires NonEmpty(p) && AtMostOnce(s, p)
    ensures SubAll(s, p, rep) == SubFirst(s, p, rep)
  {
    match FirstMatch(s, 0, p)
    case None =>
      AbsentAnchorNoOp(s, p, rep);
    case Some(m) =>
      CopyUpToMatch(s, 0, p, rep, m);
      assert MatchesAt(s, m.start, p);
      assert m.end > m.start;
      forall k | m.end <= k <= |s| ensures !MatchesAt(s, k, p) {
      }
      NoMatchCopies(s, m.end, p, rep);
  }

  /** With two matches the scripts differ: replacing "a" by "b" in "aa"
      gives "bb" for `re.sub` and "ba" for `replace`. */
  lemma TwoMatchesDiffer()
    ensures SubAll("aa", Pattern([], [Lit('a')], []), [Text("b")]) == "bb"
    ensures SubFirst("aa", Pattern([], [Lit('a')], []), [Text("b")]) == "ba"
  {
    var p := Pattern([], [Lit('a')], []);
    assert MatchAt("aa", 0, p) == Some(Match(0, 0, 1, 1));
    assert MatchAt("aa", 1, p) == Some(Match(1, 1, 2, 2));
    assert SubFrom("aa", 1, p, [Text("b")]) == "b" + SubFrom("aa", 2, p, [Text("b")]);
  }

  /** A text that consists of one match is replaced as a whole. */
  lemma WholeTextMatch(s: string, p: Pattern, rep: seq<Part>, m: Match)
    requires NonEmpty(p)
    requires MatchAt(s, 0, p) == Some(m) && m.end == |s|
    ensures SubAll(s, p, rep) == Expand(rep, s, m)
    ensures SubFirst(s, p, rep) == Expand(rep, s, m)
  {
    assert |s| > 0;
    assert SubFrom(s, |s|, p, rep) == "";
    assert SubFrom(s, 0, p, rep) == Expand(rep, s, m) + "";
    assert FirstMatch(s, 0, p) == Some(m);
    assert s[..0] == "" && s[|s|..] == "";
  }
}

=== FILE: profile_completion.dfy ===
/** src/components/ProfileCompletionMeter.tsx: the seven weighted profile
    steps, the total progress, the next step to suggest, and when the meter
    is shown. */
module ProfileCompletion {
  import opened Text

  /** The profile fields the meter reads; None is a null or missing field. */
  datatype Profile = Profile(
    avatarUrl: Option<string>, bio: Option<string>, specialty: Option<string>,
    location: Option<string>, experience: Option<string>)

  datatype Step = Step(title: string, key: string, weight: nat, completed: bool)

  /** JavaScript truthiness of an optional text: present and non-empty. */
  predicate Truthy(v: Option<string>) {
    v.Some? && v.value != ""
  }

  /** The portfolio count after a load: `count || 0` when the query
      answers, and the count held before (0 on the first load) when it
      fails, since the catch only logs. `reply` is None for a failed query
      and Some(None) for a null count. */
  function PortfolioCount(previous: int, reply: Option<Option<int>>): (c: int)
    ensures reply.None? ==> c == previous
    ensures reply.Some? ==> c == (if reply.value.Some? then reply.value.value else 0)
    ensures reply.Some? ==> (c > 0 <==> reply.value.Some? && reply.value.value > 0)
  {
    match reply
    case None => previous
    case Some(count) => match count case None => 0 case Some(n) => n
  }

  /** The listed steps. `profile` is None when there is no profile (`profile?.x`). */
  function Steps(profile: Option<Profile>, totalVideos: int, portfolioCount: int): (steps: seq<Step>)
    ensures |steps| == 7
    ensures forall k :: 0 <= k < |steps| ==> steps[k].weight > 0
  {
    var p := profile;
    [ Step("Add a professional avatar", "avatar_url", 15, p.Some? && Truthy(p.value.avatarUrl)),
      Step("Write a compelling bio", "bio", 20, p.Some? && Truthy(p.value.bio)),
      Step("Set your primary specialty", "specialty", 15, p.Some? && Truthy(p.value.specialty)),
      Step("Add your service location", "location", 10, p.Some? && Truthy(p.value.location)),
      Step("Describe your experience", "experience", 10, p.Some? && Truthy(p.value.experience)),
      Step("Upload your first skill video", "videos", 15, totalVideos > 0),
      Step("Add at least one portfolio item", "portfolio", 15, portfolioCount > 0) ]
  }

  /** Sum of all weights. */
  function WeightSum(steps: seq<Step>): nat {
    if |steps| == 0 then 0 else steps[0].weight + WeightSum(steps[1..])
  }

  /** totalProgress: the weights of the completed steps, added up. */
  function TotalProgress(steps: seq<Step>): (t: nat)
    ensures t <= WeightSum(steps)
  {
    if |steps| == 0 then 0
    else (if steps[0].completed then steps[0].weight else 0) + TotalProgress(steps[1..])
  }

  predicate AllCompleted(steps: seq<Step>) {
    forall k :: 0 <= k < |steps| ==> steps[k].completed
  }

  /** With positive weights, the progress reaches the full sum exactly when
      every step is completed. */
  lemma {:induction false} FullProgressIff(steps: seq<Step>)
    requires forall k :: 0 <= k < |steps| ==> steps[k].weight > 0
    ensures TotalProgress(steps) == WeightSum(steps) <==> AllCompleted(steps)
  {
    if |steps| > 0 {
      FullProgressIff(steps[1..]);
      if AllCompleted(steps) {
        assert AllCompleted(steps[1..]) by {
          forall k | 0 <= k < |steps[1..]| ensures steps[1..][k].completed {
            assert steps[1..][k] == steps[k + 1];
          }
        }
      } else if steps[0].completed {
        var k :| 0 <= k < |steps| && !steps[k].completed;
        assert !steps[1..][k - 1].completed;
      }
    }
  }

  /** The weights add up to 100, so the progress is a percentage that is 100
      exactly when every step is done. */
  lemma ProgressIsPercentage(profile: Option<Profile>, totalVideos: int, portfolioCount: int)
    ensures WeightSum(Steps(profile, totalVideos, portfolioCount)) == 100
    ensures TotalProgress(Steps(profile, totalVideos, portfolioCount)) <= 100
    ensures TotalProgress(Steps(profile, totalVideos, portfolioCount)) == 100
            <==> AllCompleted(Steps(profile, totalVideos, portfolioCount))
  {
    var steps := Steps(profile, totalVideos, portfolioCount);
    assert WeightSum(steps[6..]) == 15;
    assert WeightSum(steps[5..]) == 30;
    assert WeightSum(steps[4..]) == 40;
    assert WeightSum(steps[3..]) == 50;
    assert WeightSum(steps[2..]) == 65;
    assert WeightSum(steps[1..]) == 85;
    FullProgressIff(steps);
  }

  /** nextStep: the first step not yet completed. */
  function NextStep(steps: seq<Step>): (r: Option<nat>)
    ensures r.Some? ==> r.value < |steps| && !steps[r.value].completed
    ensures r.Some? ==> forall k :: 0 <= k < r.value ==> steps[k].completed
    ensures r.None? <==> AllCompleted(steps)
  {
    if |steps| == 0 then None
    else if !steps[0].completed then Some(0)
    else match NextStep(steps[1..])
      case None => None
      case Some(k) => Some(k + 1)
  }

  /** What the meter renders: nothing at 100% or while loading, otherwise
      the progress and the suggested step. */
  datatype Meter = Hidden | Shown(progress: nat, next: Option<nat>)

  function Render(profile: Option<Profile>, totalVideos: int, portfolioCount: int, loading: bool): (m: Meter)
    ensures m.Shown? ==> m.progress < 100 && m.next.Some?
    ensures m.Hidden? <==> loading || AllCompleted(Steps(profile, totalVideos, portfolioCount))
  {
    var steps := Steps(profile, totalVideos, portfolioCount);
    ProgressIsPercentage(profile, totalVideos, portfolioCount);
    var total := TotalProgress(steps);
    if total == 100 then Hidden
    else if loading then Hidden
    else Shown(total, NextStep(steps))
  }

  /** A step counts only when its field is present and non-empty; the video
      and portfolio steps need a positive count. */
  lemma StepsNeedTruthyFields(profile: Profile, totalVideos: int, portfolioCount: int)
    ensures var steps := Steps(Some(profile), totalVideos, portfolioCount);
            (steps[0].completed <==> Truthy(profile.avatarUrl))
            && (steps[1].completed <==> Truthy(profile.bio))
            && (steps[2].completed <==> Truthy(profile.specialty))
            && (steps[3].completed <==> Truthy(profile.location))
            && (steps[4].completed <==> Truthy(profile.experience))
            && (steps[5].completed <==> totalVideos > 0)
            && (steps[6].completed <==> portfolioCount > 0)
    ensures !Steps(Some(profile.(bio := Some(""))), totalVideos, portfolioCount)[1].completed
    ensures forall k :: 0 <= k < 5 ==> !Steps(None, totalVideos, portfolioCount)[k].completed
  {
  }

  /** The steps' keys and weights, in the listed order. */
  lemma StepKeysAndWeights(profile: Option<Profile>, totalVideos: int, portfolioCount: int)
    ensures var steps := Steps(profile, totalVideos, portfolioCount);
            steps[0].key == "avatar_url" && steps[0].weight == 15
            && steps[1].key == "bio" && steps[1].weight == 20
            && steps[2].key == "specialty" && steps[2].weight == 15
            && steps[3].key == "location" && steps[3].weight == 10
            && steps[4].key == "experience" && steps[4].weight == 10
            && steps[5].key == "videos" && steps[5].weight == 15
            && steps[6].key == "portfolio" && steps[6].weight == 15
  {
  }
}

=== FILE: provider_dashboard.dfy ===
/** src/components/ProviderDashboard.tsx: the booking status lifecycle a
    provider drives (the actions offered for each status), and the status
    badge and label. The status values are those of the bookings table
    (src/lib/database.types.ts). */
module ProviderDashboard {
  import opened Text

  datatype Status = Pending | Confirmed | Completed | Cancelled

  function StatusName(s: Status): string {
    match s
    case Pending => "pending"
    case Confirmed => "confirmed"
    case Completed => "completed"
    case Cancelled => "cancelled"
  }

  /** The buttons shown on a booking card, as the status each one sets:
      Confirm and Decline for a pending booking, Mark as Completed for a
      confirmed one, nothing otherwise. */
  function OfferedActions(s: Status): (r: seq<Status>)
    ensures Pending !in r
    ensures s == Completed || s == Cancelled <==> r == []
  {
    match s
    case Pending => [Confirmed, Cancelled]
    case Confirmed => [Completed]
    case Completed => []
    case Cancelled => []
  }

  /** How far along the lifecycle a status is. */
  function Stage(s: Status): nat {
    match s
    case Pending => 0
    case Confirmed => 1
    case Completed => 2
    case Cancelled => 2
  }

  /** Every offered action moves the booking strictly forward. */
  lemma ActionsMoveForward(s: Status)
    ensures forall k :: 0 <= k < |OfferedActions(s)| ==> Stage(OfferedActions(s)[k]) > Stage(s)
  {
  }

  /** A history of statuses in which each step is an offered action. */
  predicate ValidHistory(h: seq<Status>) {
    forall k :: 0 <= k < |h| - 1 ==> h[k + 1] in OfferedActions(h[k])
  }

  /** Along any history the stage strictly rises, so no action leads back to
      pending, a terminal status ends the history, and a history holds at
      most three statuses. */
  lemma {:induction false} HistoryMovesForward(h: seq<Status>)
    requires ValidHistory(h)
    ensures forall i, j :: 0 <= i < j < |h| ==> Stage(h[i]) + (j - i) <= Stage(h[j])
    ensures forall k :: 0 < k < |h| ==> h[k] != Pending
    ensures forall k :: 0 <= k < |h| && (h[k] == Completed || h[k] == Cancelled) ==> k == |h| - 1
    ensures |h| <= 3
    decreases |h|
  {
    if |h| > 1 {
      var t := h[1..];
      assert ValidHistory(t) by {
        forall k | 0 <= k < |t| - 1 ensures t[k + 1] in OfferedActions(t[k]) {
          assert t[k] == h[k + 1] && t[k + 1] == h[k + 2];
        }
      }
      HistoryMovesForward(t);
      assert Stage(h[1]) > Stage(h[0]) by { ActionsMoveForward(h[0]); }
      forall i, j | 0 <= i < j < |h| ensures Stage(h[i]) + (j - i) <= Stage(h[j]) {
        if i > 0 {
          assert h[i] == t[i - 1] && h[j] == t[j - 1];
        } else if j > 1 {
          assert h[1] == t[0] && h[j] == t[j - 1];
        }
      }
      assert Stage(h[0]) + (|h| - 1) <= Stage(h[|h| - 1]);
    }
  }

  /** The badge colour: yellow, blue, green, and red for any other status. */
  function BadgeClass(status: string): string {
    if status == "pending" then "bg-yellow-100 text-yellow-800"
    else if status == "confirmed" then "bg-blue-100 text-blue-800"
    else if status == "completed" then "bg-green-100 text-green-800"
    else "bg-red-100 text-red-800"
  }

  /** Cancelled and every unexpected status share the red badge; the three
      other statuses have distinct colours. */
  lemma BadgeColours(status: string)
    ensures BadgeClass(StatusName(Cancelled)) == BadgeClass("unknown") == "bg-red-100 text-red-800"
    ensures status !in {"pending", "confirmed", "completed"} ==> BadgeClass(status) == "bg-red-100 text-red-800"
    ensures BadgeClass("pending") != BadgeClass("confirmed") && BadgeClass("confirmed") != BadgeClass("completed")
            && BadgeClass("pending") != BadgeClass("completed")
  {
    assert "bg-yellow-100 text-yellow-800"[3] != "bg-blue-100 text-blue-800"[3];
    assert "bg-blue-100 text-blue-800"[3] != "bg-green-100 text-green-800"[3];
    assert "bg-yellow-100 text-yellow-800"[3] != "bg-green-100 text-green-800"[3];
  }

  /** The label: the status with its first character upper-cased
      (`charAt(0).toUpperCase() + slice(1)`). It reads as the status when
      case is ignored, and never starts with a lower-case letter. */
  function Label(status: string): (r: string)
    ensures |r| == |status|
    ensures Lower(r) == Lower(status)
    ensures |status| > 0 ==> !IsAsciiLower(r[0])
    ensures |status| > 0 ==> r[0] == UpperChar(status[0]) && r[1..] == status[1..]
  {
    if |status| == 0 then "" else [UpperChar(status[0])] + status[1..]
  }

  /** Lower-casing the label gives back a lower-case status name. */
  lemma LabelRoundTrip(s: Status)
    ensures Lower(Label(StatusName(s))) == StatusName(s)
    ensures Label(StatusName(s))[0] in "PCC"
  {
    var n := StatusName(s);
    var l := Label(n);
    assert forall k :: 0 <= k < |n| ==> IsAsciiLower(n[k]);
    assert Lower(l)[0] == n[0];
    assert forall k :: 1 <= k < |n| ==> Lower(l)[k] == n[k];
  }
}

=== FILE: reviews_sheet.dfy ===
/** src/components/ReviewsSheet.tsx: whether the signed-in user may review a
    provider, and submitting a review (its guards, the booking it is linked
    to, the alert on failure and the reset on success). Query answers are
    inputs; the rating row inserted is an output. */
module ReviewsSheet {
  import opened Text

  /** checkReviewEligibility. `completed` is the ids of the user's completed
      bookings with the provider and `existing` the user's ratings of them,
      each None when the query gave no data. Without a user nothing is
      decided (None). */
  function Eligibility(signedIn: bool, completed: Option<seq<string>>, existing: Option<seq<string>>): (r: Option<bool>)
    ensures r.None? <==> !signedIn
    ensures r == Some(true) <==>
              (signedIn && completed.Some? && |completed.value| > 0 && (existing.None? || |existing.value| == 0))
  {
    if !signedIn then None
    else if completed.None? || |completed.value| == 0 then Some(false)
    else Some(existing.None? || |existing.value| == 0)
  }

  /** Without a completed booking the user cannot review, whatever the
      ratings query would say; one existing rating is enough to refuse. */
  lemma ReviewNeedsCompletedBooking(completed: Option<seq<string>>, existing: Option<seq<string>>, ratingId: string)
    ensures (completed.None? || completed == Some([])) ==> Eligibility(true, completed, existing) == Some(false)
    ensures Eligibility(true, completed, Some([ratingId])) != Some(true)
  {
  }

  /** The review form. */
  datatype Form = Form(isWriting: bool, rating: int, text: string)

  const ResetForm := Form(false, 5, "")

  /** The lookup of a completed booking to link the review to. */
  datatype BookingLookup = LookupError(message: string) | NoBooking | Found(bookingId: string)

  datatype InsertReply = Inserted | InsertFailed(message: string)

  datatype RatingInsert = RatingInsert(providerId: string, clientId: string, bookingId: string, rating: int, review: string)

  /** What a submit did: the form afterwards, the row inserted, the alert
      shown, and whether the list and eligibility are reloaded. */
  datatype SubmitRun = SubmitRun(form: Form, insert: Option<RatingInsert>, alert: Option<string>, reloaded: bool)

  const NoBookingMessage := "You must complete a booking before " +
      "leaving a review"

  const AlertPrefix := "Failed to submit review: "
  const AlertSuffix := ". Please try again."

  /** `Failed to submit review: ${error?.message || 'Unknown error'}. Please try again.`
      The alert is framed by the fixed prefix and suffix, and the message,
      or "Unknown error" when it is empty, reads back from between them. */
  function FailureAlert(message: string): (a: string)
    ensures |AlertPrefix| + |AlertSuffix| <= |a|
    ensures StartsWith(a, AlertPrefix) && a[|a| - |AlertSuffix|..] == AlertSuffix
    ensures a[|AlertPrefix|..|a| - |AlertSuffix|] == (if message == "" then "Unknown error" else message)
  {
    var shown := if message == "" then "Unknown error" else message;
    ThreeParts(AlertPrefix, shown, AlertSuffix);
    AlertPrefix + shown + AlertSuffix
  }

  /** Different error messages give different alerts, so the alert always
      tells which error occurred; only the empty message and the literal
      "Unknown error" share one. */
  lemma FailureAlertInjective(m1: string, m2: string)
    requires m1 != "" && m2 != ""
    ensures FailureAlert(m1) == FailureAlert(m2) <==> m1 == m2
  {
  }

  /** handleSubmitReview. */
  function SubmitReview(f: Form, user: Option<string>, providerId: string, lookup: BookingLookup, reply: InsertReply): (r: SubmitRun)
    ensures user.None? || AllSpace(f.text) ==> r == SubmitRun(f, None, None, false)
    ensures r.insert.Some? <==> user.Some? && !AllSpace(f.text) && lookup.Found?
    ensures r.insert.Some? ==>
              r.insert.value == RatingInsert(providerId, user.value, lookup.bookingId, f.rating, Trim(f.text))
              && r.insert.value.review != ""
    ensures r.reloaded <==> r.insert.Some? && reply == Inserted
    ensures r.reloaded ==> r.form == ResetForm && r.alert.None?
    ensures !r.reloaded ==> r.form == f
    ensures user.Some? && !AllSpace(f.text) && lookup == NoBooking ==> r.alert == Some(FailureAlert(NoBookingMessage))
    ensures user.Some? && !AllSpace(f.text) && lookup.LookupError? ==>
              r.alert == Some(FailureAlert("Booking error: " + lookup.message))
  {
    TrimEmptyIff(f.text);
    if user.None? || Trim(f.text) == "" then SubmitRun(f, None, None, false)
    else
      match lookup
      case LookupError(m) => SubmitRun(f, None, Some(FailureAlert("Booking error: " + m)), false)
      case NoBooking => SubmitRun(f, None, Some(FailureAlert(NoBookingMessage)), false)
      case Found(id) =>
        var row := RatingInsert(providerId, user.value, id, f.rating, Trim(f.text));
        match reply
        case Inserted => SubmitRun(ResetForm, Some(row), None, true)
        case InsertFailed(m) => SubmitRun(f, Some(row), Some(FailureAlert(m)), false)
  }

  /** After a successful submit the reloaded eligibility refuses another
      review, since the user's own rating now exists. */
  lemma OneReviewPerProvider(f: Form, user: string, providerId: string, bookingId: string, completed: seq<string>, ratingId: string)
    requires !AllSpace(f.text)
    ensures var r := SubmitReview(f, Some(user), providerId, Found(bookingId), Inserted);
            r.reloaded && r.form == ResetForm && r.form.rating == 5 && r.form.text == "" && !r.form.isWriting
    ensures Eligibility(true, Some(completed), Some([ratingId])) == Some(false)
  {
  }
}

=== FILE: sorting.dfy ===
/** Sorting by a numeric key, largest first, as `Array.prototype.sort` does
    with a comparator `(a, b) => key(b) - key(a)`. The sort is an insertion
    sort over sequences; elements with equal keys keep their input order. */
module Sorting {

  predicate SortedDesc<T>(s: seq<T>, key: T -> int) {
    forall i, j :: 0 <= i < j < |s| ==> key(s[i]) >= key(s[j])
  }

  /** Inserts `x` into a list sorted largest first, before the first element
      whose key is not larger than its own. */
  function Insert<T>(x: T, s: seq<T>, key: T -> int): (r: seq<T>)
    requires SortedDesc(s, key)
    ensures |r| == |s| + 1
    ensures multiset(r) == multiset(s) + multiset{x}
    ensures SortedDesc(r, key)
    ensures |s| > 0 ==> r[0] == x || r[0] == s[0]
  {
    if |s| == 0 || key(x) >= key(s[0]) then [x] + s
    else
      var tail := Insert(x, s[1..], key);
      assert s == [s[0]] + s[1..];
      assert multiset([s[0]] + tail) == multiset{s[0]} + multiset(tail);
      ConsSorted(s[0], tail, key);
      [s[0]] + tail
  }

  /** A head no smaller than the first element keeps a sorted list sorted. */
  lemma ConsSorted<T>(h: T, t: seq<T>, key: T -> int)
    requires SortedDesc(t, key) && (|t| > 0 ==> key(h) >= key(t[0]))
    ensures SortedDesc([h] + t, key)
  {
    var r := [h] + t;
    forall i, j | 0 <= i < j < |r| ensures key(r[i]) >= key(r[j]) {
      if i == 0 {
        assert r[j] == t[j - 1];
      }
    }
  }

  /** The sorted list: a permutation of the input, largest key first. */
  function SortDesc<T>(s: seq<T>, key: T -> int): (r: seq<T>)
    ensures |r| == |s|
    ensures multiset(r) == multiset(s)
    ensures SortedDesc(r, key)
  {
    if |s| == 0 then []
    else
      assert s == [s[0]] + s[1..];
      Insert(s[0], SortDesc(s[1..], key), key)
  }

  /** Sorting keeps exactly the elements of the input. */
  lemma SortKeepsElements<T>(s: seq<T>, key: T -> int)
    ensures forall x :: x in SortDesc(s, key) <==> x in s
  {
    var r := SortDesc(s, key);
    forall x ensures x in r <==> x in s {
      assert x in r <==> x in multiset(r);
      assert x in s <==> x in multiset(s);
    }
  }

  /** A property every input element has holds for every sorted element. */
  lemma SortKeepsProperty<T>(s: seq<T>, key: T -> int, p: T -> bool)
    requires forall k :: 0 <= k < |s| ==> p(s[k])
    ensures forall k :: 0 <= k < |SortDesc(s, key)| ==> p(SortDesc(s, key)[k])
  {
    var r := SortDesc(s, key);
    forall k | 0 <= k < |r| ensures p(r[k]) {
      assert r[k] in multiset(r);
      assert r[k] in multiset(s);
      var j :| 0 <= j < |s| && s[j] == r[k];
    }
  }

  /** An input already sorted largest first comes back unchanged. */
  lemma {:induction false} SortSortedIsIdentity<T>(s: seq<T>, key: T -> int)
    requires SortedDesc(s, key)
    ensures SortDesc(s, key) == s
    decreases |s|
  {
    if |s| > 0 {
      assert SortedDesc(s[1..], key);
      SortSortedIsIdentity(s[1..], key);
    }
  }
}

=== FILE: text.dfy ===
/** Helpers shared by the whole model: an Option type, the ECMAScript
    whitespace set, String.prototype.trim, ASCII case mapping, substring
    search, `split(sep).pop()`, `join`, filtering, JavaScript's UTF-16 string
    length and decimal rendering of integers. Strings are sequences of
    Unicode scalar values. */
module Text {

  datatype Option<+T> = None | Some(value: T)

  // ---------------------------------------------------------------------------
  // Character classes
  // ---------------------------------------------------------------------------

  /** The ECMAScript WhiteSpace and LineTerminator code points: exactly the
      set matched by the regex class `\s` and removed by String.prototype.trim. */
  predicate IsSpace(c: char) {
    c == '\t' || c == '\n' || c == '\U{B}' || c == '\U{C}' || c == '\r' || c == ' '
    || c == '\U{A0}' || c == '\U{1680}' || ('\U{2000}' <= c <= '\U{200A}')
    || c == '\U{2028}' || c == '\U{2029}' || c == '\U{202F}' || c == '\U{205F}'
    || c == '\U{3000}' || c == '\U{FEFF}'
  }

  predicate IsAsciiLower(c: char) { 'a' <= c <= 'z' }
  predicate IsAsciiUpper(c: char) { 'A' <= c <= 'Z' }
  predicate IsAsciiLetter(c: char) { IsAsciiLower(c) || IsAsciiUpper(c) }
  predicate IsDigit(c: char) { '0' <= c <= '9' }

  /** The regex class `\w`. */
  predicate IsWordChar(c: char) { IsAsciiLetter(c) || IsDigit(c) || c == '_' }

  predicate AllSpace(s: string) {
    forall k :: 0 <= k < |s| ==> IsSpace(s[k])
  }

  predicate AllDigits(s: string) {
    forall k :: 0 <= k < |s| ==> IsDigit(s[k])
  }

  // ---------------------------------------------------------------------------
  // String.prototype.trim
  // ---------------------------------------------------------------------------

  /** Number of whitespace characters at the start of `s`. */
  function LeadingSpaces(s: string): (n: nat)
    ensures n <= |s|
    ensures forall k :: 0 <= k < n ==> IsSpace(s[k])
    ensures n < |s| ==> !IsSpace(s[n])
  {
    if |s| == 0 || !IsSpace(s[0]) then 0 else 1 + LeadingSpaces(s[1..])
  }

  /** Length of `s` once its trailing whitespace is removed. */
  function TrailingCut(s: string): (m: nat)
    ensures m <= |s|
    ensures forall k :: m <= k < |s| ==> IsSpace(s[k])
    ensures m > 0 ==> !IsSpace(s[m - 1])
  {
    if |s| == 0 || !IsSpace(s[|s| - 1]) then |s| else TrailingCut(s[..|s| - 1])
  }

  /** Where the trimmed text starts inside the original. */
  function TrimStart(s: string): nat {
    LeadingSpaces(s)
  }

  /** String.prototype.trim: the contiguous middle of `s` left once the
      leading and trailing whitespace is removed. */
  function Trim(s: string): (r: string)
    ensures TrimStart(s) + |r| <= |s|
    ensures r == s[TrimStart(s)..TrimStart(s) + |r|]
    ensures forall k :: 0 <= k < TrimStart(s) ==> IsSpace(s[k])
    ensures forall k :: TrimStart(s) + |r| <= k < |s| ==> IsSpace(s[k])
    ensures |r| > 0 ==> !IsSpace(r[0]) && !IsSpace(r[|r| - 1])
  {
    var rest := s[LeadingSpaces(s)..];
    rest[..TrailingCut(rest)]
  }

  /** Trimming leaves nothing exactly when the text is all whitespace. */
  lemma TrimEmptyIff(s: string)
    ensures Trim(s) == [] <==> AllSpace(s)
  {
    var t := Trim(s);
    if t != [] {
      var lo := TrimStart(s);
      assert s[lo] == t[0];
    }
  }

  /** Trimming twice is trimming once. */
  lemma TrimIdempotent(s: string)
    ensures Trim(Trim(s)) == Trim(s)
  {
    var t := Trim(s);
    if |t| > 0 {
      assert LeadingSpaces(t) == 0;
      assert TrailingCut(t) == |t|;
    }
  }

  /** A span running from a non-space character to a non-space character
      survives trimming. */
  lemma InsideTrim(s: string, a: int, b: int)
    requires 0 <= a < b <= |s| && !IsSpace(s[a]) && !IsSpace(s[b - 1])
    ensures TrimStart(s) <= a && b <= TrimStart(s) + |Trim(s)|
  {
  }

  /** Text inside the trimmed window reads the same in the trimmed string,
      shifted by the leading white space. */
  lemma InfixInTrim(s: string, p: string, a: int)
    requires IsInfixAt(s, p, a)
    requires TrimStart(s) <= a && a + |p| <= TrimStart(s) + |Trim(s)|
    ensures IsInfixAt(Trim(s), p, a - TrimStart(s))
  {
    var lo := TrimStart(s);
    assert Trim(s)[a - lo..a - lo + |p|] == s[a..a + |p|];
  }

  /** A run of characters satisfying `q` inside the trimmed window is a run
      in the trimmed string too. */
  lemma RunInTrim(s: string, a: int, b: int, q: char -> bool)
    requires TrimStart(s) <= a <= b <= TrimStart(s) + |Trim(s)|
    requires forall k :: a <= k < b ==> q(s[k])
    ensures forall k :: a - TrimStart(s) <= k < b - TrimStart(s) ==> q(Trim(s)[k])
  {
    var lo := TrimStart(s);
    forall k | a - lo <= k < b - lo ensures q(Trim(s)[k]) {
      assert Trim(s)[k] == s[lo + k];
    }
  }

  /** The first character of an occurrence is the pattern's first. */
  lemma InfixFirst(s: string, p: string, a: int)
    requires IsInfixAt(s, p, a) && |p| > 0
    ensures s[a] == p[0]
  {
    assert s[a..a + |p|][0] == s[a];
  }

  // ---------------------------------------------------------------------------
  // ASCII case mapping
  // ---------------------------------------------------------------------------

  function LowerChar(c: char): char {
    if IsAsciiUpper(c) then (c as int + 32) as char else c
  }

  function UpperChar(c: char): char {
    if IsAsciiLower(c) then (c as int - 32) as char else c
  }

  /** toLowerCase, restricted to ASCII letters. */
  function Lower(s: string): (r: string)
    ensures |r| == |s|
    ensures forall k :: 0 <= k < |s| ==> r[k] == LowerChar(s[k])
  {
    seq(|s|, k requires 0 <= k < |s| => LowerChar(s[k]))
  }

  // ---------------------------------------------------------------------------
  // Substrings
  // ---------------------------------------------------------------------------

  predicate StartsWith(s: string, p: string) {
    |p| <= |s| && s[..|p|] == p
  }

  /** String.prototype.includes. */
  predicate Contains(s: string, p: string) {
    exists i | 0 <= i <= |s| - |p| :: IsInfixAt(s, p, i)
  }

  /** `p` occurs in `s` starting at index `i`. */
  predicate IsInfixAt(s: string, p: string, i: int) {
    0 <= i && i + |p| <= |s| && s[i..i + |p|] == p
  }

  lemma ContainsEmpty(s: string)
    ensures Contains(s, "")
  {
    assert IsInfixAt(s, "", 0);
  }

  /** Case-insensitive (ASCII) `includes`, as `a.toLowerCase().includes(b.toLowerCase())`. */
  predicate ContainsIgnoreCase(s: string, p: string) {
    Contains(Lower(s), Lower(p))
  }

  lemma ContainsIgnoreCaseEmpty(s: string)
    ensures ContainsIgnoreCase(s, "")
  {
    ContainsEmpty(Lower(s));
  }

  /** `s.split(sep).pop()`: the text after the last `sep`, or all of `s`
      when `sep` does not occur. */
  function AfterLast(s: string, sep: char): (r: string)
    ensures |r| <= |s| && s[|s| - |r|..] == r
    ensures sep !in r
    ensures |r| == |s| || s[|s| - |r| - 1] == sep
  {
    if |s| == 0 then []
    else if s[|s| - 1] == sep then []
    else AfterLast(s[..|s| - 1], sep) + [s[|s| - 1]]
  }

  /** When `sep` does not occur, the whole text is returned. */
  lemma AfterLastNoSep(s: string, sep: char)
    requires sep !in s
    ensures AfterLast(s, sep) == s
  {
  }

  /** Array.prototype.join. */
  function Join(parts: seq<string>, sep: string): string {
    if |parts| == 0 then ""
    else if |parts| == 1 then parts[0]
    else parts[0] + sep + Join(parts[1..], sep)
  }

  /** The pieces of a three-part text are found at their offsets. */
  lemma ThreeParts(a: string, b: string, c: string)
    ensures StartsWith(a + b + c, a)
    ensures (a + b + c)[|a|..|a| + |b|] == b
    ensures (a + b + c)[|a| + |b|..] == c
  {
    var s := a + b + c;
    assert s[..|a|] == a;
  }

  /** The same text around two middles makes the middles equal. */
  lemma MiddleInjective(p: string, x: string, y: string, q: string)
    requires p + x + q == p + y + q
    ensures x == y
  {
    var a := p + x + q;
    assert |x| == |y|;
    assert x == a[|p|..|p| + |x|];
  }

  /** A joined list starts with its first part. */
  lemma JoinStartsWithFirst(parts: seq<string>, sep: string)
    requires parts != []
    ensures StartsWith(Join(parts, sep), parts[0])
  {
    if |parts| > 1 {
      var rest := sep + Join(parts[1..], sep);
      assert Join(parts, sep) == parts[0] + rest;
      assert (parts[0] + rest)[..|parts[0]|] == parts[0];
    }
  }

  // ---------------------------------------------------------------------------
  // String length as JavaScript counts it
  // ---------------------------------------------------------------------------

  /** String.prototype.length: the number of UTF-16 code units, so a
      character above U+FFFF (a surrogate pair) counts twice. */
  function Utf16Length(s: string): (n: nat)
    ensures |s| <= n <= 2 * |s|
    ensures (forall k :: 0 <= k < |s| ==> s[k] as int <= 0xFFFF) ==> n == |s|
  {
    if |s| == 0 then 0 else (if s[0] as int > 0xFFFF then 2 else 1) + Utf16Length(s[1..])
  }

  /** The length of a concatenation is the sum of the lengths. */
  lemma {:induction false} Utf16LengthAppend(a: string, b: string)
    ensures Utf16Length(a + b) == Utf16Length(a) + Utf16Length(b)
    decreases |a|
  {
    if |a| > 0 {
      assert (a + b)[1..] == a[1..] + b;
      Utf16LengthAppend(a[1..], b);
    } else {
      assert a + b == b;
    }
  }

  // ---------------------------------------------------------------------------
  // Decimal rendering
  // ---------------------------------------------------------------------------

  function DigitChar(d: nat): (c: char)
    requires d < 10
    ensures IsDigit(c)
  {
    ('0' as int + d) as char
  }

  function DigitValue(c: char): nat
    requires IsDigit(c)
  {
    c as int - '0' as int
  }

  /** Decimal text of a natural number, as JavaScript prints it. */
  function NatToString(n: nat): (r: string)
    ensures |r| > 0 && AllDigits(r)
  {
    if n < 10 then [DigitChar(n)] else NatToString(n / 10) + [DigitChar(n % 10)]
  }

  /** Decimal text of an integer, with a leading '-' when negative. */
  function IntToString(i: int): string {
    if i < 0 then "-" + NatToString(-i) else NatToString(i)
  }

  /** Value of a string of decimal digits. */
  function DigitsValue(s: string): nat
    requires AllDigits(s)
  {
    if |s| == 0 then 0 else DigitsValue(s[..|s| - 1]) * 10 + DigitValue(s[|s| - 1])
  }

  /** Reading back the rendered digits gives the number. */
  lemma {:induction false} NatToStringRoundTrip(n: nat)
    ensures DigitsValue(NatToString(n)) == n
  {
    if n >= 10 {
      NatToStringRoundTrip(n / 10);
      var r := NatToString(n);
      assert r[..|r| - 1] == NatToString(n / 10);
    }
  }

  // ---------------------------------------------------------------------------
  // Filtering and counting
  // ---------------------------------------------------------------------------

  /** `a` can be obtained from `b` by deleting elements, order kept. */
  predicate IsSubsequence<T(==)>(a: seq<T>, b: seq<T>)
    decreases |b|
  {
    |a| == 0 || (|b| > 0 && ((a[0] == b[0] && IsSubsequence(a[1..], b[1..])) || IsSubsequence(a, b[1..])))
  }

  /** Every sequence is a subsequence of itself. */
  lemma {:induction false} IsSubsequenceRefl<T>(s: seq<T>)
    ensures IsSubsequence(s, s)
    decreases |s|
  {
    if |s| > 0 {
      IsSubsequenceRefl(s[1..]);
    }
  }

  /** Number of elements satisfying `p`. */
  function Count<T>(s: seq<T>, p: T -> bool): (n: nat)
    ensures n <= |s|
    ensures n == 0 <==> forall k :: 0 <= k < |s| ==> !p(s[k])
  {
    if |s| == 0 then 0 else (if p(s[0]) then 1 else 0) + Count(s[1..], p)
  }

  /** Array.prototype.filter: the elements satisfying `p`, each as often as
      it occurs, in their order. */
  function Filter<T(==)>(s: seq<T>, p: T -> bool): (r: seq<T>)
    ensures |r| == Count(s, p)
    ensures forall k :: 0 <= k < |r| ==> r[k] in s && p(r[k])
    ensures forall k :: 0 <= k < |s| && p(s[k]) ==> s[k] in r
    ensures IsSubsequence(r, s)
  {
    if |s| == 0 then []
    else if p(s[0]) then [s[0]] + Filter(s[1..], p)
    else Filter(s[1..], p)
  }

  /** A subsequence made of elements satisfying `p` is no longer than the
      number of such elements. */
  lemma {:induction false} SubsequenceCountBound<T>(r: seq<T>, s: seq<T>, p: T -> bool)
    requires IsSubsequence(r, s)
    requires forall k :: 0 <= k < |r| ==> p(r[k])
    ensures |r| <= Count(s, p)
    decreases |s|
  {
    if |r| > 0 {
      if r[0] == s[0] && IsSubsequence(r[1..], s[1..]) {
        SubsequenceCountBound(r[1..], s[1..], p);
      } else {
        SubsequenceCountBound(r, s[1..], p);
      }
    }
  }

  /** Filter is the only subsequence made of elements satisfying `p` that
      keeps all of them: keeping the order and the count fixes the result. */
  lemma {:induction false} FilterUnique<T>(r: seq<T>, s: seq<T>, p: T -> bool)
    requires IsSubsequence(r, s)
    requires forall k :: 0 <= k < |r| ==> p(r[k])
    requires |r| == Count(s, p)
    ensures r == Filter(s, p)
    decreases |s|
  {
    if |s| > 0 {
      if p(s[0]) {
        if r[0] == s[0] && IsSubsequence(r[1..], s[1..]) {
          assert forall k :: 0 <= k < |r[1..]| ==> r[1..][k] == r[k + 1];
          FilterUnique(r[1..], s[1..], p);
          assert r == [r[0]] + r[1..];
        } else {
          SubsequenceCountBound(r, s[1..], p);
        }
      } else {
        FilterUnique(r, s[1..], p);
      }
    }
  }

  /** Elements satisfying `p` and elements satisfying `q`, when no element
      satisfies both, number at most the whole sequence. */
  lemma {:induction false} CountDisjoint<T>(s: seq<T>, p: T -> bool, q: T -> bool)
    requires forall k :: 0 <= k < |s| ==> !(p(s[k]) && q(s[k]))
    ensures Count(s, p) + Count(s, q) <= |s|
  {
    if |s| > 0 {
      CountDisjoint(s[1..], p, q);
    }
  }

  /** The test `x === v`. */
  function EqualTo<T(==)>(v: T): T -> bool {
    x => x == v
  }

  /** Counting the elements equal to `v` gives its multiplicity. */
  lemma {:induction false} CountEqualTo<T>(s: seq<T>, v: T)
    ensures Count(s, EqualTo(v)) == multiset(s)[v]
  {
    if |s| > 0 {
      CountEqualTo(s[1..], v);
      assert s == [s[0]] + s[1..];
      assert multiset(s) == multiset([s[0]]) + multiset(s[1..]);
    }
  }

  /** A non-empty sequence is its front followed by its last element. */
  lemma SplitLast<T>(s: seq<T>)
    requires |s| > 0
    ensures s[..|s| - 1] + [s[|s| - 1]] == s
  {
  }
}

=== FILE: tiktok.dfy ===
/** src/lib/tiktokHelpers.ts: recognising TikTok links, extracting the video
    id or short code, and building the embed URL. The two regular expressions
    are written out as hand-made matchers (`...MatchAt`) and, independently,
    as the shape of the text they accept (`...Shape`); lemmas connect the two. */
module TikTok {
  import opened Text

  const StdPrefix := "tiktok.com/@"
  const VideoPart := "/video/"
  const MobilePrefix := "vm.tiktok.com/"
  const EmbedPrefix := "https://www.tiktok.com/embed/v2/"

  /** The class `[\w.-]` of the handle in the standard link. */
  predicate IsHandleChar(c: char) { IsWordChar(c) || c == '.' || c == '-' }

  /** The class `[\w-]` of the short code in the mobile link. */
  predicate IsCodeChar(c: char) { IsWordChar(c) || c == '-' }

  /** Length of the longest run of characters satisfying `p` from index `i`. */
  function RunLength(s: string, i: nat, p: char -> bool): (n: nat)
    requires i <= |s|
    ensures i + n <= |s|
    ensures forall k :: i <= k < i + n ==> p(s[k])
    ensures i + n < |s| ==> !p(s[i + n])
    decreases |s| - i
  {
    if i == |s| || !p(s[i]) then 0 else 1 + RunLength(s, i + 1, p)
  }

  /** A run of `n` characters satisfying `p`, ended by the text's end or by a
      character outside `p`, is the longest run. */
  lemma RunLengthExact(s: string, i: nat, p: char -> bool, n: nat)
    requires i + n <= |s|
    requires forall k :: i <= k < i + n ==> p(s[k])
    requires i + n == |s| || !p(s[i + n])
    ensures RunLength(s, i, p) == n
  {
  }

  // ---------------------------------------------------------------------------
  // The standard link: /tiktok\.com\/@[\w.-]+\/video\/(\d+)/
  // ---------------------------------------------------------------------------

  /** The matcher: the prefix, the longest handle run (non-empty), "/video/"
      and at least one digit. Since '/' is not a handle character, the only
      handle length the regex can use is the longest run. */
  predicate StdMatchAt(s: string, i: nat) {
    i <= |s|
    && IsInfixAt(s, StdPrefix, i)
    && var h := RunLength(s, i + |StdPrefix|, IsHandleChar);
       h > 0
       && IsInfixAt(s, VideoPart, i + |StdPrefix| + h)
       && i + |StdPrefix| + h + |VideoPart| < |s|
       && IsDigit(s[i + |StdPrefix| + h + |VideoPart|])
  }

  /** The text the regex accepts at `i`: the prefix, `h >= 1` handle
      characters, "/video/" and `d >= 1` digits. */
  predicate StdShape(s: string, i: int, h: int, d: int) {
    0 <= i && h >= 1 && d >= 1
    && i + |StdPrefix| + h + |VideoPart| + d <= |s|
    && IsInfixAt(s, StdPrefix, i)
    && (forall k :: i + |StdPrefix| <= k < i + |StdPrefix| + h ==> IsHandleChar(s[k]))
    && IsInfixAt(s, VideoPart, i + |StdPrefix| + h)
    && (forall k :: i + |StdPrefix| + h + |VideoPart| <= k < i + |StdPrefix| + h + |VideoPart| + d ==> IsDigit(s[k]))
  }

  /** The matcher accepts at `i` exactly when some text of the regex's
      shape starts there. */
  lemma StdMatchIff(s: string, i: nat)
    ensures StdMatchAt(s, i) <==> exists h, d :: StdShape(s, i, h, d)
  {
    if StdMatchAt(s, i) {
      StdMatchShape(s, i);
    }
    if exists h, d :: StdShape(s, i, h, d) {
      var h, d :| StdShape(s, i, h, d);
      StdShapeMatch(s, i, h, d);
    }
  }

  /** A match has the shape, with the longest handle and one digit. */
  lemma StdMatchShape(s: string, i: nat)
    requires StdMatchAt(s, i)
    ensures StdShape(s, i, RunLength(s, i + |StdPrefix|, IsHandleChar), 1)
  {
  }

  /** Text of the shape is a match: the handle cannot run past the '/' of
      "/video/", so the longest handle run is exactly `h`. */
  lemma StdShapeMatch(s: string, i: nat, h: int, d: int)
    requires StdShape(s, i, h, d)
    ensures StdMatchAt(s, i)
  {
    var at := i + |StdPrefix| + h;
    InfixFirst(s, VideoPart, at);
    RunLengthExact(s, i + |StdPrefix|, IsHandleChar, h);
  }

  /** Where the captured digits start, for a match at `i`. */
  function StdIdStart(s: string, i: nat): (k: nat)
    requires StdMatchAt(s, i)
    ensures k < |s| && IsDigit(s[k])
  {
    i + |StdPrefix| + RunLength(s, i + |StdPrefix|, IsHandleChar) + |VideoPart|
  }

  /** The captured id of a match at `i`: the whole digit run after
      "/video/", since `\d+` is greedy. */
  function StdId(s: string, i: nat): (id: string)
    requires StdMatchAt(s, i)
    ensures |id| > 0 && AllDigits(id)
    ensures var k := StdIdStart(s, i);
            k + |id| <= |s| && id == s[k..k + |id|] && (k + |id| == |s| || !IsDigit(s[k + |id|]))
  {
    var k := StdIdStart(s, i);
    var id := s[k..k + RunLength(s, k, IsDigit)];
    assert forall j :: 0 <= j < |id| ==> id[j] == s[k + j];
    id
  }

  /** Leftmost match of the standard pattern at or after `from`. */
  function FindStd(s: string, from: nat): (r: Option<nat>)
    requires from <= |s|
    ensures r.Some? ==> from <= r.value <= |s| && StdMatchAt(s, r.value)
    ensures r.Some? ==> forall j :: from <= j < r.value ==> !StdMatchAt(s, j)
    ensures r.None? ==> forall j :: from <= j <= |s| ==> !StdMatchAt(s, j)
    decreases |s| - from
  {
    if StdMatchAt(s, from) then Some(from)
    else if from == |s| then None
    else FindStd(s, from + 1)
  }

  predicate ContainsStd(s: string) {
    exists i | 0 <= i <= |s| :: StdMatchAt(s, i)
  }

  // ---------------------------------------------------------------------------
  // The mobile link: /vm\.tiktok\.com\/([\w-]+)/
  // ---------------------------------------------------------------------------

  predicate MobileMatchAt(s: string, i: nat) {
    IsInfixAt(s, MobilePrefix, i)
    && i + |MobilePrefix| < |s|
    && IsCodeChar(s[i + |MobilePrefix|])
  }

  /** The text the regex accepts at `i`: the prefix and `c >= 1` code
      characters. */
  predicate MobileShape(s: string, i: int, c: int) {
    0 <= i && c >= 1 && i + |MobilePrefix| + c <= |s|
    && IsInfixAt(s, MobilePrefix, i)
    && forall k :: i + |MobilePrefix| <= k < i + |MobilePrefix| + c ==> IsCodeChar(s[k])
  }

  lemma MobileMatchIff(s: string, i: nat)
    ensures MobileMatchAt(s, i) <==> exists c :: MobileShape(s, i, c)
  {
    if MobileMatchAt(s, i) {
      assert MobileShape(s, i, 1);
    }
    if exists c :: MobileShape(s, i, c) {
      var c :| MobileShape(s, i, c);
      assert IsCodeChar(s[i + |MobilePrefix|]);
    }
  }

  function FindMobile(s: string, from: nat): (r: Option<nat>)
    requires from <= |s|
    ensures r.Some? ==> from <= r.value <= |s| && MobileMatchAt(s, r.value)
    ensures r.Some? ==> forall j :: from <= j < r.value ==> !MobileMatchAt(s, j)
    ensures r.None? ==> forall j :: from <= j <= |s| ==> !MobileMatchAt(s, j)
    decreases |s| - from
  {
    if MobileMatchAt(s, from) then Some(from)
    else if from == |s| then None
    else FindMobile(s, from + 1)
  }

  predicate ContainsMobile(s: string) {
    exists i | 0 <= i <= |s| :: MobileMatchAt(s, i)
  }

  /** The captured code of a mobile match at `i`: the whole run of code
      characters after the prefix. */
  function MobileCode(s: string, i: nat): (code: string)
    requires MobileMatchAt(s, i)
    ensures |code| > 0 && forall j :: 0 <= j < |code| ==> IsCodeChar(code[j])
    ensures var k := i + |MobilePrefix|;
            k + |code| <= |s| && code == s[k..k + |code|] && (k + |code| == |s| || !IsCodeChar(s[k + |code|]))
  {
    var k := i + |MobilePrefix|;
    var code := s[k..k + RunLength(s, k, IsCodeChar)];
    assert forall j :: 0 <= j < |code| ==> code[j] == s[k + j];
    code
  }

  // ---------------------------------------------------------------------------
  // The exported helpers
  // ---------------------------------------------------------------------------

  /** isTikTokUrl: a regex test on the untrimmed text. */
  predicate IsTikTokUrl(url: string) {
    ContainsStd(url) || ContainsMobile(url)
  }

  /** The matching part of extractTikTokVideoId, on already-trimmed text. */
  function MatchId(t: string): (r: Option<string>)
    ensures r.Some? ==> |r.value| > 0
    ensures r.None? <==> !ContainsStd(t) && !ContainsMobile(t)
  {
    match FindStd(t, 0)
    case Some(i) => Some(StdId(t, i))
    case None =>
      match FindMobile(t, 0)
      case Some(i) => Some(MobileCode(t, i))
      case None => None
  }

  /** extractTikTokVideoId: trims, then takes the digits of the leftmost
      standard link, else the code of the leftmost mobile link, else null. */
  function ExtractVideoId(url: string): (r: Option<string>)
    ensures r.Some? ==> |r.value| > 0
    ensures r.None? <==> !ContainsStd(Trim(url)) && !ContainsMobile(Trim(url))
  {
    MatchId(Trim(url))
  }

  /** A standard link wins over a mobile one, and its id is the one captured
      by the leftmost standard link. */
  lemma MatchStandardId(t: string)
    requires ContainsStd(t)
    ensures FindStd(t, 0).Some? && MatchId(t) == Some(StdId(t, FindStd(t, 0).value))
    ensures AllDigits(MatchId(t).value)
  {
    var w :| 0 <= w <= |t| && StdMatchAt(t, w);
  }

  /** Without a standard link, the code captured by the leftmost mobile link
      is returned. */
  lemma MatchMobileCode(t: string)
    requires !ContainsStd(t) && ContainsMobile(t)
    ensures FindMobile(t, 0).Some? && MatchId(t) == Some(MobileCode(t, FindMobile(t, 0).value))
  {
    var w :| 0 <= w <= |t| && MobileMatchAt(t, w);
  }

  /** A shape found in `s` inside the trimmed window is found in the trimmed
      text too, shifted by the number of leading spaces. */
  lemma StdShapeInTrim(s: string, i: int, h: int, d: int)
    requires StdShape(s, i, h, d)
    ensures StdShape(Trim(s), i - TrimStart(s), h, d)
  {
    var v := i + |StdPrefix| + h;
    var e := v + |VideoPart| + d;
    InfixFirst(s, StdPrefix, i);
    PrefixesStartSolid();
    assert IsDigit(s[e - 1]);
    InsideTrim(s, i, e);
    InfixInTrim(s, StdPrefix, i);
    InfixInTrim(s, VideoPart, v);
    RunInTrim(s, i + |StdPrefix|, v, IsHandleChar);
    RunInTrim(s, v + |VideoPart|, e, IsDigit);
  }

  lemma MobileShapeInTrim(s: string, i: int, c: int)
    requires MobileShape(s, i, c)
    ensures MobileShape(Trim(s), i - TrimStart(s), c)
  {
    var e := i + |MobilePrefix| + c;
    InfixFirst(s, MobilePrefix, i);
    PrefixesStartSolid();
    assert IsCodeChar(s[e - 1]);
    InsideTrim(s, i, e);
    InfixInTrim(s, MobilePrefix, i);
    RunInTrim(s, i + |MobilePrefix|, e, IsCodeChar);
  }

  /** Both links start with a letter, not white space. */
  lemma PrefixesStartSolid()
    ensures |StdPrefix| > 0 && !IsSpace(StdPrefix[0])
    ensures |MobilePrefix| > 0 && !IsSpace(MobilePrefix[0])
  {
  }

  /** Trimming cannot cut into a match: every URL isTikTokUrl accepts yields
      an id. */
  lemma TikTokUrlHasId(url: string)
    requires IsTikTokUrl(url)
    ensures ExtractVideoId(url).Some?
  {
    if ContainsStd(url) {
      StdSurvivesTrim(url);
    } else {
      MobileSurvivesTrim(url);
    }
  }

  lemma StdSurvivesTrim(url: string)
    requires ContainsStd(url)
    ensures ContainsStd(Trim(url))
  {
    var i :| 0 <= i <= |url| && StdMatchAt(url, i);
    var h := RunLength(url, i + |StdPrefix|, IsHandleChar);
    StdMatchShape(url, i);
    StdShapeInTrim(url, i, h, 1);
    StdShapeMatch(Trim(url), i - TrimStart(url), h, 1);
  }

  lemma MobileSurvivesTrim(url: string)
    requires ContainsMobile(url)
    ensures ContainsMobile(Trim(url))
  {
    var t := Trim(url);
    var i :| 0 <= i <= |url| && MobileMatchAt(url, i);
    MobileMatchIff(url, i);
    var c :| MobileShape(url, i, c);
    MobileShapeInTrim(url, i, c);
    MobileMatchIff(t, i - TrimStart(url));
    assert MobileMatchAt(t, i - TrimStart(url));
  }

  /** getTikTokEmbedUrl: both branches of the length test build the same URL. */
  function EmbedUrl(videoId: string): (r: string)
    ensures StartsWith(r, EmbedPrefix)
  {
    if |videoId| < 15 then EmbedPrefix + videoId
    else EmbedPrefix + videoId
  }

  /** The id can be read back from the embed URL, so distinct ids give
      distinct URLs. */
  lemma EmbedUrlRoundTrip(videoId: string)
    ensures EmbedUrl(videoId)[|EmbedPrefix|..] == videoId
    ensures |EmbedUrl(videoId)| == |EmbedPrefix| + |videoId|
  {
  }

  /** processTikTokUrl. */
  function ProcessTikTokUrl(url: string): (r: Option<string>)
    ensures r.None? <==> !IsTikTokUrl(url)
    ensures r.Some? ==> ExtractVideoId(url).Some? && r.value == EmbedUrl(ExtractVideoId(url).value)
  {
    if !IsTikTokUrl(url) then None
    else
      TikTokUrlHasId(url);
      match ExtractVideoId(url)
      case None => None
      case Some(id) => if id == "" then None else Some(EmbedUrl(id))
  }
}

=== FILE: update_app.dfy ===
/** update_app.py and update_app.js: the two scripts that patch App.tsx for
    the search modal. Each applies six rules in order. The Python script uses
    `re.sub`, which rewrites every occurrence; the JavaScript one uses
    `String.prototype.replace` with a string or a non-global pattern, which
    rewrites the first occurrence only. Reading and writing the file are left
    out: a script is a function from the file's text to the new text.

    In the anchors below '\n' stands for the patterns' `\r?\n`. Texts that
    are long are written as short pieces joined together. */
module UpdateApp {
  import opened Text
  import opened Patch

  // ---------------------------------------------------------------------------
  // Anchors and inserted code
  // ---------------------------------------------------------------------------

  const ImportOld := "import { Home, User, LogOut, Menu, " + "X, MessageSquare, Bell } " + "from 'lucide-react';"
  const ImportNew := "import { Home, User, LogOut, Menu, " + "X, MessageSquare, Bell, Search } " + "from 'lucide-react';"

  const MenuState := "  const [menuOpen, " + "setMenuOpen] = useState(false);"
  const ActiveBooking := "  const [activeBookingId"
  const SearchState := "  const [searchModalOpen, " + "setSearchModalOpen] = useState(false);"

  const ProfileHandler := "  useBackHandler(profileModalOpen, " + "() => setProfileModalOpen(false), " + "'profile-modal');"
  const ProviderHandler := "  useBackHandler(providerProfileOpen"
  const SearchHandler := "  useBackHandler(searchModalOpen, " + "() => setSearchModalOpen(false), " + "'search-modal');"

  const HomeButtonEnd := "                  <Home className=\"w-5 " +
      "h-5\" />\n" +
      "                </button>\n"
  const MessagesButtonStart := "                <button\n" +
      "                  onClick={() => " +
      "setCurrentView('messages')}"

  /** The header button that opens the search modal. Its `${` is part of the
      inserted JSX, not a substitution. */
  const SearchButton := "                <button\n" +
      "                  onClick={() => " +
      "setSearchModalOpen(true)}\n" +
      "                  className={`p-2 " +
      "rounded-full transition-colors " +
      "${currentView === 'feed'\n" +
      "                    ? 'text-white " +
      "hover:bg-white/20'\n" +
      "                    : 'text-gray-600 " +
      "hover:bg-gray-100'\n" +
      "                    }`}\n" +
      "                >\n" +
      "                  <Search " +
      "className=\"w-5 h-5\" />\n" +
      "                </button>\n"

  /** The search bar overlay that the scripts remove. */
  const Overlay := "            {user && (\n" +
      "              <div className=\"fixed " +
      "top-14 left-0 right-0 z-40 px-4 " +
      "pointer-events-none\">\n" +
      "                <div " +
      "className=\"max-w-md mx-auto " +
      "pointer-events-auto\">\n" +
      "                  <SearchBar\n" +
      "                    " +
      "onSearch={setSearchQuery}\n" +
      "                    " +
      "onCategoryFilter={setCategoryFilter}\n" +
      "                    " +
      "onLocationFilter={setLocationFilter}\n" +
      "                  />\n" +
      "                </div>\n" +
      "              </div>\n" +
      "            )}\n"

  /** The end of the provider profile page element, and the end of
      AppContent; the modal goes between them. */
  const ProfilePageClose := "        />\n      )}"
  const AppContentClose := "    </div>\n  );\n}"

  const ModalCode := "\n" +
      "      {searchModalOpen && (\n" +
      "        <SearchBar\n" +
      "          onSearch={setSearchQuery}\n" +
      "          " +
      "onCategoryFilter={setCategoryFilter}\n" +
      "          " +
      "onLocationFilter={setLocationFilter}\n" +
      "          onClose={() => " +
      "setSearchModalOpen(false)}\n" +
      "        />\n" +
      "      )}"

  // ---------------------------------------------------------------------------
  // The rules
  // ---------------------------------------------------------------------------

  /** One substitution: a pattern and its replacement. */
  datatype Rule = Rule(p: Pattern, rep: seq<Part>)

  /** Rule 1, the same in both scripts: add Search to the icon import. */
  const AddImport := Rule(Pattern([], Toks(ImportOld), []), [Text(ImportNew)])

  /** Rule 2 in Python: two groups around the line end, re-emitted around
      the new line, every line end written as CR LF. */
  const AddStatePy := Rule(Pattern(Toks(MenuState), Toks("\n"), Toks(ActiveBooking)),
                           [Group1, Text("\r\n" + SearchState + "\r\n"), Group2])

  /** Rule 2 in JavaScript: no groups; the replacement repeats the anchors. */
  const AddStateJs := Rule(Pattern([], Toks(MenuState + "\n" + ActiveBooking), []),
                           [Text(MenuState + "\r\n" + SearchState + "\r\n" + ActiveBooking)])

  /** Rule 3: the back handler, in the same two shapes as rule 2. */
  const AddHandlerPy := Rule(Pattern(Toks(ProfileHandler), Toks("\n"), Toks(ProviderHandler)),
                             [Group1, Text("\r\n" + SearchHandler + "\r\n"), Group2])

  const AddHandlerJs := Rule(Pattern([], Toks(ProfileHandler + "\n" + ProviderHandler), []),
                             [Text(ProfileHandler + "\r\n" + SearchHandler + "\r\n" + ProviderHandler)])

  /** Rule 4, the same in both scripts: the button between the Home button
      and the messages button. */
  const AddButton := Rule(Pattern(Toks(HomeButtonEnd), [], Toks(MessagesButtonStart)),
                          [Group1, Text(SearchButton), Group2])

  /** Rule 5, the same in both scripts: delete the overlay. */
  const RemoveOverlay := Rule(Pattern([], Toks(Overlay), []), [])

  const ModalPattern := Pattern(Toks(ProfilePageClose), Toks("\n"), Toks(AppContentClose))

  /** Rule 6 in update_app.py as written. The replacement
      `r'\1' + modal_code + '\r\n\2'` ends in a non-raw string, where `\2`
      is the character U+0002 rather than a reference to group 2. */
  const AddModalAsWritten := Rule(ModalPattern, [Group1, Text(ModalCode + "\r\n\U{2}")])

  /** Rule 6 as intended, and as update_app.js writes it
      (`$1${modalCode}\r\n$2`): group 2 follows the modal. */
  const AddModal := Rule(ModalPattern, [Group1, Text(ModalCode + "\r\n"), Group2])

  const PythonRulesAsWritten := [AddImport, AddStatePy, AddHandlerPy, AddButton, RemoveOverlay, AddModalAsWritten]
  const PythonRules := [AddImport, AddStatePy, AddHandlerPy, AddButton, RemoveOverlay, AddModal]
  const JsRules := [AddImport, AddStateJs, AddHandlerJs, AddButton, RemoveOverlay, AddModal]

  predicate Valid(rules: seq<Rule>) {
    forall k :: 0 <= k < |rules| ==> NonEmpty(rules[k].p)
  }

  lemma RulesValid()
    ensures Valid(PythonRulesAsWritten) && Valid(PythonRules) && Valid(JsRules)
  {
  }

  /** The rules applied in order, each with `re.sub`. */
  function ApplyAll(rules: seq<Rule>, s: string): string
    requires Valid(rules)
    decreases |rules|
  {
    if |rules| == 0 then s
    else ApplyAll(rules[1..], SubAll(s, rules[0].p, rules[0].rep))
  }

  /** The rules applied in order, each with `replace`. */
  function ApplyFirst(rules: seq<Rule>, s: string): string
    decreases |rules|
  {
    if |rules| == 0 then s
    else ApplyFirst(rules[1..], SubFirst(s, rules[0].p, rules[0].rep))
  }

  /** update_app.py as written. */
  function PythonScriptAsWritten(s: string): string {
    RulesValid();
    ApplyAll(PythonRulesAsWritten, s)
  }

  /** update_app.py with rule 6 corrected. */
  function PythonScript(s: string): string {
    RulesValid();
    ApplyAll(PythonRules, s)
  }

  /** update_app.js. */
  function JsScript(s: string): string {
    ApplyFirst(JsRules, s)
  }

  // ---------------------------------------------------------------------------
  // Files the scripts do not recognise
  // ---------------------------------------------------------------------------

  lemma {:induction false} AbsentRulesNoOp(rules: seq<Rule>, s: string)
    requires Valid(rules)
    requires forall k :: 0 <= k < |rules| ==> Absent(s, rules[k].p)
    ensures ApplyAll(rules, s) == s
    ensures ApplyFirst(rules, s) == s
    decreases |rules|
  {
    if |rules| > 0 {
      AbsentAnchorNoOp(s, rules[0].p, rules[0].rep);
      AbsentRulesNoOp(rules[1..], s);
    }
  }

  /** None of the Python script's anchors occurs in `s`. */
  predicate NoAnchor(s: string) {
    Absent(s, AddImport.p) && Absent(s, AddStatePy.p) && Absent(s, AddHandlerPy.p)
    && Absent(s, AddButton.p) && Absent(s, RemoveOverlay.p) && Absent(s, ModalPattern)
  }

  /** Where the split pattern is absent, so is the joined one. */
  lemma JoinedAbsent(s: string, a: string, b: string)
    requires Absent(s, Pattern(Toks(a), Toks("\n"), Toks(b)))
    ensures Absent(s, Pattern([], Toks(a + "\n" + b), []))
  {
    forall i | 0 <= i <= |s| ensures !MatchesAt(s, i, Pattern([], Toks(a + "\n" + b), [])) {
      assert !MatchesAt(s, i, Pattern(Toks(a), Toks("\n"), Toks(b)));
      JoinedMatchesLikeSplit(s, i, a, b);
    }
  }

  /** A file in which no anchor occurs comes out of every script unchanged. */
  lemma UnrecognisedFileUnchanged(s: string)
    requires NoAnchor(s)
    ensures PythonScriptAsWritten(s) == s
    ensures PythonScript(s) == s
    ensures JsScript(s) == s
  {
    RulesValid();
    JoinedAbsent(s, MenuState, ActiveBooking);
    JoinedAbsent(s, ProfileHandler, ProviderHandler);
    forall k | 0 <= k < 6
      ensures Absent(s, PythonRulesAsWritten[k].p) && Absent(s, PythonRules[k].p) && Absent(s, JsRules[k].p)
    {
      if k == 5 {
        assert PythonRulesAsWritten[k].p == ModalPattern && PythonRules[k].p == ModalPattern && JsRules[k].p == ModalPattern;
      }
    }
    AbsentRulesNoOp(PythonRulesAsWritten, s);
    AbsentRulesNoOp(PythonRules, s);
    AbsentRulesNoOp(JsRules, s);
  }

  // ---------------------------------------------------------------------------
  // Matches on a whole text
  // ---------------------------------------------------------------------------

  /** A pattern that is one literal text matches that text as a whole. */
  lemma LiteralWhole(t: string)
    ensures MatchAt(t, 0, Pattern([], Toks(t), [])) == Some(Match(0, 0, |t|, |t|))
  {
    assert t[0..|t|] == t;
    TextMatchesItself(t, 0, t);
  }

  /** Two groups with nothing between them match their concatenation. */
  lemma TwoGroupsWhole(a: string, b: string)
    ensures MatchAt(a + b, 0, Pattern(Toks(a), [], Toks(b))) == Some(Match(0, |a|, |a|, |a| + |b|))
  {
    var s := a + b;
    assert s[0..|a|] == a;
    TextMatchesItself(s, 0, a);
    assert s[|a|..|a| + |b|] == b;
    TextMatchesItself(s, |a|, b);
  }

  /** Two groups around a line end match with either ending. */
  lemma AroundLineEndWhole(a: string, e: string, b: string)
    requires e == "\n" || e == "\r\n"
    ensures MatchAt(a + e + b, 0, Pattern(Toks(a), Toks("\n"), Toks(b)))
            == Some(Match(0, |a|, |a| + |e|, |a| + |e| + |b|))
  {
    var s := a + e + b;
    assert s[0..|a|] == a;
    TextMatchesItself(s, 0, a);
    assert Toks("\n") == [Eol];
    EolMatchesBothEndings(s, |a|);
    if e == "\n" {
      assert s[|a|] == '\n';
    } else {
      assert s[|a|..|a| + 2] == "\r\n";
    }
    assert MatchTokens(s, |a| + |e|, []) == Some(|a| + |e|);
    assert MatchTokens(s, |a|, Toks("\n")) == Some(|a| + |e|);
    assert s[|a| + |e|..|a| + |e| + |b|] == b;
    TextMatchesItself(s, |a| + |e|, b);
  }

  // ---------------------------------------------------------------------------
  // Replacement texts
  // ---------------------------------------------------------------------------

  lemma ExpandBothGroups(s: string, m: Match, t: string)
    requires Within(s, m)
    ensures Expand([Group1, Text(t), Group2], s, m) == s[m.start..m.end1] + t + s[m.end2..m.end]
  {
    var rep := [Group1, Text(t), Group2];
    assert rep[1..] == [Text(t), Group2] && rep[1..][1..] == [Group2] && rep[1..][1..][1..] == [];
    assert Expand(rep[1..][1..], s, m) == s[m.end2..m.end];
    assert Expand(rep[1..], s, m) == t + s[m.end2..m.end];
  }

  lemma ExpandFirstGroup(s: string, m: Match, t: string)
    requires Within(s, m)
    ensures Expand([Group1, Text(t)], s, m) == s[m.start..m.end1] + t
  {
    var rep := [Group1, Text(t)];
    assert rep[1..] == [Text(t)] && rep[1..][1..] == [];
    assert Expand(rep[1..], s, m) == t;
  }

  lemma ExpandText(s: string, m: Match, t: string)
    requires Within(s, m)
    ensures Expand([Text(t)], s, m) == t
    ensures Expand([], s, m) == ""
  {
    assert [Text(t)][1..] == [];
  }

  // ---------------------------------------------------------------------------
  // The shapes of the rules, on their anchor alone
  // ---------------------------------------------------------------------------

  /** A literal pattern replaced as a whole. */
  lemma ReplacedWhole(t: string, r: string)
    requires |t| > 0
    ensures SubAll(t, Pattern([], Toks(t), []), [Text(r)]) == r
    ensures SubFirst(t, Pattern([], Toks(t), []), [Text(r)]) == r
    ensures SubAll(t, Pattern([], Toks(t), []), []) == ""
    ensures SubFirst(t, Pattern([], Toks(t), []), []) == ""
  {
    var m := Match(0, 0, |t|, |t|);
    LiteralWhole(t);
    WholeTextMatch(t, Pattern([], Toks(t), []), [Text(r)], m);
    WholeTextMatch(t, Pattern([], Toks(t), []), [], m);
    ExpandText(t, m, r);
  }

  /** Two adjacent groups with text put between them. */
  lemma InsertedBetween(a: string, b: string, t: string)
    requires |a| + |b| > 0
    ensures SubAll(a + b, Pattern(Toks(a), [], Toks(b)), [Group1, Text(t), Group2]) == a + t + b
    ensures SubFirst(a + b, Pattern(Toks(a), [], Toks(b)), [Group1, Text(t), Group2]) == a + t + b
  {
    var s := a + b;
    var m := Match(0, |a|, |a|, |s|);
    TwoGroupsWhole(a, b);
    WholeTextMatch(s, Pattern(Toks(a), [], Toks(b)), [Group1, Text(t), Group2], m);
    ExpandBothGroups(s, m, t);
    assert s[0..|a|] == a && s[|a|..|s|] == b;
  }

  /** Two groups around a line end, with the line end replaced by text. */
  lemma LineEndReplaced(a: string, e: string, b: string, t: string)
    requires e == "\n" || e == "\r\n"
    requires |a| > 0
    ensures SubAll(a + e + b, Pattern(Toks(a), Toks("\n"), Toks(b)), [Group1, Text(t), Group2]) == a + t + b
    ensures SubFirst(a + e + b, Pattern(Toks(a), Toks("\n"), Toks(b)), [Group1, Text(t), Group2]) == a + t + b
  {
    var s := a + e + b;
    var m := Match(0, |a|, |a| + |e|, |s|);
    AroundLineEndWhole(a, e, b);
    WholeTextMatch(s, Pattern(Toks(a), Toks("\n"), Toks(b)), [Group1, Text(t), Group2], m);
    ExpandBothGroups(s, m, t);
    assert s[0..|a|] == a && s[|a| + |e|..|s|] == b;
  }

  /** The Python form of rules 2 and 3: a new line between two lines, with
      CR LF after each, whichever ending the file had. */
  lemma LineInserted(a: string, e: string, b: string, line: string)
    requires e == "\n" || e == "\r\n"
    requires |a| > 0
    ensures SubAll(a + e + b, Pattern(Toks(a), Toks("\n"), Toks(b)), [Group1, Text("\r\n" + line + "\r\n"), Group2])
            == a + "\r\n" + line + "\r\n" + b
  {
    LineEndReplaced(a, e, b, "\r\n" + line + "\r\n");
    assert a + ("\r\n" + line + "\r\n") + b == a + "\r\n" + line + "\r\n" + b;
  }

  /** Two groups around a line end, with only the first group re-emitted. */
  lemma SecondGroupDropped(a: string, e: string, b: string, t: string)
    requires e == "\n" || e == "\r\n"
    requires |a| > 0
    ensures SubAll(a + e + b, Pattern(Toks(a), Toks("\n"), Toks(b)), [Group1, Text(t)]) == a + t
  {
    var s := a + e + b;
    var m := Match(0, |a|, |a| + |e|, |s|);
    AroundLineEndWhole(a, e, b);
    WholeTextMatch(s, Pattern(Toks(a), Toks("\n"), Toks(b)), [Group1, Text(t)], m);
    ExpandFirstGroup(s, m, t);
    assert s[0..|a|] == a;
  }

  /** The joined pattern over a line end, replaced as a whole. */
  lemma JoinedReplaced(a: string, e: string, b: string, r: string)
    requires e == "\n" || e == "\r\n"
    ensures SubFirst(a + e + b, Pattern([], Toks(a + "\n" + b), []), [Text(r)]) == r
  {
    var s := a + e + b;
    AroundLineEndWhole(a, e, b);
    JoinedMatchesLikeSplit(s, 0, a, b);
    var m := Match(0, 0, |s|, |s|);
    WholeTextMatch(s, Pattern([], Toks(a + "\n" + b), []), [Text(r)], m);
    ExpandText(s, m, r);
  }

  // ---------------------------------------------------------------------------
  // What each rule does to its anchor
  // ---------------------------------------------------------------------------

  /** Rule 1 rewrites the import line. */
  lemma ImportGainsSearch()
    ensures SubAll(ImportOld, AddImport.p, AddImport.rep) == ImportNew
    ensures SubFirst(ImportOld, AddImport.p, AddImport.rep) == ImportNew
  {
    ReplacedWhole(ImportOld, ImportNew);
  }

  /** Rule 2 in either script: the new state line goes between the two
      lines, and both line ends become CR LF whichever the file had. */
  lemma StateLineAdded(e: string)
    requires e == "\n" || e == "\r\n"
    ensures var s := MenuState + e + ActiveBooking;
            var r := MenuState + "\r\n" + SearchState + "\r\n" + ActiveBooking;
            SubAll(s, AddStatePy.p, AddStatePy.rep) == r && SubFirst(s, AddStateJs.p, AddStateJs.rep) == r
  {
    LineInserted(MenuState, e, ActiveBooking, SearchState);
    JoinedReplaced(MenuState, e, ActiveBooking, MenuState + "\r\n" + SearchState + "\r\n" + ActiveBooking);
  }

  /** Rule 3 in either script, in the same way. */
  lemma HandlerLineAdded(e: string)
    requires e == "\n" || e == "\r\n"
    ensures var s := ProfileHandler + e + ProviderHandler;
            var r := ProfileHandler + "\r\n" + SearchHandler + "\r\n" + ProviderHandler;
            SubAll(s, AddHandlerPy.p, AddHandlerPy.rep) == r && SubFirst(s, AddHandlerJs.p, AddHandlerJs.rep) == r
  {
    LineInserted(ProfileHandler, e, ProviderHandler, SearchHandler);
    JoinedReplaced(ProfileHandler, e, ProviderHandler, ProfileHandler + "\r\n" + SearchHandler + "\r\n" + ProviderHandler);
  }

  /** Rule 4 keeps both buttons and puts the search button between them. */
  lemma ButtonInserted()
    ensures var s := HomeButtonEnd + MessagesButtonStart;
            var r := HomeButtonEnd + SearchButton + MessagesButtonStart;
            SubAll(s, AddButton.p, AddButton.rep) == r && SubFirst(s, AddButton.p, AddButton.rep) == r
  {
    InsertedBetween(HomeButtonEnd, MessagesButtonStart, SearchButton);
  }

  /** Rule 5 deletes the overlay. */
  lemma OverlayRemoved()
    ensures SubAll(Overlay, RemoveOverlay.p, RemoveOverlay.rep) == ""
    ensures SubFirst(Overlay, RemoveOverlay.p, RemoveOverlay.rep) == ""
  {
    ReplacedWhole(Overlay, "");
  }

  /** Rule 6 as written: the modal is inserted, but the closing lines of
      AppContent are replaced by a U+0002 character. */
  lemma ModalDropsClosingAsWritten(e: string)
    requires e == "\n" || e == "\r\n"
    ensures var r := SubAll(ProfilePageClose + e + AppContentClose, AddModalAsWritten.p, AddModalAsWritten.rep);
            r == ProfilePageClose + ModalCode + "\r\n\U{2}"
            && r[|r| - 1] == '\U{2}'
            && r != ProfilePageClose + ModalCode + "\r\n" + AppContentClose
  {
    SecondGroupDropped(ProfilePageClose, e, AppContentClose, ModalCode + "\r\n\U{2}");
    assert |AppContentClose| > 1;
  }

  /** Rule 6 corrected, and in JavaScript: the modal goes between the two
      anchors, which both survive. */
  lemma ModalInserted(e: string)
    requires e == "\n" || e == "\r\n"
    ensures var s := ProfilePageClose + e + AppContentClose;
            var r := ProfilePageClose + ModalCode + "\r\n" + AppContentClose;
            SubAll(s, AddModal.p, AddModal.rep) == r && SubFirst(s, AddModal.p, AddModal.rep) == r
  {
    LineEndReplaced(ProfilePageClose, e, AppContentClose, ModalCode + "\r\n");
  }

  // ---------------------------------------------------------------------------
  // The two scripts agree when every anchor occurs once at most
  // ---------------------------------------------------------------------------

  /** Matching literal text without line ends reads back that text. */
  lemma {:induction false} LiteralMatchText(s: string, i: nat, t: string)
    requires i <= |s| && '\n' !in t
    requires MatchTokens(s, i, Toks(t)).Some?
    ensures MatchTokens(s, i, Toks(t)) == Some(i + |t|)
    ensures s[i..i + |t|] == t
    decreases |t|
  {
    if |t| > 0 {
      assert Toks(t)[0] == Lit(t[0]);
      assert Toks(t)[1..] == Toks(t[1..]);
      assert '\n' !in t[1..] by {
        forall k | 0 <= k < |t[1..]| ensures t[1..][k] != '\n' {
          assert t[1..][k] == t[k + 1];
        }
      }
      LiteralMatchText(s, i + 1, t[1..]);
      assert s[i..i + |t|] == [s[i]] + s[i + 1..i + |t|];
    }
  }

  /** The joined pattern of the JavaScript script matches exactly where the
      split pattern of the Python script does, over the same text. */
  lemma JoinedMatchesLikeSplit(s: string, i: nat, a: string, b: string)
    requires i <= |s|
    ensures var split := MatchAt(s, i, Pattern(Toks(a), Toks("\n"), Toks(b)));
            var joined := MatchAt(s, i, Pattern([], Toks(a + "\n" + b), []));
            (split.Some? <==> joined.Some?)
            && (split.Some? ==> joined.value == Match(i, i, split.value.end, split.value.end))
  {
    ToksAppend(a, "\n");
    ToksAppend(a + "\n", b);
    MatchTokensAppend(s, i, Toks(a) + Toks("\n"), Toks(b));
    MatchTokensAppend(s, i, Toks(a), Toks("\n"));
  }

  /** The leftmost match of the two patterns is at the same place. */
  lemma {:induction false} SameFirstMatch(s: string, i: nat, a: string, b: string)
    requires i <= |s|
    ensures var split := FirstMatch(s, i, Pattern(Toks(a), Toks("\n"), Toks(b)));
            var joined := FirstMatch(s, i, Pattern([], Toks(a + "\n" + b), []));
            (split.Some? <==> joined.Some?)
            && (split.Some? ==> joined.value == Match(split.value.start, split.value.start, split.value.end, split.value.end))
    decreases |s| - i
  {
    JoinedMatchesLikeSplit(s, i, a, b);
    if MatchAt(s, i, Pattern(Toks(a), Toks("\n"), Toks(b))).None? && i < |s| {
      SameFirstMatch(s, i + 1, a, b);
    }
  }

  /** Rules 2 and 3: on a file where the anchor occurs once at most, the
      Python rule and the JavaScript rule give the same text. */
  lemma SplitAndJoinedAgree(s: string, a: string, b: string, t: string)
    requires |a| > 0 && '\n' !in a && '\n' !in b
    requires AtMostOnce(s, Pattern(Toks(a), Toks("\n"), Toks(b)))
    ensures SubAll(s, Pattern(Toks(a), Toks("\n"), Toks(b)), [Group1, Text(t), Group2])
            == SubFirst(s, Pattern([], Toks(a + "\n" + b), []), [Text(a + t + b)])
  {
    var p1 := Pattern(Toks(a), Toks("\n"), Toks(b));
    var p2 := Pattern([], Toks(a + "\n" + b), []);
    var rep1 := [Group1, Text(t), Group2];
    var rep2 := [Text(a + t + b)];
    SingleMatchAgrees(s, p1, rep1);
    SameFirstMatch(s, 0, a, b);
    var first := FirstMatch(s, 0, p1);
    if first.Some? {
      var m := first.value;
      GroupsAreAnchors(s, a, b, m);
      ExpandBothGroups(s, m, t);
      ExpandText(s, Match(m.start, m.start, m.end, m.end), a + t + b);
    }
    SameReplacement(s, p1, rep1, p2, rep2);
  }

  /** The two groups of a split-pattern match are its two anchors. */
  lemma GroupsAreAnchors(s: string, a: string, b: string, m: Match)
    requires '\n' !in a && '\n' !in b && m.start <= |s|
    requires MatchAt(s, m.start, Pattern(Toks(a), Toks("\n"), Toks(b))) == Some(m)
    ensures s[m.start..m.end1] == a && s[m.end2..m.end] == b
  {
    LiteralMatchText(s, m.start, a);
    LiteralMatchText(s, m.end2, b);
  }

  /** The anchors of rules 2 and 3 are single lines. */
  lemma StateAnchorsAreLines()
    ensures '\n' !in MenuState && '\n' !in ActiveBooking
  {
  }

  lemma ProfileHandlerIsLine()
    ensures '\n' !in ProfileHandler
  {
  }

  lemma ProviderHandlerIsLine()
    ensures '\n' !in ProviderHandler
  {
  }

  /** Rule 2 in the two scripts, on a file where its anchor occurs once at
      most. */
  lemma StateRulesAgree(s: string)
    requires AtMostOnce(s, AddStatePy.p)
    ensures SubAll(s, AddStatePy.p, AddStatePy.rep) == SubFirst(s, AddStateJs.p, AddStateJs.rep)
  {
    StateAnchorsAreLines();
    var t := "\r\n" + SearchState + "\r\n";
    assert MenuState + t + ActiveBooking == MenuState + "\r\n" + SearchState + "\r\n" + ActiveBooking;
    SplitAndJoinedAgree(s, MenuState, ActiveBooking, t);
  }

  /** Rule 3 in the two scripts, on a file where its anchor occurs once at
      most. */
  lemma HandlerRulesAgree(s: string)
    requires AtMostOnce(s, AddHandlerPy.p)
    ensures SubAll(s, AddHandlerPy.p, AddHandlerPy.rep) == SubFirst(s, AddHandlerJs.p, AddHandlerJs.rep)
  {
    ProfileHandlerIsLine();
    ProviderHandlerIsLine();
    var t := "\r\n" + SearchHandler + "\r\n";
    assert ProfileHandler + t + ProviderHandler == ProfileHandler + "\r\n" + SearchHandler + "\r\n" + ProviderHandler;
    SplitAndJoinedAgree(s, ProfileHandler, ProviderHandler, t);
  }

  /** The rule at step `k` of the corrected Python script and of the
      JavaScript script give the same text on a file where that rule's
      anchor occurs once at most. */
  lemma RuleAgrees(k: nat, s: string)
    requires k < 6
    requires AtMostOnce(s, PythonRules[k].p)
    ensures SubAll(s, PythonRules[k].p, PythonRules[k].rep) == SubFirst(s, JsRules[k].p, JsRules[k].rep)
  {
    RulesValid();
    if k == 1 {
      StateRulesAgree(s);
    } else if k == 2 {
      HandlerRulesAgree(s);
    } else {
      assert PythonRules[k] == JsRules[k];
      SingleMatchAgrees(s, PythonRules[k].p, PythonRules[k].rep);
    }
  }

  /** Each anchor occurs once at most in the text the Python script hands to
      its rule. */
  predicate OnceEach(rules: seq<Rule>, s: string)
    requires Valid(rules)
    decreases |rules|
  {
    |rules| == 0
    || (AtMostOnce(s, rules[0].p) && OnceEach(rules[1..], SubAll(s, rules[0].p, rules[0].rep)))
  }

  lemma {:induction false} AgreeFrom(i: nat, s: string)
    requires i <= 6
    requires Valid(PythonRules[i..]) && OnceEach(PythonRules[i..], s)
    ensures ApplyAll(PythonRules[i..], s) == ApplyFirst(JsRules[i..], s)
    decreases 6 - i
  {
    if i < 6 {
      assert PythonRules[i..][0] == PythonRules[i] && PythonRules[i..][1..] == PythonRules[i + 1..];
      assert JsRules[i..][0] == JsRules[i] && JsRules[i..][1..] == JsRules[i + 1..];
      RuleAgrees(i, s);
      AgreeFrom(i + 1, SubAll(s, PythonRules[i].p, PythonRules[i].rep));
    }
  }

  /** The corrected Python script and the JavaScript script produce the same
      file whenever no rule's anchor occurs twice. */
  lemma ScriptsAgree(s: string)
    requires Valid(PythonRules) && OnceEach(PythonRules, s)
    ensures PythonScript(s) == JsScript(s)
  {
    assert PythonRules[0..] == PythonRules && JsRules[0..] == JsRules;
    AgreeFrom(0, s);
  }
}

=== FILE: upload.dfy ===
/** src/lib/uploadHelpers.ts: size and type validation, storage file names,
    and the three upload functions (video, avatar, portfolio image). The clock
    and the random string are parameters; the storage service's answer is an
    input, and the request the function would send is part of the result. */
module Upload {
  import opened Text

  const MiB: nat := 1024 * 1024
  /** The limits, in whole mebibytes, as the error text prints them. */
  const VideoLimitMb: nat := 50
  const AvatarLimitMb: nat := 2
  const MaxVideoSize: nat := VideoLimitMb * MiB
  const MaxAvatarSize: nat := AvatarLimitMb * MiB

  const AllowedVideoTypes: seq<string> := ["video/mp4", "video/webm", "video/quicktime"]
  const AllowedImageTypes: seq<string> := ["image/jpeg", "image/png", "image/webp", "image/jpg"]

  datatype FileInfo = FileInfo(name: string, size: nat, mimeType: string)

  datatype Validation = Valid | Invalid(error: string)

  function SizeError(limitMb: nat): string {
    "File size exceeds " + NatToString(limitMb) + "MB limit"
  }

  function TypeError(mimeType: string): string {
    "File type " + mimeType + " is not supported"
  }

  /** validateFile. The limit is given in mebibytes, so `maxSize / (1024 * 1024)`
      in the message is the whole number `limitMb`. */
  function ValidateFile(f: FileInfo, limitMb: nat, allowed: seq<string>): (r: Validation)
    ensures r.Valid? <==> f.size <= limitMb * MiB && f.mimeType in allowed
    ensures f.size > limitMb * MiB ==> r == Invalid(SizeError(limitMb))
    ensures f.size <= limitMb * MiB && f.mimeType !in allowed ==> r == Invalid(TypeError(f.mimeType))
  {
    if f.size > limitMb * MiB then Invalid(SizeError(limitMb))
    else if f.mimeType !in allowed then Invalid(TypeError(f.mimeType))
    else Valid
  }

  /** The size test comes first: an oversized file of an unsupported type is
      reported as oversized, and a file exactly at the limit passes the size
      test. */
  lemma SizeCheckedFirst(f: FileInfo, limitMb: nat, allowed: seq<string>)
    ensures f.size > limitMb * MiB && f.mimeType !in allowed ==>
              ValidateFile(f, limitMb, allowed) == Invalid(SizeError(limitMb))
    ensures f.size == limitMb * MiB && f.mimeType in allowed ==> ValidateFile(f, limitMb, allowed) == Valid
  {
  }

  /** The limits and their messages. */
  lemma Limits()
    ensures MaxVideoSize == 52428800 && MaxAvatarSize == 2097152
    ensures SizeError(VideoLimitMb) == "File size exceeds 50MB limit"
    ensures SizeError(AvatarLimitMb) == "File size exceeds 2MB limit"
  {
    assert NatToString(50) == "50";
    assert NatToString(2) == "2";
  }

  // ---------------------------------------------------------------------------
  // File names
  // ---------------------------------------------------------------------------

  /** `originalName.split('.').pop()`: the text after the last '.', or the
      whole name when it has none. */
  function Extension(originalName: string): string {
    AfterLast(originalName, '.')
  }

  /** generateFileName. `timestamp` is `Date.now()`, `random` the base-36
      string cut from `Math.random()`. */
  function GenerateFileName(userId: string, timestamp: nat, random: string, originalName: string): string {
    userId + "/" + NatToString(timestamp) + "_" + random + "." + Extension(originalName)
  }

  /** The text after the last `sep` of `a + [sep] + b` is `b` when `b` holds
      no `sep`. */
  lemma {:induction false} AfterLastAppend(a: string, sep: char, b: string)
    requires sep !in b
    ensures AfterLast(a + [sep] + b, sep) == b
    decreases |b|
  {
    if |b| > 0 {
      var s := a + [sep] + b;
      assert s[..|s| - 1] == a + [sep] + b[..|b| - 1];
      AfterLastAppend(a, sep, b[..|b| - 1]);
    } else {
      assert a + [sep] + b == a + [sep];
    }
  }

  /** The generated name starts with the user's folder, and the timestamp
      reads back from the digits that follow it. */
  lemma FileNameFolderAndTime(userId: string, timestamp: nat, random: string, originalName: string)
    ensures var n := GenerateFileName(userId, timestamp, random, originalName);
            var ts := NatToString(timestamp);
            var start := |userId| + 1;
            StartsWith(n, userId + "/")
            && start + |ts| <= |n|
            && n[start..start + |ts|] == ts
            && DigitsValue(ts) == timestamp
  {
    var ts := NatToString(timestamp);
    var rest := "_" + random + "." + Extension(originalName);
    FileNameLayout(userId, timestamp, random, originalName);
    FolderThenText(GenerateFileName(userId, timestamp, random, originalName), userId, ts, rest);
    NatToStringRoundTrip(timestamp);
  }

  /** In `userId + "/" + t + rest`, the folder comes first and `t` follows
      the slash. */
  lemma FolderThenText(n: string, userId: string, t: string, rest: string)
    requires n == (userId + "/") + t + rest
    ensures StartsWith(n, userId + "/")
    ensures |userId| + 1 + |t| <= |n| && n[|userId| + 1..|userId| + 1 + |t|] == t
  {
    ThreeParts(userId + "/", t, rest);
  }

  /** The generated name is the folder, the timestamp and the rest, in order. */
  lemma FileNameLayout(userId: string, timestamp: nat, random: string, originalName: string)
    ensures GenerateFileName(userId, timestamp, random, originalName)
            == (userId + "/") + NatToString(timestamp) + ("_" + random + "." + Extension(originalName))
  {
    Regroup(userId, "/", NatToString(timestamp), "_", random, ".", Extension(originalName));
  }

  lemma Regroup(a: string, b: string, c: string, d: string, e: string, f: string, g: string)
    ensures a + b + c + d + e + f + g == (a + b) + c + (d + e + f + g)
  {
  }

  /** The generated name keeps the original file's extension. */
  lemma FileNameExtension(userId: string, timestamp: nat, random: string, originalName: string)
    ensures AfterLast(GenerateFileName(userId, timestamp, random, originalName), '.') == Extension(originalName)
  {
    var ext := Extension(originalName);
    var front := userId + "/" + NatToString(timestamp) + "_" + random;
    assert GenerateFileName(userId, timestamp, random, originalName) == front + ['.'] + ext;
    AfterLastAppend(front, '.', ext);
  }

  // ---------------------------------------------------------------------------
  // Upload functions
  // ---------------------------------------------------------------------------

  datatype Bucket = Videos | Avatars | Portfolio

  /** What the storage service answered to an upload request. */
  datatype StorageReply = Stored(publicUrl: string) | StorageError(message: string)

  /** The request sent to storage. */
  datatype StorageRequest = StorageRequest(bucket: Bucket, path: string)

  /** The promise's outcome: the public URL, or the thrown message. */
  datatype Outcome = Uploaded(publicUrl: string) | Thrown(message: string)

  /** The run: its outcome, the storage request it sent (if any), and the
      values it passed to the `onProgress` callback, in order. Without a
      callback nothing is delivered; `progress` lists what a supplied one
      receives. */
  datatype UploadRun = UploadRun(outcome: Outcome, request: Option<StorageRequest>, progress: seq<nat>)

  const StorageFailurePrefix := "Upload failed: "

  /** The shared body of uploadVideo, uploadAvatar and uploadPortfolioImage. */
  function UploadTo(
    bucket: Bucket, limitMb: nat, allowed: seq<string>, f: FileInfo, userId: string,
    timestamp: nat, random: string, reply: StorageReply): (r: UploadRun)
    ensures ValidateFile(f, limitMb, allowed).Invalid? ==>
              r.request.None? && r.outcome == Thrown(ValidateFile(f, limitMb, allowed).error)
    ensures ValidateFile(f, limitMb, allowed).Valid? ==>
              r.request == Some(StorageRequest(bucket, GenerateFileName(userId, timestamp, random, f.name)))
    ensures ValidateFile(f, limitMb, allowed).Valid? && reply.Stored? ==> r.outcome == Uploaded(reply.publicUrl)
    ensures ValidateFile(f, limitMb, allowed).Valid? && reply.StorageError? ==>
              r.outcome == Thrown(StorageFailurePrefix + reply.message)
    ensures r.outcome.Uploaded? <==> ValidateFile(f, limitMb, allowed).Valid? && reply.Stored?
    ensures r.progress == (if r.outcome.Uploaded? then [100] else [])
  {
    match ValidateFile(f, limitMb, allowed)
    case Invalid(e) => UploadRun(Thrown(e), None, [])
    case Valid =>
      var req := Some(StorageRequest(bucket, GenerateFileName(userId, timestamp, random, f.name)));
      match reply
      case Stored(url) => UploadRun(Uploaded(url), req, [100])
      case StorageError(m) => UploadRun(Thrown("Upload failed: " + m), req, [])
  }

  /** A thrown message tells the two failures apart: it starts with
      "Upload failed: " exactly when the file passed validation and storage
      refused it; a validation message starts with "File ". */
  lemma ThrownMessageTellsCause(
    bucket: Bucket, limitMb: nat, allowed: seq<string>, f: FileInfo, userId: string,
    timestamp: nat, random: string, reply: StorageReply)
    ensures var r := UploadTo(bucket, limitMb, allowed, f, userId, timestamp, random, reply);
            r.outcome.Thrown? ==> (StartsWith(r.outcome.message, StorageFailurePrefix) <==> r.request.Some?)
  {
    var r := UploadTo(bucket, limitMb, allowed, f, userId, timestamp, random, reply);
    if r.outcome.Thrown? && r.request.None? {
      var m := r.outcome.message;
      if f.size > limitMb * MiB {
        assert m == "File size exceeds " + (NatToString(limitMb) + "MB limit");
      } else {
        assert m == "File type " + (f.mimeType + " is not supported");
      }
      assert m[0] == 'F' && StorageFailurePrefix[0] == 'U';
    }
  }

  function UploadVideo(f: FileInfo, userId: string, timestamp: nat, random: string, reply: StorageReply): (r: UploadRun)
    ensures r.request.Some? <==> f.size <= MaxVideoSize && f.mimeType in AllowedVideoTypes
    ensures r.request.Some? ==> r.request.value.bucket == Videos
  {
    UploadTo(Videos, VideoLimitMb, AllowedVideoTypes, f, userId, timestamp, random, reply)
  }

  function UploadAvatar(f: FileInfo, userId: string, timestamp: nat, random: string, reply: StorageReply): (r: UploadRun)
    ensures r.request.Some? <==> f.size <= MaxAvatarSize && f.mimeType in AllowedImageTypes
    ensures r.request.Some? ==> r.request.value.bucket == Avatars
  {
    UploadTo(Avatars, AvatarLimitMb, AllowedImageTypes, f, userId, timestamp, random, reply)
  }

  /** Portfolio images use the avatar limit and image types. */
  function UploadPortfolioImage(f: FileInfo, userId: string, timestamp: nat, random: string, reply: StorageReply): (r: UploadRun)
    ensures r.request.Some? <==> f.size <= MaxAvatarSize && f.mimeType in AllowedImageTypes
    ensures r.request.Some? ==> r.request.value.bucket == Portfolio
  {
    UploadTo(Portfolio, AvatarLimitMb, AllowedImageTypes, f, userId, timestamp, random, reply)
  }

  /** A portfolio image is accepted or refused, with the same message, exactly
      as an avatar would be; only the bucket differs. */
  lemma PortfolioMatchesAvatar(f: FileInfo, userId: string, timestamp: nat, random: string, reply: StorageReply)
    ensures UploadPortfolioImage(f, userId, timestamp, random, reply).outcome
            == UploadAvatar(f, userId, timestamp, random, reply).outcome
    ensures UploadPortfolioImage(f, userId, timestamp, random, reply).request.Some?
            == UploadAvatar(f, userId, timestamp, random, reply).request.Some?
  {
  }
}

=== FILE: validation.dfy ===
/** The sign-up form checks of src/utils/validation.ts: the e-mail and
    full-name patterns, the five password rules with their score and
    strength, the strength percentage shown in the meter, and the meter's
    colour. */
module Validation {
  import opened Text

  // ---------------------------------------------------------------------------
  // validateEmail: /^[^\s@]+@[^\s@]+\.[^\s@]+$/
  // ---------------------------------------------------------------------------

  /** The regex class `[^\s@]`. */
  predicate IsEmailChar(c: char) { !IsSpace(c) && c != '@' }

  predicate AllEmailChars(s: string) {
    forall k :: 0 <= k < |s| ==> IsEmailChar(s[k])
  }

  /** `s` splits as A "@" B "." C with the '@' at `i` and the '.' at `j`,
      and A, B, C non-empty runs of `[^\s@]`. */
  predicate EmailSplit(s: string, i: int, j: int) {
    && 0 < i && i + 1 < j && j + 1 < |s|
    && s[i] == '@' && s[j] == '.'
    && AllEmailChars(s[..i]) && AllEmailChars(s[i + 1..j]) && AllEmailChars(s[j + 1..])
  }

  /** validateEmail: the anchored regex, read as the language it accepts. */
  predicate ValidateEmail(s: string) {
    exists i, j | 0 < i < j < |s| :: EmailSplit(s, i, j)
  }

  /** `r` has a '.' that is neither its first nor its last character. */
  predicate HasInnerDot(r: string) {
    exists p | 0 < p < |r| - 1 :: r[p] == '.'
  }

  /** `s` is L "@" R with the '@' at `i`, L and R non-empty and free of
      whitespace and '@', and R holding an inner '.'. */
  predicate AddressAt(s: string, i: int) {
    && 0 < i < |s|
    && s[i] == '@'
    && AllEmailChars(s[..i]) && AllEmailChars(s[i + 1..]) && HasInnerDot(s[i + 1..])
  }

  /** The address shape the e-mail check accepts. */
  predicate AddressShape(s: string) {
    exists i | 0 < i < |s| :: AddressAt(s, i)
  }

  /** The e-mail regex accepts exactly the strings `L@R` where L and R are
      non-empty, hold no whitespace or '@', and R has an inner '.'. */
  lemma ValidateEmailShape(s: string)
    ensures ValidateEmail(s) <==> AddressShape(s)
  {
    if ValidateEmail(s) {
      var i, j :| 0 < i < j < |s| && EmailSplit(s, i, j);
      SplitIsAddress(s, i, j);
    }
    if AddressShape(s) {
      var i :| 0 < i < |s| && AddressAt(s, i);
      var p :| 0 < p < |s[i + 1..]| - 1 && s[i + 1..][p] == '.';
      AddressIsSplit(s, i, p);
    }
  }

  lemma SplitIsAddress(s: string, i: int, j: int)
    requires EmailSplit(s, i, j)
    ensures AddressAt(s, i)
  {
    var r := s[i + 1..];
    assert r == s[i + 1..j] + [s[j]] + s[j + 1..];
    assert r[j - i - 1] == '.';
  }

  lemma AddressIsSplit(s: string, i: int, p: int)
    requires AddressAt(s, i)
    requires 0 < p < |s[i + 1..]| - 1 && s[i + 1..][p] == '.'
    ensures EmailSplit(s, i, i + 1 + p)
  {
    var r := s[i + 1..];
    var j := i + 1 + p;
    assert s[i + 1..j] == r[..p];
    assert s[j + 1..] == r[p + 1..];
  }

  // ---------------------------------------------------------------------------
  // validateFullName: /^[a-zA-Z\s]{2,}$/ on the trimmed name
  // ---------------------------------------------------------------------------

  predicate ValidateFullName(name: string) {
    var t := Trim(name);
    |t| >= 2 && forall k :: 0 <= k < |t| ==> IsAsciiLetter(t[k]) || IsSpace(t[k])
  }

  /** An accepted name starts and ends with an ASCII letter once trimmed, and
      a name made only of whitespace is refused. */
  lemma FullNameShape(name: string)
    ensures ValidateFullName(name) ==>
              var t := Trim(name);
              IsAsciiLetter(t[0]) && IsAsciiLetter(t[|t| - 1])
    ensures AllSpace(name) ==> !ValidateFullName(name)
  {
    TrimEmptyIff(name);
  }

  /** Reference reading of the name rule on the untrimmed text: only ASCII
      letters and whitespace, with at least two letters. */
  predicate LettersAndSpaces(name: string) {
    && (forall k :: 0 <= k < |name| ==> IsAsciiLetter(name[k]) || IsSpace(name[k]))
    && exists i, j | 0 <= i < j < |name| :: IsAsciiLetter(name[i]) && IsAsciiLetter(name[j])
  }

  /** The trimmed regex test accepts exactly the names made of letters and
      whitespace that hold at least two letters. */
  lemma FullNameIff(name: string)
    ensures ValidateFullName(name) <==> LettersAndSpaces(name)
  {
    if ValidateFullName(name) {
      AcceptedNameHasTwoLetters(name);
    }
    if LettersAndSpaces(name) {
      var i, j :| 0 <= i < j < |name| && IsAsciiLetter(name[i]) && IsAsciiLetter(name[j]);
      TwoLettersAccepted(name, i, j);
    }
  }

  lemma AcceptedNameHasTwoLetters(name: string)
    requires ValidateFullName(name)
    ensures LettersAndSpaces(name)
  {
    var t := Trim(name);
    var lo := TrimStart(name);
    FullNameShape(name);
    forall k | 0 <= k < |name| ensures IsAsciiLetter(name[k]) || IsSpace(name[k]) {
      if lo <= k < lo + |t| {
        assert name[k] == t[k - lo];
      }
    }
    assert name[lo] == t[0] && name[lo + |t| - 1] == t[|t| - 1];
    assert IsAsciiLetter(name[lo]) && IsAsciiLetter(name[lo + |t| - 1]);
  }

  lemma TwoLettersAccepted(name: string, i: int, j: int)
    requires forall k :: 0 <= k < |name| ==> IsAsciiLetter(name[k]) || IsSpace(name[k])
    requires 0 <= i < j < |name| && IsAsciiLetter(name[i]) && IsAsciiLetter(name[j])
    ensures ValidateFullName(name)
  {
    var t := Trim(name);
    var lo := TrimStart(name);
    InsideTrim(name, i, j + 1);
    forall k | 0 <= k < |t| ensures IsAsciiLetter(t[k]) || IsSpace(t[k]) {
      assert t[k] == name[lo + k];
    }
  }

  // ---------------------------------------------------------------------------
  // validatePassword
  // ---------------------------------------------------------------------------

  datatype Strength = Weak | Medium | Strong

  datatype PasswordCheck = PasswordCheck(isValid: bool, strength: Strength, issues: seq<string>)

  /** The five password rules, in the order the source checks them. */
  datatype Rule = Length | Lowercase | Uppercase | Digit | Special

  const RuleOrder: seq<Rule> := [Length, Lowercase, Uppercase, Digit, Special]

  /** The four character classes, each worth 20 points. */
  const ClassRules: seq<Rule> := [Lowercase, Uppercase, Digit, Special]

  const LengthIssue := "At least 8 characters required"
  const LowercaseIssue := "Include lowercase letters"
  const UppercaseIssue := "Include uppercase letters"
  const DigitIssue := "Include numbers"
  const SpecialIssue := "Include special characters"

  function IssueText(r: Rule): string {
    match r
    case Length => LengthIssue
    case Lowercase => LowercaseIssue
    case Uppercase => UppercaseIssue
    case Digit => DigitIssue
    case Special => SpecialIssue
  }

  /** The class `[!@#$%^&*()_+\-=\[\]{};':"\\|,.<>\/?]`. */
  const SpecialChars := "!@#$%^&*()_+-=" + "[]{};':\"\\|,.<>/?"

  predicate IsSpecial(c: char) {
    c in SpecialChars
  }

  predicate HasLower(p: string) { exists k | 0 <= k < |p| :: IsAsciiLower(p[k]) }
  predicate HasUpper(p: string) { exists k | 0 <= k < |p| :: IsAsciiUpper(p[k]) }
  predicate HasDigit(p: string) { exists k | 0 <= k < |p| :: IsDigit(p[k]) }
  predicate HasSpecial(p: string) { exists k | 0 <= k < |p| :: IsSpecial(p[k]) }

  predicate Passes(p: string, r: Rule) {
    match r
    case Length => Utf16Length(p) >= 8
    case Lowercase => HasLower(p)
    case Uppercase => HasUpper(p)
    case Digit => HasDigit(p)
    case Special => HasSpecial(p)
  }

  /** Reference issue list: the text of every rule in `rules` that `p`
      fails, in the order of `rules`. */
  function IssuesFor(p: string, rules: seq<Rule>): seq<string> {
    if |rules| == 0 then []
    else (if Passes(p, rules[0]) then [] else [IssueText(rules[0])]) + IssuesFor(p, rules[1..])
  }

  function ExpectedIssues(p: string): seq<string> {
    IssuesFor(p, RuleOrder)
  }

  /** Reference score: 20 for 8+ characters, 10 more for 12+, and 20 for each
      character class present. Lengths are JavaScript's `length`, in UTF-16
      code units. */
  function Score(p: string): int {
    (if Utf16Length(p) >= 8 then 20 else 0) + (if Utf16Length(p) >= 12 then 10 else 0)
    + 20 * Count(ClassRules, (r: Rule) => Passes(p, r))
  }

  function StrengthOf(score: int): Strength {
    if score < 40 then Weak else if score < 70 then Medium else Strong
  }

  /** validatePassword, step by step as the source accumulates it. */
  function ValidatePassword(p: string): (r: PasswordCheck)
    ensures r.issues == ExpectedIssues(p)
    ensures r.isValid <==> r.issues == []
    ensures r.strength == StrengthOf(Score(p))
  {
    var length := Utf16Length(p);
    var issues :=
      (if length < 8 then [LengthIssue] else [])
      + (if !HasLower(p) then [LowercaseIssue] else [])
      + (if !HasUpper(p) then [UppercaseIssue] else [])
      + (if !HasDigit(p) then [DigitIssue] else [])
      + (if !HasSpecial(p) then [SpecialIssue] else []);
    var score :=
      (if length < 8 then 0 else 20 + (if length >= 12 then 10 else 0))
      + (if HasLower(p) then 20 else 0)
      + (if HasUpper(p) then 20 else 0)
      + (if HasDigit(p) then 20 else 0)
      + (if HasSpecial(p) then 20 else 0);
    var strength := StrengthOf(score);
    ExpectedIssuesUnfold(p);
    ScoreUnfold(p);
    PasswordCheck(|issues| == 0, strength, issues)
  }

  lemma ExpectedIssuesUnfold(p: string)
    ensures ExpectedIssues(p) ==
      (if Utf16Length(p) < 8 then [LengthIssue] else [])
      + (if !HasLower(p) then [LowercaseIssue] else [])
      + (if !HasUpper(p) then [UppercaseIssue] else [])
      + (if !HasDigit(p) then [DigitIssue] else [])
      + (if !HasSpecial(p) then [SpecialIssue] else [])
  {
    IssuesInOrder(p);
    AppendFive(Flag(p, Length), Flag(p, Lowercase), Flag(p, Uppercase), Flag(p, Digit), Flag(p, Special));
  }

  /** The issue a single rule contributes. */
  function Flag(p: string, r: Rule): (f: seq<string>)
    ensures f == [] <==> Passes(p, r)
  {
    if Passes(p, r) then [] else [IssueText(r)]
  }

  lemma IssuesInOrder(p: string)
    ensures ExpectedIssues(p) == Flag(p, Length) + (Flag(p, Lowercase) + (Flag(p, Uppercase) + (Flag(p, Digit) + Flag(p, Special))))
  {
    var s1: seq<Rule> := [Special];
    var s2: seq<Rule> := [Digit] + s1;
    var s3: seq<Rule> := [Uppercase] + s2;
    var s4: seq<Rule> := [Lowercase] + s3;
    assert RuleOrder == [Length] + s4;
    IssuesForCons(p, Special, []);
    assert [Special] + [] == s1;
    IssuesForCons(p, Digit, s1);
    IssuesForCons(p, Uppercase, s2);
    IssuesForCons(p, Lowercase, s3);
    IssuesForCons(p, Length, s4);
  }

  lemma AppendFive<T>(a: seq<T>, b: seq<T>, c: seq<T>, d: seq<T>, e: seq<T>)
    ensures a + (b + (c + (d + e))) == a + b + c + d + e
  {
  }

  lemma IssuesForCons(p: string, r: Rule, rest: seq<Rule>)
    ensures IssuesFor(p, [r] + rest) == Flag(p, r) + IssuesFor(p, rest)
  {
    assert ([r] + rest)[1..] == rest;
  }

  /** A rule's issue appears exactly when the rule is listed and fails; the
      list is no longer than the rules checked, and empty exactly when every
      listed rule passes. */
  lemma {:induction false} IssuesForMembers(p: string, rules: seq<Rule>)
    ensures forall rule :: IssueText(rule) in IssuesFor(p, rules) <==> rule in rules && !Passes(p, rule)
    ensures |IssuesFor(p, rules)| <= |rules|
    ensures IssuesFor(p, rules) == [] <==> forall k :: 0 <= k < |rules| ==> Passes(p, rules[k])
  {
    if |rules| > 0 {
      IssuesForMembers(p, rules[1..]);
      assert forall rule :: rule in rules <==> rule == rules[0] || rule in rules[1..];
      forall rule ensures IssueText(rule) == IssueText(rules[0]) <==> rule == rules[0] {
        IssueTextInjective(rule, rules[0]);
      }
      if IssuesFor(p, rules) == [] {
        forall k | 0 <= k < |rules| ensures Passes(p, rules[k]) {
          if k > 0 {
            assert rules[k] == rules[1..][k - 1];
          }
        }
      }
      if forall k :: 0 <= k < |rules| ==> Passes(p, rules[k]) {
        assert forall k :: 0 <= k < |rules[1..]| ==> rules[1..][k] == rules[k + 1];
      }
    }
  }

  lemma IssueTextInjective(a: Rule, b: Rule)
    ensures IssueText(a) == IssueText(b) <==> a == b
  {
    if a != b {
      assert IssueText(a)[1] != IssueText(b)[1] || IssueText(a)[8] != IssueText(b)[8];
    }
  }

  /** The issue list names each failing rule once and nothing else, so it
      holds at most five entries; it is empty exactly when every rule
      passes. */
  lemma IssuesAreFailingRules(p: string)
    ensures |ValidatePassword(p).issues| <= 5
    ensures forall rule :: IssueText(rule) in ValidatePassword(p).issues <==> !Passes(p, rule)
    ensures ValidatePassword(p).isValid <==> forall rule :: Passes(p, rule)
  {
    IssuesForMembers(p, RuleOrder);
    forall rule ensures rule in RuleOrder {
      match rule
      case Length =>
      case Lowercase =>
      case Uppercase =>
      case Digit =>
      case Special =>
    }
    if forall k :: 0 <= k < |RuleOrder| ==> Passes(p, RuleOrder[k]) {
      forall rule ensures Passes(p, rule) {
        var k :| 0 <= k < |RuleOrder| && RuleOrder[k] == rule;
      }
    }
  }

  /** A password shorter than eight UTF-16 code units reports the length
      issue first. */
  lemma ShortFailsLengthFirst(p: string)
    requires Utf16Length(p) < 8
    ensures ValidatePassword(p).issues != [] && ValidatePassword(p).issues[0] == LengthIssue
  {
    IssuesInOrder(p);
  }

  /** Eight UTF-16 code units with all four classes make a valid password. */
  lemma AllClassesValid(p: string)
    requires Utf16Length(p) >= 8 && HasLower(p) && HasUpper(p) && HasDigit(p) && HasSpecial(p)
    ensures ValidatePassword(p).isValid
  {
    IssuesInOrder(p);
  }

  /** The length rule counts UTF-16 code units: seven characters of which two
      lie above U+FFFF make nine units, enough for a valid password. */
  lemma SurrogatePairsCountTwice()
    ensures var p := "Abc1!" + ['\U{1F600}', '\U{1F600}'];
            |p| == 7 && Utf16Length(p) == 9 && ValidatePassword(p).isValid
  {
    var ascii := "Abc1!";
    var emoji := ['\U{1F600}', '\U{1F600}'];
    var p := ascii + emoji;
    assert forall k :: 0 <= k < |ascii| ==> ascii[k] as int <= 0xFFFF;
    assert Utf16Length(ascii) == 5;
    assert Utf16Length(emoji[1..]) == 2;
    assert Utf16Length(emoji) == 4;
    Utf16LengthAppend(ascii, emoji);
    assert Utf16Length(p) == 9;
    assert IsAsciiLower(p[1]) && IsAsciiUpper(p[0]) && IsDigit(p[3]);
    assert HasLower(p) && HasUpper(p) && HasDigit(p);
    assert SpecialChars[0] == p[4];
    assert IsSpecial(p[4]);
    assert HasSpecial(p);
    AllClassesValid(p);
  }

  /** Strength thresholds: weak below 40, medium from 40 to 69, strong from 70. */
  lemma StrengthThresholds(p: string)
    ensures ValidatePassword(p).strength == Weak <==> Score(p) < 40
    ensures ValidatePassword(p).strength == Medium <==> 40 <= Score(p) < 70
    ensures ValidatePassword(p).strength == Strong <==> Score(p) >= 70
  {
  }

  lemma ScoreUnfold(p: string)
    ensures Score(p) ==
      (if Utf16Length(p) < 8 then 0 else 20 + (if Utf16Length(p) >= 12 then 10 else 0))
      + (if HasLower(p) then 20 else 0)
      + (if HasUpper(p) then 20 else 0)
      + (if HasDigit(p) then 20 else 0)
      + (if HasSpecial(p) then 20 else 0)
  {
    assert ClassRules[1..][1..][1..][1..] == [];
  }

  /** A password that passes every rule scores at least 100 and is strong. */
  lemma ValidPasswordIsStrong(p: string)
    ensures ValidatePassword(p).isValid ==> Score(p) >= 100 && ValidatePassword(p).strength == Strong
  {
    ScoreUnfold(p);
    if ValidatePassword(p).isValid {
      assert Passes(p, Length) && Passes(p, Lowercase) && Passes(p, Uppercase);
      assert Passes(p, Digit) && Passes(p, Special);
    }
  }

  // ---------------------------------------------------------------------------
  // getPasswordStrengthPercentage and getPasswordStrengthColor
  // ---------------------------------------------------------------------------

  /** getPasswordStrengthPercentage: six independent checks, capped at 100. */
  function StrengthPercentage(p: string): (r: int)
    ensures r == if Score(p) < 100 then Score(p) else 100
    ensures 0 <= r <= 100
    ensures ValidatePassword(p).isValid ==> r == 100
  {
    var length := Utf16Length(p);
    var score :=
      (if length >= 8 then 20 else 0)
      + (if length >= 12 then 10 else 0)
      + (if HasLower(p) then 20 else 0)
      + (if HasUpper(p) then 20 else 0)
      + (if HasDigit(p) then 20 else 0)
      + (if HasSpecial(p) then 20 else 0);
    ScoreUnfold(p);
    ValidPasswordIsStrong(p);
    if score < 100 then score else 100
  }

  /** getPasswordStrengthColor: one Tailwind class per strength. */
  function StrengthColor(s: Strength): string {
    match s
    case Weak => "bg-red-500"
    case Medium => "bg-yellow-500"
    case Strong => "bg-green-500"
  }

  /** The colour mapping is total and tells the three strengths apart. */
  lemma StrengthColorDistinct(a: Strength, b: Strength)
    ensures StrengthColor(a) == StrengthColor(b) <==> a == b
    ensures StartsWith(StrengthColor(a), "bg-")
  {
    if a != b {
      assert StrengthColor(a)[3] != StrengthColor(b)[3];
    }
  }
}

=== FILE: video_feed.dfy ===
/** src/components/VideoFeed.tsx: the like toggle, the location filter and
    the scroll-position guard. */
module VideoFeed {
  import opened Text

  /** The fields of a feed entry that these handlers read or write.
      `location` is None when the provider profile or its location is null. */
  datatype Video = Video(id: string, userLiked: bool, likesCount: int, location: Option<string>)

  /** The like request sent for the clicked video. */
  datatype LikeRequest = Unlike(videoId: string, userId: string) | LikeInsert(videoId: string, userId: string)

  /** How the awaited request ended. The client library reports database
      errors in its result rather than throwing, so only a thrown exception
      skips the list update. */
  datatype Outcome = Returned | Threw

  datatype LikeClick = LikeClick(videos: seq<Video>, request: Option<LikeRequest>)

  /** The list update: the entry with the matching id flips `userLiked` and
      moves `likesCount` by one; every other entry is kept. */
  function ToggleLike(videos: seq<Video>, id: string): (r: seq<Video>)
    ensures |r| == |videos|
    ensures forall k :: 0 <= k < |videos| && videos[k].id != id ==> r[k] == videos[k]
    ensures forall k :: 0 <= k < |videos| && videos[k].id == id ==>
              r[k].id == id && r[k].userLiked == !videos[k].userLiked
              && r[k].location == videos[k].location
              && r[k].likesCount == videos[k].likesCount + (if videos[k].userLiked then -1 else 1)
  {
    seq(|videos|, k requires 0 <= k < |videos| =>
      var v := videos[k];
      if v.id == id
      then v.(userLiked := !v.userLiked, likesCount := if v.userLiked then v.likesCount - 1 else v.likesCount + 1)
      else v)
  }

  /** Applying the update twice gives back the list. */
  lemma ToggleLikeTwice(videos: seq<Video>, id: string)
    ensures ToggleLike(ToggleLike(videos, id), id) == videos
  {
    var once := ToggleLike(videos, id);
    var twice := ToggleLike(once, id);
    forall k | 0 <= k < |videos| ensures twice[k] == videos[k] {
      if videos[k].id == id {
        assert once[k].id == id;
      }
    }
  }

  /** There is no lower clamp: unliking a video shown with 0 likes gives -1. */
  lemma UnlikeAtZero(v: Video)
    requires v.userLiked && v.likesCount == 0
    ensures ToggleLike([v], v.id)[0].likesCount == -1
  {
  }

  /** handleLike. `user` is the signed-in user's id, `liking` whether a like is
      already in flight. */
  function HandleLike(videos: seq<Video>, user: Option<string>, liking: bool, clicked: Video, outcome: Outcome): (r: LikeClick)
    ensures user.None? || liking ==> r.videos == videos && r.request.None?
    ensures user.Some? && !liking ==>
              r.request == Some(if clicked.userLiked then Unlike(clicked.id, user.value) else LikeInsert(clicked.id, user.value))
    ensures outcome == Threw ==> r.videos == videos
    ensures user.Some? && !liking && outcome == Returned ==> r.videos == ToggleLike(videos, clicked.id)
  {
    if user.None? || liking then LikeClick(videos, None)
    else
      var request := if clicked.userLiked then Unlike(clicked.id, user.value) else LikeInsert(clicked.id, user.value);
      match outcome
      case Returned => LikeClick(ToggleLike(videos, clicked.id), Some(request))
      case Threw => LikeClick(videos, Some(request))
  }

  /** Liking and then unliking the same entry, both calls returning, sends
      the two opposite requests and gives back the list as it was. */
  lemma LikeThenUnlikeRestores(videos: seq<Video>, user: string, i: int)
    requires 0 <= i < |videos|
    ensures var first := HandleLike(videos, Some(user), false, videos[i], Returned);
            var second := HandleLike(first.videos, Some(user), false, first.videos[i], Returned);
            second.videos == videos
            && first.request.Some? && second.request.Some?
            && first.request.value.videoId == second.request.value.videoId == videos[i].id
            && first.request.value.LikeInsert? == second.request.value.Unlike?
  {
    ToggleLikeTwice(videos, videos[i].id);
  }

  // ---------------------------------------------------------------------------
  // Location filter
  // ---------------------------------------------------------------------------

  /** The filter's test on one entry: a present location containing the
      filter text, ignoring ASCII case. */
  predicate LocationMatches(v: Video, filter: string) {
    v.location.Some? && ContainsIgnoreCase(v.location.value, filter)
  }

  /** The filter's test as a function value. */
  function Matching(filter: string): Video -> bool {
    v => LocationMatches(v, filter)
  }

  /** The filter applied after loading: an empty filter keeps everything;
      otherwise the matching entries are kept, each as often as it occurs
      and in the feed's order, which by Text.FilterUnique fixes the list. */
  function FilterByLocation(videos: seq<Video>, filter: string): (r: seq<Video>)
    ensures IsSubsequence(r, videos)
    ensures filter == "" ==> r == videos
    ensures filter != "" ==> forall k :: 0 <= k < |r| ==> LocationMatches(r[k], filter)
    ensures filter != "" ==> forall k :: 0 <= k < |videos| && LocationMatches(videos[k], filter) ==> videos[k] in r
    ensures filter != "" ==> |r| == Count(videos, Matching(filter))
  {
    if filter == "" then
      IsSubsequenceRefl(videos);
      videos
    else Filter(videos, Matching(filter))
  }

  /** An entry with no location is dropped by every non-empty filter. */
  lemma NullLocationDropped(videos: seq<Video>, filter: string)
    requires filter != ""
    ensures forall k :: 0 <= k < |FilterByLocation(videos, filter)| ==>
              FilterByLocation(videos, filter)[k].location.Some?
  {
  }

  // ---------------------------------------------------------------------------
  // Scroll guard
  // ---------------------------------------------------------------------------

  /** handleScroll. `newIndex` is `Math.round(scrollTop / itemHeight)`. */
  function HandleScroll(currentIndex: int, newIndex: int, videoCount: nat): (r: int)
    ensures r == currentIndex || (0 <= r < videoCount && r == newIndex)
    ensures newIndex != currentIndex && 0 <= newIndex < videoCount ==> r == newIndex
  {
    if newIndex != currentIndex && newIndex >= 0 && newIndex < videoCount then newIndex else currentIndex
  }

  /** Starting in range, the index stays in range through any scroll. */
  lemma {:induction false} ScrollStaysInRange(currentIndex: int, positions: seq<int>, videoCount: nat)
    requires 0 <= currentIndex < videoCount
    ensures 0 <= ScrollAll(currentIndex, positions, videoCount) < videoCount
    decreases |positions|
  {
    if |positions| > 0 {
      ScrollStaysInRange(HandleScroll(currentIndex, positions[0], videoCount), positions[1..], videoCount);
    }
  }

  /** A sequence of scroll events. */
  function ScrollAll(currentIndex: int, positions: seq<int>, videoCount: nat): int
    decreases |positions|
  {
    if |positions| == 0 then currentIndex
    else ScrollAll(HandleScroll(currentIndex, positions[0], videoCount), positions[1..], videoCount)
  }
}
